=== FILE: README.md ===
# RaumFi core: a Dafny model

This project models the core of RaumFi, a constant-product automated market
maker for Soroban (Stellar smart contracts). The model covers five parts:

- **Library** (`RaumFiV2Library`): the pure pricing arithmetic.
  - quotes;
  - the 0.3%-fee amount-out / amount-in formulas;
  - multi-hop amount chains;
  - optimal deposit amounts;
  - LP minting and burning shares;
  - price impact;
  - the constant-product check.
- **Pair**: one pool of two tokens.
  - `initialize`, `get_reserves`, `mint`, `swap`, `burn`;
  - the re-entrancy lock and the protocol fee on growth of `sqrt(k)`;
  - the pair's own LP-token ledger (`PairToken`, with `mint_token`, `burn_token`, `transfer`, `approve` and the storage helpers).
- **Factory**: fee settings, the pair registry and its count, and `create_pair`, which deploys and initialises pairs.
- **Router helper**: `sort_tokens` and the deterministic pair address.
- **Router**: `add_liquidity`, `remove_liquidity`, the two multi-hop swap entry points, and the read-only quoting entry points. Each runs over a world of token wallets, deployed pairs and the factory.

Modelling conventions:

- Every `i128`, `u32` and `u64` is an unbounded Dafny integer kept in range by a subset type (`Int128`). Checked arithmetic returns `Option`, and plain Rust arithmetic that would overflow is modelled as a trap.
- Rust's `/` on signed integers truncates toward zero. `Int128.TruncDiv` writes that out, because Dafny's `/` is Euclidean.
- A panic, an `unwrap` of an error or of an absent value, and a failing cross-contract call become the `Trap` error of the caller's error type. Errors the source returns as `Err` keep their own constructor.
- Soroban rolls back every storage write of an invocation that fails. So a failing operation returns only its error, and a successful one returns the new state.
- Contract addresses are natural numbers, and their order is the order `Address` compares in.
- The deployment address of a pair is the uninterpreted parameter `derive(factory, token0, token1)`, which stands for the SHA-256 salt over the XDR of the sorted tokens.
- `require_auth` is modelled by a `signers` set, and the ledger timestamp is the world's `now` field.

Modules:

| file | module | contents |
|---|---|---|
| `results.dfy` | `Results` | `Option`, `Result` with `:-` support |
| `int128.dfy` | `Int128` | `i128`/`u32`/`u64`, truncating division, checked and saturating arithmetic, integer square root |
| `addresses.dfy` | `Addresses` | addresses, ascending order, the deployment derivation |
| `pair_token.dfy`, `pair_token_proofs.dfy` | `PairToken`, `PairTokenProofs` | the LP-token ledger and its conservation laws |
| `library.dfy`, `library_proofs.dfy` | `Library`, `LibraryProofs` | pricing functions; round trips, completeness and uniqueness results, the library's unit-test values |
| `pair.dfy`, `pair_proofs.dfy` | `Pair`, `PairProofs` | the pair contract; LP-ledger balance, the product invariant, the pair's unit-test scenarios |
| `factory.dfy`, `factory_proofs.dfy` | `Factory`, `FactoryProofs` | the factory; registry invariants over any call sequence |
| `helper.dfy` | `RouterHelper` | the router's sorting and addressing helpers |
| `router.dfy`, `router_proofs.dfy` | `Router`, `RouterProofs` | the router over a world of wallets and pairs; quote-to-swap agreement, multi-hop decomposition |

## Model

| member | source | states |
|---|---|---|
| `Library.CheckedCeilingDiv` | contracts/lib/src/library.rs:33-46 | No result exactly for a zero divisor. For a non-negative numerator over a positive divisor, it is the least `q` with `q * d >= n`. It is exact when the division leaves no remainder. For a positive numerator over a negative divisor it is at most 1. |
| `Library.SortTokens` | contracts/lib/src/library.rs:50-60 | Fails with `IdenticalAddresses` exactly when the tokens are equal. Otherwise returns the same two tokens, strictly ascending. |
| `Library.PairFor` | contracts/lib/src/library.rs:63-75 | Fails exactly on identical tokens. Otherwise returns the deployment address for the ascending pair, whatever the argument order. |
| `Library.GetReserves` | contracts/lib/src/library.rs:78-93 | Reads the pair's reserves under the canonical order. For descending arguments it returns them swapped, so each reserve belongs to its argument token. A missing pair traps. |
| `Library.CalculateQuote` | contracts/lib/src/library.rs:96-108 | Rejects a zero amount, then empty reserves. Overflows exactly when `amountA * reserveB` leaves `i128`. On positive inputs the result is the floor of `amountA * reserveB / reserveA`. |
| `Library.SwapFee` | contracts/lib/src/library.rs:119-121 | The library's fee is at least 1 and at most the input. Above 1 it is the floor of 0.3% of the input, and it is 1 whenever 0.3% is below 2. |
| `Library.CalculateAmountOut` | contracts/lib/src/library.rs:111-128 | Gives each error condition exactly: non-positive input, non-positive reserves, a trap on `amountIn * 3`, overflow of the net product or the new reserve. The output is the floor of `net * reserveOut / (reserveIn + net)`. It stays below `reserveOut`, and the product of the reserves never shrinks. |
| `Library.CalculateAmountIn` | contracts/lib/src/library.rs:131-159 | Gives every error condition. For positive inputs, `Overflow` happens exactly when `reserveIn * out * 1000` or `(reserveOut - out) * 997` leaves `i128`. Away from `out == reserveOut` (division by zero), the call succeeds exactly when neither does. Below the reserve, the result is the ceiling of `reserveIn * out * 1000 / ((reserveOut - out) * 997)` plus one. Above the reserve the divisor is negative and the result is at most 2. |
| `Library.ExtendOut` | contracts/lib/src/library.rs:171-180 | The forward loop keeps the amounts computed so far as a prefix. A successful result has one amount per path token, each linked to the one before by `CalculateAmountOut` on that hop's reserves. |
| `Library.GetAmountsOut` | contracts/lib/src/library.rs:162-181 | Rejects paths shorter than 2 with `InvalidPath`. A success starts with the input amount and is a chain of per-hop amount-out quotes. |
| `Library.ExtendIn` | contracts/lib/src/library.rs:193-202 | The backward loop keeps the computed amounts as a suffix. A successful result links every amount to the next by `CalculateAmountIn`. |
| `Library.GetAmountsIn` | contracts/lib/src/library.rs:184-203 | Rejects short paths. A success ends with the requested output and is a chain of per-hop amount-in quotes. |
| `Library.CalculateK` | contracts/lib/src/library.rs:206-208 | The product of the reserves, or `Overflow` exactly when it leaves `i128`. |
| `Library.OptimalLiquidity` | contracts/lib/src/library.rs:210-237 | Empty reserves take both desired amounts. Otherwise the B quote decides. If it fits the B desire, the result is that quote or `InsufficientBAmount` below the B minimum. If not, the A quote of the B desire decides: a quote above the A desire panics, one below the A minimum is `InsufficientAAmount`, and any other gives that quote with the full B desire. Quote errors pass through. Any success uses one side in full and keeps the other between its minimum and desire. |
| `Library.CalculatePriceImpact` | contracts/lib/src/library.rs:240-257 | Any zero argument is an error. For a trade no better than the mid price, the impact lies between 0 and 10000 basis points. |
| `Library.CalculateLiquidityMinted` | contracts/lib/src/library.rs:260-289 | Any success is positive. The bootstrap mint is the integer square root of the product less 1000, and fails exactly when that root is at most 1000. A later mint checks in order: each scaled deposit must fit `i128` (`Overflow`), and each division must be defined (`DivisionByZero`). Then the result is the smaller truncated share, or `InsufficientLiquidityMinted` when that is not positive. With positive values it is the largest pro-rata share both deposits support. |
| `Library.CalculateBurnAmounts` | contracts/lib/src/library.rs:292-316 | Burning more than the supply fails. Otherwise each scaled reserve must fit `i128` (`Overflow`), and each division by the supply must be defined (`DivisionByZero`). Then the result is the pair of truncated shares, or `InsufficientLiquidityBurned` when either is not positive. With non-negative values each share is the floor of the pro-rata share and at most its reserve. |
| `Library.IsConstantProductMaintained` | contracts/lib/src/library.rs:318-335 | True exactly when both products fit `i128` and the new product is at least the old one. |
| `LibraryProofs.AmountInCoversAmountOut` | contracts/lib/src/library.rs:111-159 | Round trip: paying the amount-in quote for an output below the reserve gets at least that output back. |
| `LibraryProofs.AmountOutKeepsProduct` | contracts/lib/src/library.rs:111-128 | After paying the input and taking the quoted output, the reserve product does not decrease. |
| `LibraryProofs.AmountOutPassesProductCheck` | contracts/lib/src/library.rs:318-335 | The library's own constant-product check accepts every amount-out quote whose products fit `i128`. |
| `LibraryProofs.QuoteOfDouble` | contracts/lib/src/library.rs:96-108 | Doubling the amount doubles the quote up to one unit of rounding. |
| `LibraryProofs.QuoteNotLinear` | contracts/lib/src/library.rs:96-108 | Rounding makes the quote non-additive: 1 quotes 0 but 2 quotes 1 against reserves 2/1. |
| `LibraryProofs.GetReservesSwapped` | contracts/lib/src/library.rs:78-93 | Swapping the arguments swaps the reserves, and success does not depend on the order. |
| `LibraryProofs.ExtendOutComplete` | contracts/lib/src/library.rs:171-180 | Any valid forward chain is what the loop produces from any of its prefixes. |
| `LibraryProofs.GetAmountsOutComplete` | contracts/lib/src/library.rs:162-181 | Any valid forward chain starting with the input is returned by `get_amounts_out`, so together with its contract the result is exactly the unique chain. |
| `LibraryProofs.ExtendInComplete` | contracts/lib/src/library.rs:193-202 | Any valid backward chain is what the loop produces from any of its suffixes. |
| `LibraryProofs.GetAmountsInComplete` | contracts/lib/src/library.rs:184-203 | Any valid backward chain ending in the output is returned by `get_amounts_in`. |
| `LibraryProofs.OptimalLiquidityKeepsRatio` | contracts/lib/src/library.rs:219-236 | With positive reserves and desires, one amount is the desired one and the other is the floor of its price at the reserve ratio. |
| `LibraryProofs.OptimalLiquidityIgnoresUsedSideMinimum` | contracts/lib/src/library.rs:223-228 | When the quoted B amount fits, the A minimum is never checked: A's desired 100 passes with a minimum of 200. |
| `LibraryProofs.ProRataMintUnique` | contracts/lib/src/library.rs:272-283 | At most one amount is the largest pro-rata share. So the later-mint result is fully determined by that description. |
| `LibraryProofs.BootstrapMintIsRootLessMinimum` | contracts/lib/src/library.rs:269-271 | With no supply and a product whose root exceeds 1000, the minted liquidity is that root less 1000. |
| `LibraryProofs.BurnAmountsSucceed` | contracts/lib/src/library.rs:292-316 | Burning a positive part of a positive supply succeeds when each reserve's share reaches one unit, and neither amount exceeds its reserve. |
| `LibraryProofs.QuoteExample` | contracts/lib/src/test.rs:103-120 | 100 against reserves 1000/2000 quotes 200. |
| `LibraryProofs.AmountOutExample` | contracts/lib/src/test.rs:123-140 | 3 in against reserves 100/100 gives 1 out. |
| `LibraryProofs.AmountInExample` | contracts/lib/src/test.rs:143-158 | 1 out against reserves 100/100 needs 3 in. |
| `LibraryProofs.CalculateKExample` | contracts/lib/src/test.rs:226-248 | The product of 1000 and 2000 is 2,000,000. |
| `LibraryProofs.OptimalLiquidityExample` | contracts/lib/src/test.rs:251-284 | Desires 100/200 at reserves 1000/2000 deposit exactly 100/200. |
| `LibraryProofs.PriceImpactExample` | contracts/lib/src/test.rs:287-310 | 100 in for 189 out at reserves 10000/20000 is 550 basis points. The test's bound of 1000 holds. |
| `LibraryProofs.LiquidityMintedExample` | contracts/lib/src/test.rs:313-337 | Depositing 100/200 into reserves 1000/2000 with supply 1000 mints 100. |
| `LibraryProofs.BurnAmountsExample` | contracts/lib/src/test.rs:340-365 | Burning 100 of 1000 from reserves 1000/2000 pays 100/200. |
| `LibraryProofs.ConstantProductExamples` | contracts/lib/src/test.rs:368-395 | 1100/1900 keeps the product of 1000/2000; 1100/1800 does not. |
| `PairToken.TotalSupply` | contracts/pair/src/pair_token/token_storage.rs:11-13 | The stored supply, 0 when never written. |
| `PairToken.SetTotalSupply` | contracts/pair/src/pair_token/token_storage.rs:15-17 | Reading back gives the written supply; balances and allowances are untouched. |
| `PairToken.Balance` | contracts/pair/src/pair_token/token_storage.rs:19-21 | The stored balance, 0 for an address never written. |
| `PairToken.SetBalance` | contracts/pair/src/pair_token/token_storage.rs:23-25 | Reading back gives the written balance; every other balance, the supply and the allowances are untouched. |
| `PairToken.Allowance` | contracts/pair/src/pair_token/token_storage.rs:27-29 | The stored allowance, 0 when never written. |
| `PairToken.SetAllowance` | contracts/pair/src/pair_token/token_storage.rs:31-33 | Reading back gives the written allowance; every other pair's allowance, the balances and the supply are untouched. |
| `PairToken.BurnLogic` | contracts/pair/src/pair_token/token_storage.rs:40-51 | Traps exactly on a negative amount or an overflow. Otherwise the holder loses the amount, the supply GROWS by it, and nobody else changes. |
| `PairToken.MintLogic` | contracts/pair/src/pair_token/token_storage.rs:53-65 | Traps exactly on a negative amount or an overflow. Otherwise the holder gains the amount, the supply SHRINKS by it, and nobody else changes. |
| `PairToken.MintToken` | contracts/pair/src/pair_token/pair_token.rs:16-23 | A non-positive amount is `InvalidAmount`. Otherwise it succeeds exactly when nothing overflows, with the effect of `mint_logic` on the recipient's current balance. |
| `PairToken.BurnToken` | contracts/pair/src/pair_token/pair_token.rs:25-32 | Panics on a negative amount or an overflow. Otherwise it has the effect of `burn_logic` on the holder's current balance. |
| `PairToken.Approve` | contracts/pair/src/pair_token/pair_token.rs:42-47 | Needs the owner's signature. It sets exactly one allowance and returns true; balances and supply are untouched. |
| `PairToken.DoTransfer` | contracts/pair/src/pair_token/pair_token.rs:54-64 | Panics when the sender holds less than the amount. Otherwise it moves the amount between two distinct holders and fails exactly on overflow; a self-transfer leaves the balance as it was. Nobody else, nor the supply, changes. |
| `PairToken.Transfer` | contracts/pair/src/pair_token/pair_token.rs:49-52 | Without the sender's signature it traps. With it, it is the internal transfer. |
| `PairTokenProofs.MintTokenKeepsSupplyPlusHoldings` | contracts/pair/src/pair_token/token_storage.rs:53-65 | Minting raises the sum of all balances by the amount and keeps supply plus holdings constant. |
| `PairTokenProofs.BurnTokenKeepsSupplyPlusHoldings` | contracts/pair/src/pair_token/token_storage.rs:40-51 | Burning lowers the sum of all balances by the amount and keeps supply plus holdings constant. |
| `PairTokenProofs.TransferKeepsHoldings` | contracts/pair/src/pair_token/pair_token.rs:54-64 | A transfer keeps the sum of all balances and the supply. |
| `PairTokenProofs.ApproveKeepsHoldings` | contracts/pair/src/pair_token/pair_token.rs:42-47 | An approval changes no balance and not the supply, and it records the amount. |
| `PairTokenProofs.EmptyLedgerBalanced` | contracts/pair/src/pair_token/token_storage.rs:11-21 | An unwritten ledger has supply plus holdings equal to zero. |
| `PairTokenProofs.SupplyIsNegatedHoldings` | contracts/pair/src/pair_token/token_storage.rs:53-65 | After one mint of 1000 the supply reads -1000 while the holdings are 1000: the supply is the negated holdings, not the holdings. |
| `PairTokenProofs.SelfTransferKeepsBalance` | contracts/pair/src/pair_token/pair_token.rs:59-61 | A covered self-transfer succeeds and writes back the same balance. |
| `Pair.Initialize` | contracts/pair/src/pair.rs:75-86 | Fails with `AlreadyInitialized` exactly when the tokens were already set. Otherwise it records the factory and tokens, unlocks, and changes nothing else. |
| `Pair.GetReserves` | contracts/pair/src/pair.rs:88-93 | Both reserves, in the pair's token order. |
| `Pair.Update` | contracts/pair/src/pair.rs:306-319 | The reserves become the given balances; nothing else changes. |
| `Pair.CheckLocked` | contracts/pair/src/pair.rs:200-206 | Fails with `Locked` exactly when the pair is locked. |
| `Pair.Acquire` | contracts/pair/src/pair.rs:325-330 | Locks the pair and changes nothing else. |
| `Pair.Release` | contracts/pair/src/pair.rs:332-336 | Unlocks the pair and changes nothing else. |
| `Pair.PayOut` | contracts/pair/src/pair.rs:229-234 | A token transfer out of the pair traps exactly on a negative or uncovered amount. A transfer to the pair itself keeps the balance. The new balance is never negative. |
| `Pair.FeeLiquidity` | contracts/pair/src/pair.rs:174-177 | The protocol's share takes the sign of the supply. For a non-negative supply it is the floor of `(rootK - rootKLast) * supply / (5 * rootK + rootKLast)`. |
| `Pair.ProtocolFee` | contracts/pair/src/pair.rs:166-185 | Zero when `kLast` is zero. It traps when the product overflows or a square root of a negative is taken. With a positive `kLast` and a non-negative product in range, the result is exactly `FeeLiquidity(sqrt(k), sqrt(kLast), supply)` when `sqrt(k)` grew and 0 otherwise. |
| `Pair.MintFee` | contracts/pair/src/pair.rs:162-191 | Without a pair configuration or a `fee_to` it traps. Fees are always on. A protocol-fee error passes through, and a zero fee leaves the pair unchanged. Otherwise the ledger becomes the result of minting the fee to `fee_to`, and a refused mint is the call's error. Only the LP ledger can change. |
| `Pair.MintedLiquidity` | contracts/pair/src/pair.rs:115-129 | With zero supply: the root of the deposit product less 1000, after locking 1000 to the pair. With nonzero supply: the smaller of the two truncated pro-rata shares, and the ledger is unchanged. |
| `Pair.MintLocked` | contracts/pair/src/pair.rs:98-157 | Uninitialised pairs trap. A non-positive deposit on either side is `InvalidAmount`. Then a `mint_fee` error passes through, and so does a share-computation error. A non-positive share is `InsufficientLiquidityMinted`. A positive share succeeds exactly when minting it to `to` succeeds and the old reserve product fits `i128`; the result is that share and that ledger. A success sets the reserves to the balances and `kLast` to the old reserve product, and touches only the LP ledger besides. |
| `Pair.Mint` | contracts/pair/src/pair.rs:95-159 | A locked pair is rejected with `Locked`. Otherwise mint runs under the lock and releases it, so a success leaves the pair unlocked. |
| `Pair.MeasuredInput` | contracts/pair/src/pair.rs:239-240 | The amount paid in on one side: the excess of the balance over the reserve left after the output, otherwise 0, and it traps on overflow. |
| `Pair.Adjusted` | contracts/pair/src/pair.rs:246-247 | The fee-adjusted balance `balance * 1000 - in * 3`, trapping exactly on overflow. |
| `Pair.CheckK` | contracts/pair/src/pair.rs:246-251 | Passes exactly when every product is in range and the fee-adjusted product reaches `1000000` times the old reserve product. It fails with `K` exactly when everything is in range but the product falls short. |
| `Pair.SwapLocked` | contracts/pair/src/pair.rs:212-260 | The error order: no output, then output above a reserve, then an uninitialised pair, then a recipient that is a pool token. Then failed payouts or unmeasurable inputs trap. Zero input on both sides is `InsufficientInputAmount`. A constant-product error is returned as is, and a passing check succeeds. A success pays out, measures a nonzero input, passes the check, and sets the reserves to the balances. |
| `Pair.Swap` | contracts/pair/src/pair.rs:208-261 | Locked pairs are rejected. Otherwise the swap runs under the lock. A success needs an initialised pair and a recipient that is neither token. The pair pays each positive output unless it pays itself, and it ends unlocked with reserves equal to balances. |
| `Pair.BurnLocked` | contracts/pair/src/pair.rs:267-302 | Uninitialised pairs trap, and so does any checked step before the shares that leaves `i128` or divides by zero. A zero share on either side is `InsufficientLiquidityBurned`. Nonzero shares succeed exactly when the pair's LP balance can be burned and both shares lie between 0 and the balance; any other failure traps. A success burns the pair's whole LP balance, pays each token's truncated share of `liquidity - 1000` over the supply, and re-syncs the reserves. |
| `Pair.Burn` | contracts/pair/src/pair.rs:263-303 | Locked pairs are rejected. A success leaves the pair unlocked, reserves equal to balances, and the pair holding no LP. |
| `PairProofs.MintKeepsSupplyPlusHoldings` | contracts/pair/src/pair.rs:114-140 | A mint keeps LP supply plus holdings. The holdings grow by at least the liquidity the caller receives. |
| `PairProofs.MintLockedKeepsSupplyPlusHoldings` | contracts/pair/src/pair.rs:114-140 | The same for the locked body of mint: fee mint, minimum-liquidity mint and user mint together. |
| `PairProofs.MintChainKeepsSupplyPlusHoldings` | contracts/pair/src/pair.rs:117-140 | Any chain of the optional fee mint, the optional minimum mint and the user mint keeps supply plus holdings. The holdings grow by at least the user's liquidity. |
| `PairProofs.BurnKeepsSupplyPlusHoldings` | contracts/pair/src/pair.rs:284-287 | A burn keeps LP supply plus holdings. |
| `PairProofs.MintFeeCreditsFeeTo` | contracts/pair/src/pair.rs:162-191 | With a positive `kLast`, mint_fee leaves the pair unchanged unless `sqrt(k)` grew. Then `fee_to` receives exactly `FeeLiquidity` LP, the supply drops by it as `mint_logic` is written, and no other holder changes. A positive fee fails only when that credit or supply leaves `i128`, and a negative fee is refused. |
| `PairProofs.MintFeeMintsFee` | contracts/pair/src/pair.rs:174-189 | For a known fee, mint_fee does nothing at 0, is refused below 0, and otherwise mints exactly that fee to `fee_to`. |
| `PairProofs.NewPairBalanced` | contracts/pair/src/pair_token/token_storage.rs:11-21 | A fresh pair's LP ledger has supply plus holdings zero. |
| `PairProofs.EntryPointsKeepBalanced` | contracts/pair/src/pair.rs:95-303 | `mint`, `burn` and `swap` each keep the LP supply equal to the negated sum of balances. |
| `PairProofs.FirstMintMakesSupplyNegative` | contracts/pair/src/pair.rs:117-140 | After the first mint the recorded supply is `-(liquidity + 1000)`, negative. The pair holds at least 1000 more LP. |
| `PairProofs.MintFailsWhileSupplyNegative` | contracts/pair/src/pair.rs:125-134 | With a negative supply and non-negative reserves, every later mint fails. |
| `PairProofs.MintLockedFailsWhileSupplyNegative` | contracts/pair/src/pair.rs:125-134 | The same for mint's locked body. |
| `PairProofs.MintedLiquidityNotPositive` | contracts/pair/src/pair.rs:126-128 | With a negative supply, the pro-rata shares are never positive. |
| `PairProofs.BurnFailsWhileSupplyNegative` | contracts/pair/src/pair.rs:273-287 | With a negative supply and at least 1000 LP held by the pair, every burn fails. |
| `PairProofs.SwapKeepsReserveProduct` | contracts/pair/src/pair.rs:246-253 | A successful swap keeps balances and reserves non-negative and never lowers the reserve product. |
| `PairProofs.FirstMintLiquidity` | contracts/pair/src/pair.rs:117-124 | On an empty ledger, the first mint's liquidity is the root of the deposit product less 1000. The 1000 are minted to the pair. |
| `PairProofs.FirstMintOnFunded` | contracts/pair/src/pair.rs:95-157 | On a funded, initialised, never-minted pair whose deposit root exceeds 1000, mint succeeds with `root - 1000`, leaves supply `-root`, and gives the pair 1000 LP. |
| `PairProofs.SwapToken0ForToken1` | contracts/pair/src/pair.rs:208-261 | Paying token0 in and asking for token1 out succeeds exactly when the constant-product check passes. On success the new reserves are the balances; otherwise the swap reports the check's error. |
| `PairProofs.MintTestExample` | contracts/pair/src/test.rs:104-133 | The mint scenario of the pair's tests mints 732 LP. |
| `PairProofs.SwapTestExample` | contracts/pair/src/test.rs:155-180 | In the swap scenario, 16,624,979 out succeeds with reserves 60,000,000/83,375,021, and one unit more fails with `K`. |
| `PairProofs.SwapTestSwaps` | contracts/pair/src/test.rs:170-179 | The same two swaps from any pair in the state the scenario reaches. |
| `PairProofs.BurnTestExample` | contracts/pair/src/test.rs:183-204 | In the burn scenario, the burn after the first mint fails with `InsufficientLiquidityBurned`. |
| `Factory.PanicCode` | contracts/factory/src/lib.rs:26-31 | `IdenticalAddresses` panics with code 1 and `PairExists` with code 3; no other error has a code. |
| `Factory.PairKey` | contracts/factory/src/lib.rs:44-53 | Fails exactly on identical tokens; otherwise the two tokens strictly ascending. |
| `Factory.SortTokens` | contracts/factory/src/lib.rs:78-84 | The same two tokens in non-decreasing order. |
| `Factory.Initialize` | contracts/factory/src/lib.rs:88-93 | Sets setter, `fee_to`, pair wasm and a zero count. It keeps the recorded pairs, whether or not it ran before. |
| `Factory.AllPairsLength` | contracts/factory/src/lib.rs:95-97 | The stored count, 0 when unset. |
| `Factory.GetPair` | contracts/factory/src/lib.rs:99-103 | Found exactly when a pair is recorded under the ascending key, and returns it. |
| `Factory.PairExistsEntry` | contracts/factory/src/lib.rs:105-108 | True exactly when the persistent key exists in the given order. |
| `Factory.PairRecorded` | contracts/factory/src/lib.rs:146-149 | True exactly when the instance key exists in the given order. |
| `Factory.GetFeeTo` | contracts/factory/src/lib.rs:117-119 | The stored `fee_to`; absent before `initialize`. |
| `Factory.SetFeeTo` | contracts/factory/src/lib.rs:111-115 | Succeeds exactly when the setter exists and signed. It changes only `fee_to`, which reads back as the new value. |
| `Factory.SetFeeToSetter` | contracts/factory/src/lib.rs:121-125 | Succeeds exactly when the current setter exists and signed. It changes only the setter. |
| `Factory.CreatePair` | contracts/factory/src/lib.rs:151-195 | Error precedence: identical tokens (code 1), then an existing canonical key (code 3). It succeeds exactly when the wasm is set, the derived address is free and the count fits `u32`. A success deploys at the derived address, initialises with the ascending tokens, records under the caller's order, and adds one to the count. |
| `FactoryProofs.GetPairSymmetric` | contracts/factory/src/lib.rs:99-103 | `get_pair` gives the same answer for both argument orders. |
| `FactoryProofs.AscendingCreateIsFound` | contracts/factory/src/lib.rs:151-195 | A pair created in ascending order is found in both orders and counted. |
| `FactoryProofs.DescendingCreateIsInvisible` | contracts/factory/src/lib.rs:161-192 | A pair created in descending order is counted but never found by `get_pair`. |
| `FactoryProofs.DescendingCreateCannotBeRepeated` | contracts/factory/src/lib.rs:161-179 | After a descending create, creating the pair again in either order aborts at deployment. |
| `FactoryProofs.AscendingCreateCannotBeRepeated` | contracts/factory/src/lib.rs:161-170 | After an ascending create, creating it again in either order panics with code 3. |
| `FactoryProofs.CreatePairKeepsInvariants` | contracts/factory/src/lib.rs:173-192 | `create_pair` always writes a new key. It keeps every recorded pair distinct-tokened, deployed and at its derived address, and keeps the count equal to the recorded keys. |
| `FactoryProofs.FoundPairIsDerived` | contracts/factory/src/lib.rs:99-103 | In a consistent registry, a pair `get_pair` finds has distinct tokens, is deployed, and sits at the address derived from the ascending tokens. |
| `FactoryProofs.ReinitializeResetsCount` | contracts/factory/src/lib.rs:88-93 | A repeated `initialize` resets the count to 0 while recorded pairs stay findable. |
| `FactoryProofs.Step` | contracts/factory/src/lib.rs:86-130 | One entry-point call: a failing call leaves the registry as it was, and the persistent pair keys never change. |
| `FactoryProofs.StepKeepsConsistent` | contracts/factory/src/lib.rs:151-195 | Every single call keeps the registry consistent. |
| `FactoryProofs.RunKeepsInvariants` | contracts/factory/src/lib.rs:105-108 | From a fresh factory, any sequence of calls keeps the registry consistent, and `pair_exists` answers false for every pair. |
| `RouterHelper.SortTokens` | contracts/router/src/helper.rs:15-25 | Fails exactly on identical tokens; otherwise the same tokens strictly ascending. |
| `RouterHelper.PairFor` | contracts/router/src/helper.rs:27-33 | Fails exactly on identical tokens; otherwise the address derived from the factory and the ascending tokens. |
| `RouterHelper.PairForSymmetric` | contracts/router/src/helper.rs:27-33 | Both argument orders give the same pair address. |
| `Router.Initialize` | contracts/router/src/router.rs:26-29 | Records the factory and native token and nothing else. |
| `Router.Ensure` | contracts/router/src/router.rs:39-43 | Passes exactly when the ledger time is at most the deadline; otherwise `DeadlineExpired`. |
| `Router.PairAt` | contracts/pair/src/pair.rs:194-198 | The pair contract at an address, trapping exactly when none is deployed there. An initialised pair sees as its balances what the two token contracts hold for it; its other state is the stored one. |
| `Router.StorePair` | contracts/pair/src/pair.rs:228-237 | Writing a pair back after a call: its state is stored, its token balances become the pair's new balances, and `to` is credited what the pair paid out on each side. No other token balance changes. |
| `Router.FeeToFor` | contracts/pair/src/pair.rs:160-167 | The pair's `get_fee_to` call: an answer exists exactly when the pair names the modelled factory and that factory has a `fee_to`, and it is that `fee_to`. |
| `Router.OracleOf` | contracts/lib/src/library.rs:78-93 | The reserves `get_reserves` reads for a sorted token pair: none when no pair is deployed at the derived address, otherwise that pair's stored reserves. |
| `Router.TokenTransfer` | contracts/router/src/router.rs:112-113 | A token transfer fails exactly on a negative amount, an uncovered amount or an overflow. A success moves the amount between the two wallets and changes nothing else. |
| `Router.PairMint` | contracts/router/src/router.rs:114 | A missing pair traps. For a deployed pair it succeeds exactly when the pair's own mint, with the factory's `fee_to`, succeeds and the state can be stored back. A success returns that mint's positive liquidity. The resulting world is the minted pair state stored back: reserves synced, `kLast` and the LP ledger updated. No token balance changes. |
| `Router.PairBurn` | contracts/router/src/router.rs:140 | A missing pair traps. For a deployed pair it succeeds exactly when the pair's burn succeeds and the state can be stored back. A success is the burn of an initialised pair, and the resulting world is the burnt pair state stored back. For a recipient other than the pair, the recipient gains each returned amount in its token and the pair loses it. |
| `Router.PairSwap` | contracts/router/src/router.rs:236 | A missing pair traps. For a deployed pair it succeeds exactly when the pair's swap succeeds and the state can be stored back. A success is that swap, and the resulting world is the swapped pair state stored back. For a recipient other than the pair, the recipient gains each positive requested output in its token and the pair loses it. |
| `Router.PairLpTransfer` | contracts/router/src/router.rs:139 | A missing pair or a missing signature traps. For a deployed pair it succeeds exactly when the pair's LP transfer does. A success is that transfer, and only that ledger changes. |
| `Router.FactoryRegistry` | contracts/router/src/router.rs:31-33 | The router's factory, trapping exactly when it was never set or names a different factory. |
| `Router.CreatePairIn` | contracts/router/src/router.rs:60-62 | Succeeds exactly when the factory's `create_pair` does, and adds the new pair to the world. |
| `Router.AddLiquidityAmounts` | contracts/router/src/router.rs:49-85 | A success means distinct tokens and a pair `get_pair` now finds, created here only if it was missing. The amounts are the library's optimal amounts at that pair's reserves, in the pair's order. The first deposit with ascending tokens into a missing pair succeeds exactly when the factory creates the pair, and it takes the desired amounts as they are. |
| `Router.AddLiquidity` | contracts/router/src/router.rs:87-116 | The deadline is checked first, then the signature. After those, a sizing error passes through. The two transfers from `to` to the pair and the pair's mint run in order, and any failure among them traps. A success is the world after the mint, with the sized amounts and the minted liquidity. |
| `Router.Reorder` | contracts/router/src/router.rs:141-146 | Amounts come back in the caller's token order. |
| `Router.RemoveLiquidity` | contracts/router/src/router.rs:119-154 | Deadline, signature and pair existence are checked in that order. Then the LP transfer to the pair and the burn run in order, and either failing traps. The payout, reordered to the caller's tokens, is checked against the A minimum and then the B minimum. A success returns the world after the burn. |
| `Router.Quote` | contracts/router/src/router.rs:156-160 | The library quote, where every library error traps. |
| `Router.GetAmountOut` | contracts/router/src/router.rs:162-164 | The library amount-out, where every library error traps. |
| `Router.GetAmountIn` | contracts/router/src/router.rs:166-168 | The library amount-in, where every library error traps. |
| `Router.GetAmountsOut` | contracts/router/src/router.rs:170-172 | With the factory set, it succeeds exactly when the library's `get_amounts_out` over the deployed pairs' reserves does, and returns the same chain. That chain starts with the input. Short paths and an unset factory trap. |
| `Router.GetAmountsIn` | contracts/router/src/router.rs:174-176 | With the factory set, it succeeds exactly when the library's `get_amounts_in` does, and returns the same chain. That chain ends with the requested output. |
| `Router.HopAt` | contracts/router/src/router.rs:221-235 | Hop `i` fails exactly when it or the next hop joins identical tokens. Otherwise it swaps at the derived pair and asks for the next amount on the side opposite the input. It sends to the next pair, or to the user on the last hop. |
| `Router.SwapHops` | contracts/router/src/router.rs:220-238 | With no hop left it is the identity. A success means the current hop's pair swap succeeded, and only traps can fail. |
| `Router.SwapExactTokensForTokens` | contracts/router/src/router.rs:178-197 | Deadline, then signature. A pricing failure traps. An output quote below the minimum fails with `InsufficientOutputAmount`. Any other quote leads to `Router.SwapChain`. A success returns the quoted chain, which starts with the input and meets the minimum. |
| `Router.SwapChain` | contracts/router/src/router.rs:192-195 | After pricing: a failing first-pair lookup, input transfer or hop traps. Otherwise the result is the world after all hops, with the quoted amounts. |
| `Router.SwapTokensForExactTokens` | contracts/router/src/router.rs:199-218 | Deadline, then signature. A pricing failure traps. An input quote above the maximum fails with `ExcessiveInputAmount`. Any other quote leads to `Router.SwapChain`. A success returns the quoted chain, which ends with the output and stays within the maximum. |
| `RouterProofs.QuotedProductCovers` | contracts/pair/src/pair.rs:246-251 | If a quote keeps the product after the library's fee, and that fee is at least 0.3%, then the pair's fee-adjusted product check is met. |
| `RouterProofs.QuotedSwapSucceeds` | contracts/pair/src/pair.rs:239-253 | Paying in and asking for the library's amount-out succeeds at the pair whenever the library fee is at least 0.3%, with reserves up to 10^18. The reserves move by exactly the traded amounts. |
| `RouterProofs.QuotedPairSwapSucceeds` | contracts/router/src/router.rs:236 | Called through the router, a funded pair pays the library's quote whenever the pair swap passes and `to`'s balance has room. `to` receives exactly the quote. |
| `RouterProofs.PairCallStores` | contracts/pair/src/pair.rs:228-237 | Writing a pair back after it paid out amounts that fit in `to`'s balances always succeeds. |
| `RouterProofs.PairMintSucceeds` | contracts/router/src/router.rs:114 | The router's mint call succeeds exactly when the pair's mint does, because a mint moves no token. |
| `RouterProofs.QuotedSwapRejectedExample` | contracts/lib/src/library.rs:119-127 | Against 10^6/10^6, 1999 in quotes 1990, the library fee is below 0.3%, and the pair rejects that swap with `K`. |
| `RouterProofs.TestSwapQuote` | contracts/pair/src/test.rs:170-179 | The swap test's 16,624,979 is exactly the library's quote for 10,000,000 in, whose fee is exactly 0.3%. |
| `RouterProofs.AddLiquidityDescendingNewPairAborts` | contracts/router/src/router.rs:58-64 | Adding liquidity for a new pair with the tokens in descending order always aborts. |
| `RouterProofs.AddLiquidityUsesPairOrderReserves` | contracts/router/src/router.rs:63-84 | For an existing pair, the amounts are the library's optimum at the reserves in the pair's token order, whatever the caller's order. |
| `RouterProofs.MisorderedDepositExample` | contracts/router/src/router.rs:66-75 | Reserves 1000/4000 read in the wrong orientation turn desires 400/100 into a deposit of 25/100. |
| `RouterProofs.AddLiquidityMovesDeposits` | contracts/router/src/router.rs:109-114 | A successful add moves exactly the sized amount of each token from `to` to the pair, when `to` is not the pair. |
| `RouterProofs.RemoveLiquidityConservesTokens` | contracts/router/src/router.rs:137-140 | A successful remove keeps, for each pool token, what `to` and the pair hold together. |
| `RouterProofs.RemoveLiquidityPaysTo` | contracts/router/src/router.rs:137-153 | A successful remove credits `to` with the returned amount A in token A and amount B in token B, and debits the pair by the same amounts. This holds when the pair at the derived address holds the sorted tokens and `to` is not the pair. |
| `RouterProofs.HopCallsRecordedPair` | contracts/router/src/router.rs:221-236 | In a consistent registry, the pair a hop calls is the pair `get_pair` finds, and the output is requested on the side opposite the input token. |
| `RouterProofs.HopsFrom` | contracts/router/src/router.rs:221-235 | The list of remaining hops has one hop per remaining edge and agrees with `HopAt`. It exists whenever every hop does. |
| `RouterProofs.SwapHopsRunsEveryHop` | contracts/router/src/router.rs:220-238 | The swap loop equals building all hops first and then applying each pair swap in turn. |
| `RouterProofs.SwapExactRunsAllHops` | contracts/router/src/router.rs:187-196 | A successful exact-input swap is the input transfer to the first pair followed by all `len - 1` hops of the quoted chain. |
| `RouterProofs.SwapForExactRunsAllHops` | contracts/router/src/router.rs:207-217 | A successful exact-output swap is the quoted input transfer followed by all `len - 1` hops. |
| `RouterProofs.ApplyHopsPaysLast` | contracts/router/src/router.rs:220-238 | Suppose no pair in a run of swaps is `to`, and only the last swap pays `to`. Then `to`'s balances change only in the last swap, by that swap's positive outputs in the last pair's tokens. |
| `RouterProofs.OneSwap` | contracts/router/src/router.rs:236 | One pair swap keeps the set of pairs and each pair's tokens. It changes no balance of a holder other than the pair and the recipient. |
| `RouterProofs.SwapHopsPaysTo` | contracts/router/src/router.rs:220-238 | The swap loop credits `to` with exactly the last amount in the last token. This holds when `to` is none of the path's pairs and the last pair holds the last two tokens. |
| `RouterProofs.SwapChainPaysTo` | contracts/router/src/router.rs:192-195 | After pricing, the input transfer and the hops credit `to` with exactly the last amount in the last token. This needs the last token to differ from the first. |
| `RouterProofs.SwapExactPaysTo` | contracts/router/src/router.rs:178-197 | A successful exact-input swap pays `to` the last quoted amount in the last token, under the same conditions. |
| `RouterProofs.SwapForExactPaysTo` | contracts/router/src/router.rs:199-218 | A successful exact-output swap pays `to` exactly the requested output in the last token, under the same conditions. |

## Behaviour as written

The model follows the code where it departs from the usual constant-product
pair semantics: a positive LP supply that rises on mint and falls on burn, a
factory lookup that finds every pair it created, and reserves read in the
caller's token order. Each item below is proved about the model.

- The LP token's `mint_logic` subtracts from the supply and `burn_logic` adds to it.
  - After the first mint the supply is negative: `FirstMintMakesSupplyNegative`.
  - With a negative supply, every later mint fails (`MintFailsWhileSupplyNegative`). So does every burn while the pair holds its 1000 locked LP (`BurnFailsWhileSupplyNegative`).
  - The invariant that does hold is that the supply is the negated holdings: `EntryPointsKeepBalanced`.
- The pair's burn test burns right after the first mint, without sending any LP back to the pair. The pair then holds exactly the 1000 locked units, so both pay-outs are 0 and the burn fails with `InsufficientLiquidityBurned` (`BurnTestExample`). This happens whatever the sign of the supply, so it does not come from the `mint_logic` sign.
- `create_pair` records the new pair under the caller's argument order, but `get_pair` reads the sorted key.
  - A pair created with descending tokens is never found (`DescendingCreateIsInvisible`), and it can never be created again (`DescendingCreateCannotBeRepeated`).
  - The router's `add_liquidity` of a new pair in descending order therefore always aborts: `AddLiquidityDescendingNewPairAborts`.
- `initialize` can be called again and resets the pair count to 0 (`ReinitializeResetsCount`).
- The `pair_exists` entry point reads persistent keys nothing writes, so it never answers true (`RunKeepsInvariants`).
- The library's swap fee is `max(floor(0.3%), 1)`, which can be lower than the pair's exact 0.3% deduction. A library quote can then be refused by the pair's product check: `QuotedSwapRejectedExample`.
- `_add_liquidity` reads the pair's reserves in the pair's token order and uses them as if they were in the caller's order. For descending callers the ratio is inverted: `AddLiquidityUsesPairOrderReserves` and `MisorderedDepositExample`.
- `calculate_amount_in` does not reject an output above the reserve. The divisor turns negative and the result is at most 2 (`Library.CalculateAmountIn`).
- `calculate_price_impact` gives 550 basis points for the library test's inputs (`PriceImpactExample`).

## Left out

- Events (`PairTokenEvents`, `env.events().publish`) and `log!`: they do not affect state.
- The router's native token getters (`native`, `get_native`): they read a stored address that no modelled operation uses.
- The LP token's metadata readers (`read_decimal`, `read_name`, `read_symbol`): they do not take part in any modelled computation.
- The SHA-256 salt over the XDR of the tokens and the wasm deployment itself: the pair address is the uninterpreted parameter `derive`, and a deployment at an address already in use aborts.
- Signature checks are modelled as membership in a `signers` set. Soroban's authorisation trees are not modelled.
- The ledger timestamp is the world's `now` field.
- The contract interfaces, client bindings and test harnesses: the tests' scenarios appear only as the example lemmas above.
- The pair's `BlockTimestampLast` and price-accumulator storage keys: no operation of the source reads or writes them.
- The `else` branch of `_mint_fee` that clears `kLast`: `fee_on` is always true in the source, so the branch is dead.
- `Library.CalculatePriceImpact`: the contract bounds the result between 0 and 10000 basis points for trades no better than the mid price, and says when it fails. It does not state the value as a formula; the example lemma pins one value.
- `Library.HopOut` and `Library.HopIn`: their contracts only exclude `InvalidPath`. The hop semantics are stated through `LinkedOut` and `LinkedIn` in the loop contracts.
- `Library.CheckedCeilingDiv`: requires that the division is not `i128::MIN / -1`, where the source's plain `/` panics. Its only caller divides a positive numerator, so the case cannot arise there.
- `RouterProofs.SwapExactPaysTo` and `RouterProofs.SwapForExactPaysTo` state `to`'s credit only under three conditions. The path must not return to its first token. `to` must not be one of the path's pairs. The last pair must hold the last two tokens, as every pair the factory deploys does. In the other cases `to`'s balance also carries the input transfer or an intermediate payout.
- `RouterProofs.RemoveLiquidityPaysTo` likewise assumes that the pair at the derived address holds the two sorted tokens.
- `RouterProofs.QuotedSwapSucceeds`: proved for reserves and inputs up to 10^18, which keeps every intermediate product inside `i128`.
- `RouterProofs.QuotedPairSwapSucceeds`: inherits those bounds. It also assumes the pair's two tokens differ, as they do for every pair the factory deploys.
- Integer square roots come from `num_integer::Roots::sqrt`, which is not part of this model. It is modelled as the exact floor square root (`Int128.Isqrt`), and a negative argument traps.

=== FILE: addresses.dfy ===
/**
 * Account and contract identities. The host orders addresses totally; the model
 * uses naturals so that `<` is that order.
 */
module Addresses {

  type Address = nat

  /**
   * Deterministic deployment address of the pair contract for the canonical pair
   * (token0, token1) deployed by `factory`. The salt (a SHA-256 of the two tokens'
   * XDR encodings) and the host's address derivation are not modelled: callers
   * supply the derivation.
   */
  type Derivation = (Address, Address, Address) -> Address

  /** The two addresses in ascending order, `(min, max)`. */
  function Ascending(a: Address, b: Address): (p: (Address, Address))
    ensures p.0 <= p.1
    ensures (p.0 == a && p.1 == b) || (p.0 == b && p.1 == a)
  {
    if a < b then (a, b) else (b, a)
  }
}

=== FILE: factory.dfy ===
/**
 * The factory contract: the fee settings, the wasm of the pair contract, the
 * registry of deployed pairs and their count. `create_pair` deploys a pair at
 * an address derived from the factory and the canonical token pair, initialises
 * it, and records it under the caller's argument order.
 */
module Factory {
  import opened Results
  import opened Int128
  import opened Addresses
  import Pair

  /** Identifies the uploaded wasm of the pair contract. */
  type WasmHash = nat

  /**
   * What a `create_pair` or `Pair::new` failure reports. `IdenticalAddresses`
   * and `PairExists` are panics whose message is the code of the factory's
   * `Error` enum (1 and 3).
   */
  datatype FactoryError =
    | CreatePairIdenticalTokens
    | IdenticalAddresses
    | PairExists
    /** Any other abort of the call: an `unwrap` of an absent entry, a failed authorisation, a deployment clash. */
    | Trap

  /** The panic code `create_pair` uses for an error, when it has one. */
  function PanicCode(e: FactoryError): (code: Option<nat>)
    ensures e == IdenticalAddresses <==> code == Some(1)
    ensures e == PairExists <==> code == Some(3)
    ensures code.None? <==> !(e == IdenticalAddresses || e == PairExists)
  {
    match e
    case IdenticalAddresses => Some(1)
    case PairExists => Some(3)
    case _ => None
  }

  /**
   * The factory's storage. The persistent entries `feesetter`, `feeto`,
   * `pair_hash` and `pairs` are absent until `initialize`; `instancePairs`
   * holds the instance-storage `Pair(a, b)` keys that `create_pair` writes and
   * `get_pair` reads; `persistentPairs` holds the persistent `Pair(a, b)` keys
   * that `pair_exists` reads and no entry point writes. `deployed` is the set of
   * contract addresses this factory has deployed.
   */
  datatype Registry = Registry(
    self: Address,
    feeToSetter: Option<Address>,
    feeTo: Option<Address>,
    pairHash: Option<WasmHash>,
    pairCount: Option<u32>,
    instancePairs: map<(Address, Address), Address>,
    persistentPairs: set<(Address, Address)>,
    deployed: set<Address>)

  /** A freshly deployed factory at `self`. */
  function NewRegistry(self: Address): (r: Registry)
    ensures r.self == self && r.feeToSetter.None? && r.feeTo.None? && r.pairHash.None? && r.pairCount.None?
    ensures r.instancePairs == map[] && r.persistentPairs == {} && r.deployed == {}
  {
    Registry(self, None, None, None, None, map[], {}, {})
  }

  /** `Pair::new`: the canonical key of two distinct tokens. */
  function PairKey(a: Address, b: Address): (r: Result<(Address, Address), FactoryError>)
    ensures r.Err? <==> a == b
    ensures r.Err? ==> r.error == CreatePairIdenticalTokens
    ensures r.Ok? ==> r.value.0 < r.value.1 && (r.value == (a, b) || r.value == (b, a))
  {
    if a == b then Err(CreatePairIdenticalTokens) else Ok(Ascending(a, b))
  }

  /** The factory's private `sort_tokens`: no check for identical tokens. */
  function SortTokens(a: Address, b: Address): (r: (Address, Address))
    ensures r.0 <= r.1
    ensures r == (a, b) || r == (b, a)
  {
    Ascending(a, b)
  }

  /**
   * `initialize`: sets the fee setter (also as `fee_to`), the pair wasm and a
   * zero pair count. Nothing stops a second call, which overwrites all four.
   */
  function Initialize(reg: Registry, feeToSetter: Address, pairHash: WasmHash): (r: Registry)
    ensures r.feeToSetter == Some(feeToSetter) && r.feeTo == Some(feeToSetter)
    ensures r.pairHash == Some(pairHash) && r.pairCount == Some(0)
    ensures r.self == reg.self && r.instancePairs == reg.instancePairs
    ensures r.persistentPairs == reg.persistentPairs && r.deployed == reg.deployed
  {
    reg.(feeToSetter := Some(feeToSetter), feeTo := Some(feeToSetter), pairHash := Some(pairHash), pairCount := Some(0))
  }

  /** `all_pairs_length`: the recorded count, 0 before `initialize`. */
  function AllPairsLength(reg: Registry): (n: u32)
    ensures reg.pairCount.None? ==> n == 0
    ensures reg.pairCount.Some? ==> n == reg.pairCount.value
  {
    reg.pairCount.GetOr(0)
  }

  /** `get_pair`: the pair recorded under the sorted key, if any. */
  function GetPair(reg: Registry, a: Address, b: Address): (r: Option<Address>)
    ensures r.Some? <==> SortTokens(a, b) in reg.instancePairs
    ensures r.Some? ==> r.value == reg.instancePairs[SortTokens(a, b)]
  {
    var key := SortTokens(a, b);
    if key in reg.instancePairs then Some(reg.instancePairs[key]) else None
  }

  /** `pair_exists` (the entry point): reads the persistent key in the given order. */
  function PairExistsEntry(reg: Registry, token0: Address, token1: Address): (r: bool)
    ensures r <==> (token0, token1) in reg.persistentPairs
  {
    (token0, token1) in reg.persistentPairs
  }

  /** The inherent `pair_exists`: reads the instance key in the given order. */
  function PairRecorded(reg: Registry, token0: Address, token1: Address): (r: bool)
    ensures r <==> (token0, token1) in reg.instancePairs
  {
    (token0, token1) in reg.instancePairs
  }

  /** `get_fee_to`: `None` stands for the panic of the `unwrap` before `initialize`. */
  function GetFeeTo(reg: Registry): (r: Option<Address>)
    ensures r == reg.feeTo
  {
    reg.feeTo
  }

  /**
   * `set_fee_to`: needs the fee setter's authorisation (`signers` holds the
   * addresses that signed the invocation); changes `feeTo` only.
   */
  function SetFeeTo(reg: Registry, feeTo: Address, signers: set<Address>): (r: Result<Registry, FactoryError>)
    ensures r.Ok? <==> reg.feeToSetter.Some? && reg.feeToSetter.value in signers
    ensures r.Err? ==> r.error == Trap
    ensures r.Ok? ==> GetFeeTo(r.value) == Some(feeTo) && r.value == reg.(feeTo := Some(feeTo))
  {
    var setter :- reg.feeToSetter.OrErr(Trap);
    if setter !in signers then Err(Trap)
    else Ok(reg.(feeTo := Some(feeTo)))
  }

  /** `set_fee_to_setter`: needs the current setter's authorisation; changes the setter only. */
  function SetFeeToSetter(reg: Registry, feeToSetter: Address, signers: set<Address>): (r: Result<Registry, FactoryError>)
    ensures r.Ok? <==> reg.feeToSetter.Some? && reg.feeToSetter.value in signers
    ensures r.Err? ==> r.error == Trap
    ensures r.Ok? ==> r.value == reg.(feeToSetter := Some(feeToSetter))
  {
    var setter :- reg.feeToSetter.OrErr(Trap);
    if setter !in signers then Err(Trap)
    else Ok(reg.(feeToSetter := Some(feeToSetter)))
  }

  /**
   * `create_pair` (the `create_new_pair` entry point). Rejects identical
   * tokens and a pair already recorded under the canonical key; deploys the
   * pair contract at `derive(self, token0, token1)`, which aborts when that
   * address is already deployed; initialises it with the canonical tokens and
   * the factory; records it under `(a, b)` in the caller's order; and adds one
   * to the count, aborting on `u32` overflow. The result carries the new pair's
   * address and initial state.
   */
  function CreatePair(reg: Registry, a: Address, b: Address, derive: Derivation): (r: Result<(Registry, Address, Pair.PairState), FactoryError>)
    ensures a == b ==> r == Err(IdenticalAddresses)
    ensures a != b && Ascending(a, b) in reg.instancePairs ==> r == Err(PairExists)
    ensures r.Err? ==> r.error in {IdenticalAddresses, PairExists, Trap}
    ensures r.Ok? <==>
      && a != b && Ascending(a, b) !in reg.instancePairs
      && reg.pairHash.Some?
      && derive(reg.self, Ascending(a, b).0, Ascending(a, b).1) !in reg.deployed
      && AllPairsLength(reg) + 1 < 0x1_0000_0000
    ensures r.Ok? ==>
      var (reg2, pair, state) := r.value;
      && pair == derive(reg.self, Ascending(a, b).0, Ascending(a, b).1)
      && reg2 == reg.(instancePairs := reg.instancePairs[(a, b) := pair],
                      pairCount := Some(AllPairsLength(reg) + 1),
                      deployed := reg.deployed + {pair})
      && state.self == pair && state.unlocked
      && state.config == Some(Pair.PairConfig(reg.self, Ascending(a, b).0, Ascending(a, b).1))
      && state == Pair.NewPair(pair).(config := state.config)
  {
    if a == b then Err(IdenticalAddresses)
    else
      var (token0, token1) := Ascending(a, b);
      if (token0, token1) in reg.instancePairs then Err(PairExists)
      else
        var _ :- reg.pairHash.OrErr(Trap);
        var pair := derive(reg.self, token0, token1);
        if pair in reg.deployed then Err(Trap)
        else
          var state := Pair.Initialize(Pair.NewPair(pair), token0, token1, reg.self).value;
          var count := AllPairsLength(reg) + 1;
          if count >= 0x1_0000_0000 then Err(Trap)
          else
            Ok((reg.(instancePairs := reg.instancePairs[(a, b) := pair],
                     pairCount := Some(count),
                     deployed := reg.deployed + {pair}), pair, state))
  }
}

=== FILE: factory_proofs.dfy ===
/**
 * What the factory's registry keeps. `get_pair` sorts its arguments while
 * `create_pair` records the caller's order, so only pairs created with the
 * tokens in ascending order can be found again. Every recorded pair sits at
 * the address derived from the factory and the canonical tokens. The count
 * matches the recorded pairs until `initialize` runs again. The persistent
 * keys `pair_exists` reads are never written.
 */
module FactoryProofs {
  import opened Results
  import opened Int128
  import opened Addresses
  import opened Factory

  /** `get_pair` answers the same for either argument order. */
  lemma GetPairSymmetric(reg: Registry, a: Address, b: Address)
    ensures GetPair(reg, a, b) == GetPair(reg, b, a)
  {
    assert SortTokens(a, b) == SortTokens(b, a);
  }

  /** A pair created with its tokens in ascending order is found in both orders and counted. */
  lemma AscendingCreateIsFound(reg: Registry, a: Address, b: Address, derive: Derivation)
    requires a < b
    requires CreatePair(reg, a, b, derive).Ok?
    ensures var (reg2, pair, _) := CreatePair(reg, a, b, derive).value;
      && GetPair(reg2, a, b) == Some(pair)
      && GetPair(reg2, b, a) == Some(pair)
      && AllPairsLength(reg2) == AllPairsLength(reg) + 1
  {
    var (reg2, pair, _) := CreatePair(reg, a, b, derive).value;
    GetPairSymmetric(reg2, a, b);
  }

  /**
   * A pair created with its tokens in descending order is recorded under a key
   * `get_pair` never reads: it still answers `None`, although the count grew.
   */
  lemma DescendingCreateIsInvisible(reg: Registry, a: Address, b: Address, derive: Derivation)
    requires b < a
    requires CreatePair(reg, a, b, derive).Ok?
    ensures var (reg2, _, _) := CreatePair(reg, a, b, derive).value;
      && GetPair(reg2, a, b).None?
      && GetPair(reg2, b, a).None?
      && AllPairsLength(reg2) == AllPairsLength(reg) + 1
  {
    var (reg2, _, _) := CreatePair(reg, a, b, derive).value;
    assert SortTokens(a, b) == (b, a) && (b, a) != (a, b);
    GetPairSymmetric(reg2, a, b);
  }

  /**
   * After a descending create, creating the same pair again, in either order,
   * passes the `PairExists` check and then aborts on the occupied deployment address.
   */
  lemma DescendingCreateCannotBeRepeated(reg: Registry, a: Address, b: Address, derive: Derivation)
    requires b < a
    requires CreatePair(reg, a, b, derive).Ok?
    ensures var (reg2, _, _) := CreatePair(reg, a, b, derive).value;
      CreatePair(reg2, a, b, derive) == Err(Trap) && CreatePair(reg2, b, a, derive) == Err(Trap)
  {
  }

  /** A second `create_pair` for a pair recorded under its canonical key reports `PairExists` (panic code 3). */
  lemma AscendingCreateCannotBeRepeated(reg: Registry, a: Address, b: Address, derive: Derivation)
    requires a < b
    requires CreatePair(reg, a, b, derive).Ok?
    ensures var (reg2, _, _) := CreatePair(reg, a, b, derive).value;
      && CreatePair(reg2, a, b, derive) == Err(PairExists)
      && CreatePair(reg2, b, a, derive) == Err(PairExists)
      && PanicCode(PairExists) == Some(3)
  {
  }

  // ---------------------------------------------------------------------------
  // Registry invariants

  /** Every recorded pair joins two distinct tokens and lives, deployed, at their derived address. */
  predicate Consistent(reg: Registry, derive: Derivation) {
    forall k: (Address, Address) | k in reg.instancePairs ::
      && k.0 != k.1
      && reg.instancePairs[k] == derive(reg.self, Ascending(k.0, k.1).0, Ascending(k.0, k.1).1)
      && reg.instancePairs[k] in reg.deployed
  }

  /** The count equals the number of recorded keys. */
  predicate Counted(reg: Registry) {
    AllPairsLength(reg) == |reg.instancePairs|
  }

  /**
   * `create_pair` keeps the registry consistent; the key it writes is always a
   * new one, so the count keeps matching the recorded keys.
   */
  lemma CreatePairKeepsInvariants(reg: Registry, a: Address, b: Address, derive: Derivation)
    requires Consistent(reg, derive)
    requires CreatePair(reg, a, b, derive).Ok?
    ensures (a, b) !in reg.instancePairs
    ensures Consistent(CreatePair(reg, a, b, derive).value.0, derive)
    ensures Counted(reg) ==> Counted(CreatePair(reg, a, b, derive).value.0)
  {
    var (reg2, pair, _) := CreatePair(reg, a, b, derive).value;
    assert reg2.instancePairs.Keys == reg.instancePairs.Keys + {(a, b)};
  }

  /** A recorded pair found by `get_pair` is deployed at the address `pair_for` derives. */
  lemma FoundPairIsDerived(reg: Registry, a: Address, b: Address, derive: Derivation)
    requires Consistent(reg, derive)
    requires GetPair(reg, a, b).Some?
    ensures a != b && a < b ==> GetPair(reg, a, b).value == derive(reg.self, a, b)
    ensures a != b && b < a ==> GetPair(reg, a, b).value == derive(reg.self, b, a)
    ensures a != b && GetPair(reg, a, b).value in reg.deployed
    ensures a != b
  {
    var key := SortTokens(a, b);
    assert key in reg.instancePairs;
  }

  /**
   * A second `initialize` resets the count to 0 and replaces the fee settings,
   * while every recorded pair stays findable.
   */
  lemma ReinitializeResetsCount(reg: Registry, a: Address, b: Address, setter: Address, hash: WasmHash)
    requires GetPair(reg, a, b).Some?
    ensures AllPairsLength(Initialize(reg, setter, hash)) == 0
    ensures GetPair(Initialize(reg, setter, hash), a, b) == GetPair(reg, a, b)
    ensures GetFeeTo(Initialize(reg, setter, hash)) == Some(setter)
  {
  }

  // ---------------------------------------------------------------------------
  // Any sequence of calls

  /** One call to a factory entry point, with the addresses that signed it. */
  datatype Call =
    | InitializeCall(setter: Address, hash: WasmHash)
    | SetFeeToCall(feeTo: Address, signers: set<Address>)
    | SetFeeToSetterCall(newSetter: Address, signers: set<Address>)
    | CreatePairCall(a: Address, b: Address)

  /** The registry after one call; a failing call is rolled back by the host. */
  function Step(reg: Registry, call: Call, derive: Derivation): (r: Registry)
    ensures r.self == reg.self && r.persistentPairs == reg.persistentPairs
    ensures call.CreatePairCall? ==>
      r == reg || (CreatePair(reg, call.a, call.b, derive).Ok? && r == CreatePair(reg, call.a, call.b, derive).value.0)
  {
    match call
    case InitializeCall(setter, hash) => Initialize(reg, setter, hash)
    case SetFeeToCall(feeTo, signers) =>
      (match SetFeeTo(reg, feeTo, signers) case Ok(reg2) => reg2 case Err(_) => reg)
    case SetFeeToSetterCall(newSetter, signers) =>
      (match SetFeeToSetter(reg, newSetter, signers) case Ok(reg2) => reg2 case Err(_) => reg)
    case CreatePairCall(a, b) =>
      (match CreatePair(reg, a, b, derive) case Ok((reg2, _, _)) => reg2 case Err(_) => reg)
  }

  /** The registry after the calls in order; every call leaves the factory's own address and its persistent keys alone. */
  function Run(reg: Registry, calls: seq<Call>, derive: Derivation): (r: Registry)
    ensures r.self == reg.self && r.persistentPairs == reg.persistentPairs
    decreases |calls|
  {
    if calls == [] then reg else Run(Step(reg, calls[0], derive), calls[1..], derive)
  }

  lemma StepKeepsConsistent(reg: Registry, call: Call, derive: Derivation)
    requires Consistent(reg, derive)
    ensures Consistent(Step(reg, call, derive), derive)
  {
    if call.CreatePairCall? && CreatePair(reg, call.a, call.b, derive).Ok? {
      CreatePairKeepsInvariants(reg, call.a, call.b, derive);
    }
  }

  /**
   * From a freshly deployed factory, any sequence of calls leaves the registry
   * consistent and the persistent pair keys empty: `pair_exists` never answers
   * true, not even for a pair `create_pair` made.
   */
  lemma {:induction false} RunKeepsInvariants(reg: Registry, calls: seq<Call>, derive: Derivation)
    requires Consistent(reg, derive) && reg.persistentPairs == {}
    ensures Consistent(Run(reg, calls, derive), derive)
    ensures Run(reg, calls, derive).persistentPairs == {}
    ensures forall t0: Address, t1: Address :: !PairExistsEntry(Run(reg, calls, derive), t0, t1)
    decreases |calls|
  {
    if calls != [] {
      StepKeepsConsistent(reg, calls[0], derive);
      RunKeepsInvariants(Step(reg, calls[0], derive), calls[1..], derive);
    }
  }

  lemma NewRegistryConsistent(self: Address, derive: Derivation)
    ensures Consistent(NewRegistry(self), derive) && Counted(NewRegistry(self))
  {
  }
}

=== FILE: helper.dfy ===
/**
 * The router's helpers: token sorting and the deterministic pair address.
 * `RouterError` also names the router's panics by their messages.
 */
module RouterHelper {
  import opened Results
  import opened Addresses

  datatype RouterError =
    /** `sort_tokens` of two identical tokens. */
    | SortIdenticalTokens
    /** "RaumFiRouter: Deadline Expired" */
    | DeadlineExpired
    /** "RaumFiRouter: PAIR_DOES_NOT_EXIST" */
    | PairDoesNotExist
    /** "RaumFiRouter: INSUFFICIENT_A_AMOUNT" */
    | InsufficientAAmount
    /** "RaumFiRouter: INSUFFICIENT_B_AMOUNT" */
    | InsufficientBAmount
    /** "RaumFiRouter: INSUFFICIENT_OUTPUT_AMOUNT" */
    | InsufficientOutputAmount
    /** "RaumFiRouter: EXCESSIVE_INPUT_AMOUNT" */
    | ExcessiveInputAmount
    /** Any other abort: an `unwrap` of an error or absent value, a failing call into another contract. */
    | Trap

  /** `sort_tokens`: two distinct tokens in ascending order. */
  function SortTokens(a: Address, b: Address): (r: Result<(Address, Address), RouterError>)
    ensures r.Err? <==> a == b
    ensures r.Err? ==> r.error == SortIdenticalTokens
    ensures r.Ok? ==> r.value.0 < r.value.1 && (r.value == (a, b) || r.value == (b, a))
  {
    if a == b then Err(SortIdenticalTokens) else Ok(Ascending(a, b))
  }

  /**
   * `pair_for`: the address `factory` deploys the pair of `a` and `b` at,
   * whatever the argument order (`pair_salt` hashes the sorted tokens).
   */
  function PairFor(derive: Derivation, factory: Address, a: Address, b: Address): (r: Result<Address, RouterError>)
    ensures r.Err? <==> a == b
    ensures r.Err? ==> r.error == SortIdenticalTokens
    ensures r.Ok? ==> r.value == derive(factory, Ascending(a, b).0, Ascending(a, b).1)
  {
    var (token0, token1) :- SortTokens(a, b);
    Ok(derive(factory, token0, token1))
  }

  /** Both argument orders name the same pair. */
  lemma PairForSymmetric(derive: Derivation, factory: Address, a: Address, b: Address)
    ensures PairFor(derive, factory, a, b) == PairFor(derive, factory, b, a)
  {
    assert Ascending(a, b) == Ascending(b, a);
  }
}

=== FILE: int128.dfy ===
/**
 * Rust's fixed-width integers as used by the contracts: the i128 range,
 * `checked_*` and `saturating_*` arithmetic, truncating division, and the
 * floor square root of `num_integer::Roots::sqrt`.
 */
module Int128 {
  import opened Results

  const MIN: int := -0x8000_0000_0000_0000_0000_0000_0000_0000
  const MAX: int := 0x7fff_ffff_ffff_ffff_ffff_ffff_ffff_ffff

  predicate InI128(x: int) {
    MIN <= x <= MAX
  }

  type i128 = x: int | MIN <= x <= MAX
  type u32 = x: int | 0 <= x < 0x1_0000_0000
  type u64 = x: int | 0 <= x < 0x1_0000_0000_0000_0000

  function Abs(x: int): nat {
    if x < 0 then -x else x
  }

  /** Division of naturals, bracketing the dividend between consecutive multiples of the divisor. */
  function NatDiv(a: nat, b: nat): (m: nat)
    requires b > 0
    ensures m * b <= a < (m + 1) * b
  {
    var q, r := a / b, a % b;
    assert a == b * q + r;
    assert (q + 1) * b == q * b + b;
    q
  }

  /** Multiplying both sides of `a <= b` by a non-negative factor. */
  lemma MulLe(a: int, b: int, c: int)
    requires a <= b && c >= 0
    ensures a * c <= b * c
  {
    var d: nat := b - a;
    assert b * c == a * c + d * c;
  }

  /** Multiplying both sides of `a < b` by a positive factor. */
  lemma MulLt(a: int, b: int, c: int)
    requires a < b && c > 0
    ensures a * c < b * c
  {
    var d: nat := b - a;
    assert b * c == a * c + d * c;
    assert d * c >= c by { MulLe(1, d, c); }
  }

  /** The magnitude of a product is the product of the magnitudes. */
  lemma AbsMul(a: int, b: int)
    ensures Abs(a * b) == Abs(a) * Abs(b)
  {
    if a < 0 && b < 0 {
      assert a * b == (-a) * (-b);
    } else if a < 0 {
      assert -(a * b) == (-a) * b;
    } else if b < 0 {
      assert -(a * b) == a * (-b);
    }
  }

  /** Rust's `/` on signed integers: the quotient rounded toward zero. */
  function TruncDiv(a: int, b: int): (q: int)
    requires b != 0
    ensures Abs(q) * Abs(b) <= Abs(a) < (Abs(q) + 1) * Abs(b)
    ensures q != 0 ==> ((q > 0) <==> ((a > 0) == (b > 0)))
  {
    var m: int := NatDiv(Abs(a), Abs(b));
    if (a < 0) == (b < 0) then m else -m
  }

  /** For a non-negative dividend and positive divisor, truncation is the floor. */
  lemma FloorDiv(a: int, b: int)
    requires a >= 0 && b > 0
    ensures TruncDiv(a, b) >= 0
    ensures TruncDiv(a, b) * b <= a < (TruncDiv(a, b) + 1) * b
  {
  }

  /** The floor quotient is the only value bracketing the dividend. */
  lemma FloorDivUnique(a: int, b: int, q: int)
    requires a >= 0 && b > 0
    requires q * b <= a < (q + 1) * b
    ensures TruncDiv(a, b) == q
  {
    FloorDiv(a, b);
    var t := TruncDiv(a, b);
    if t < q {
      MulLe(t + 1, q, b);
    } else if q < t {
      MulLe(q + 1, t, b);
    }
  }

  /** Rust's `%` on signed integers: the remainder takes the sign of the dividend. */
  function TruncRem(a: int, b: int): (r: int)
    requires b != 0
    ensures a == b * TruncDiv(a, b) + r
    ensures Abs(r) < Abs(b)
    ensures r != 0 ==> ((r > 0) <==> (a > 0))
  {
    TruncRemainder(a, b);
    a - b * TruncDiv(a, b)
  }

  /** What the truncated quotient leaves over is smaller than the divisor and has the dividend's sign. */
  lemma TruncRemainder(a: int, b: int)
    requires b != 0
    ensures var r := a - b * TruncDiv(a, b);
      Abs(r) < Abs(b) && (r != 0 ==> ((r > 0) <==> (a > 0)))
  {
    var q := TruncDiv(a, b);
    var P := Abs(q) * Abs(b);
    assert (Abs(q) + 1) * Abs(b) == P + Abs(b);
    if q > 0 && b < 0 {
      assert P == q * (-b) && b * q == -(q * (-b));
    } else if q < 0 && b > 0 {
      assert P == (-q) * b && b * q == -((-q) * b);
    } else if q < 0 && b < 0 {
      assert P == (-q) * (-b) && b * q == (-q) * (-b);
    } else {
      assert b * q == P;
    }
    RemainderFromProduct(a, b, b * q, P);
  }

  lemma RemainderFromProduct(a: int, b: int, bq: int, P: int)
    requires b != 0 && 0 <= P <= Abs(a) < P + Abs(b)
    requires a >= 0 ==> bq == P
    requires a < 0 ==> bq == -P
    ensures Abs(a - bq) < Abs(b) && (a - bq != 0 ==> ((a - bq > 0) <==> (a > 0)))
  {
  }

  function CheckedAdd(a: i128, b: i128): (r: Option<i128>)
    ensures r.Some? <==> InI128(a + b)
    ensures r.Some? ==> r.value == a + b
  {
    if InI128(a + b) then Some(a + b) else None
  }

  function CheckedSub(a: i128, b: i128): (r: Option<i128>)
    ensures r.Some? <==> InI128(a - b)
    ensures r.Some? ==> r.value == a - b
  {
    if InI128(a - b) then Some(a - b) else None
  }

  function CheckedMul(a: i128, b: i128): (r: Option<i128>)
    ensures r.Some? <==> InI128(a * b)
    ensures r.Some? ==> r.value == a * b
  {
    if InI128(a * b) then Some(a * b) else None
  }

  /** Multiplying by a positive factor never shrinks a natural. */
  lemma MulGrows(x: nat, y: nat)
    requires y >= 1
    ensures x <= x * y
  {
    assert x * y == x * (y - 1) + x;
  }

  /** Only MIN / -1 leaves the i128 range. */
  lemma TruncDivInRange(a: i128, b: i128)
    requires b != 0 && !(a == MIN && b == -1)
    ensures InI128(TruncDiv(a, b))
  {
    var q := TruncDiv(a, b);
    var A, B, Q := Abs(a), Abs(b), Abs(q);
    assert Q * B <= A;
    MulGrows(Q, B);
    assert Q <= A <= MAX + 1;
  }

  /** Rust's `/` on i128 is defined: a non-zero divisor, and not `MIN / -1`. */
  predicate DivisionDefined(a: int, b: int) {
    b != 0 && !(a == MIN && b == -1)
  }

  /** `checked_div`: `None` on a zero divisor and on the one overflowing quotient MIN / -1. */
  function CheckedDiv(a: i128, b: i128): (r: Option<i128>)
    ensures r.None? <==> b == 0 || (a == MIN && b == -1)
    ensures r.None? <==> !DivisionDefined(a, b)
    ensures r.Some? ==> r.value == TruncDiv(a, b)
  {
    if b == 0 || (a == MIN && b == -1) then None
    else
      TruncDivInRange(a, b);
      Some(TruncDiv(a, b))
  }

  /** Clamps a mathematical result into the i128 range (`saturating_*`). */
  function Clamp(x: int): (r: i128)
    ensures InI128(x) ==> r == x
    ensures x > MAX ==> r == MAX
    ensures x < MIN ==> r == MIN
  {
    if x > MAX then MAX else if x < MIN then MIN else x
  }

  function SaturatingAdd(a: i128, b: i128): i128 {
    Clamp(a + b)
  }

  function SaturatingSub(a: i128, b: i128): i128 {
    Clamp(a - b)
  }

  function SaturatingMul(a: i128, b: i128): i128 {
    Clamp(a * b)
  }

  /** `saturating_div`; Rust panics on a zero divisor, which callers must rule out. */
  function SaturatingDiv(a: i128, b: i128): i128
    requires b != 0
  {
    Clamp(TruncDiv(a, b))
  }

  lemma {:induction false} SquareMonotone(a: nat, b: nat)
    requires a <= b
    ensures a * a <= b * b
  {
    assert a * a <= a * b;
    assert a * b <= b * b;
  }

  /** One digit step of the floor square root: doubling the root of `n / 4` brackets `n`. */
  lemma {:induction false} IsqrtStep(n: nat, q: nat, s: nat)
    requires q * 4 <= n < (q + 1) * 4
    requires s * s <= q < (s + 1) * (s + 1)
    ensures (2 * s) * (2 * s) <= n < (2 * s + 2) * (2 * s + 2)
  {
    assert (2 * s) * (2 * s) == 4 * (s * s);
    assert (2 * s + 2) * (2 * s + 2) == 4 * ((s + 1) * (s + 1));
  }

  /** The floor square root: the largest `r` with `r * r <= n`. */
  function Isqrt(n: nat): (r: nat)
    ensures r * r <= n < (r + 1) * (r + 1)
    decreases n
  {
    if n < 2 then n
    else
      var q := NatDiv(n, 4);
      var s := Isqrt(q);
      IsqrtStep(n, q, s);
      if (2 * s + 1) * (2 * s + 1) <= n then 2 * s + 1 else 2 * s
  }

  /** The floor square root is unique: any `r` bracketing `n` is `Isqrt(n)`. */
  lemma {:induction false} IsqrtUnique(n: nat, r: nat)
    requires r * r <= n < (r + 1) * (r + 1)
    ensures Isqrt(n) == r
  {
    var s := Isqrt(n);
    if s < r {
      SquareMonotone(s + 1, r);
    } else if r < s {
      SquareMonotone(r + 1, s);
    }
  }

  lemma IsqrtAtMost(n: nat)
    ensures Isqrt(n) <= n
  {
    var s := Isqrt(n);
    if s > 0 {
      MulGrows(s, s);
    }
  }

  /** `i128::sqrt` from `num_integer::Roots`: `None` stands for its panic on a negative operand. */
  function Sqrt(x: i128): (r: Option<i128>)
    ensures r.None? <==> x < 0
    ensures r.Some? ==> 0 <= r.value && r.value * r.value <= x < (r.value + 1) * (r.value + 1)
  {
    if x < 0 then None
    else
      var s := Isqrt(x);
      IsqrtAtMost(x);
      Some(s)
  }
}

=== FILE: library.dfy ===
/**
 * The pricing library: exact i128 arithmetic for quotes, swap amounts along a
 * path, optimal deposits, liquidity minted and burned, and the constant-product
 * check. Every `checked_*` failure is an `Overflow` or `DivisionByZero` error;
 * unchecked operators that overflow, `assert!` and the square root of a
 * negative number abort the call, written `Trap`.
 */
module Library {
  import opened Results
  import opened Int128
  import opened Addresses

  datatype LibError =
    | NotInitialized
    | CreatePairIdenticalTokens
    | CreatePairAlreadyExists
    | InitializeAlreadyInitialized
    | PairDoesNotExist
    | IndexDoesNotExist
    | IdenticalAddresses
    | InsufficientLiquidity
    | InsufficientAmount
    | InvalidPath
    | InsufficientLiquidityMinted
    | InsufficientTotalSupply
    | InsufficientLiquidityBurned
    | InsufficientBAmount
    | InsufficientAAmount
    | Overflow
    | DivisionByZero
    /** The host aborted the call (a Rust panic). */
    | Trap

  /** `10u128.pow(18)`, the fixed-point scale of the price-impact computation. */
  const PRICE_SCALE: i128 := 1_000_000_000_000_000_000

  /**
   * Reserves of the deployed pair for a canonical (token0, token1), in pair order,
   * or `None` when no pair contract answers at the derived address.
   */
  type ReserveOracle = (Address, Address) -> Option<(i128, i128)>

  // ---------------------------------------------------------------------------
  // Ceiling division

  /** When the division is inexact the truncated quotient has room for `+ 1`. */
  lemma InexactQuotientBelowMax(n: i128, d: i128)
    requires d != 0 && !(n == MIN && d == -1) && TruncRem(n, d) != 0
    ensures TruncDiv(n, d) + 1 <= MAX
  {
    var q := TruncDiv(n, d);
    var remainder := TruncRem(n, d);
    var Q, D := Abs(q), Abs(d);
    assert 0 < Abs(remainder) < D;
    assert Q * D <= Abs(n);
    MulLe(2, D, Q);
    assert Q * 2 <= Abs(n) <= MAX + 1;
  }

  /** For a non-negative dividend and positive divisor, the rounded-up quotient brackets it from above. */
  lemma CeilingBounds(n: int, d: int)
    requires n >= 0 && d > 0
    ensures var q := TruncDiv(n, d);
      if TruncRem(n, d) == 0 then (q - 1) * d < n <= q * d
      else q * d < n <= (q + 1) * d
  {
    var q := TruncDiv(n, d);
    FloorDiv(n, d);
    assert n == d * q + TruncRem(n, d);
    assert (q - 1) * d == q * d - d;
  }

  /**
   * `checked_ceiling_div`: `None` exactly on a zero divisor. Rust's `/` and `%`
   * panic on MIN / -1, so callers must not pass that pair.
   */
  function CheckedCeilingDiv(n: i128, d: i128): (r: Option<i128>)
    requires !(n == MIN && d == -1)
    ensures r.None? <==> d == 0
    ensures r.Some? && n >= 0 && d > 0 ==> (r.value - 1) * d < n <= r.value * d
    ensures r.Some? && TruncRem(n, d) == 0 ==> r.value * d == n
    ensures r.Some? && n > 0 && d < 0 ==> r.value <= 1
  {
    if d == 0 then None
    else
      var q := TruncDiv(n, d);
      TruncDivInRange(n, d);
      if TruncRem(n, d) == 0 then
        assert n >= 0 && d > 0 ==> (q - 1) * d < n by {
          if n >= 0 && d > 0 { CeilingBounds(n, d); }
        }
        Some(q)
      else
        InexactQuotientBelowMax(n, d);
        assert n >= 0 && d > 0 ==> q * d < n <= (q + 1) * d by {
          if n >= 0 && d > 0 { CeilingBounds(n, d); }
        }
        CheckedAdd(q, 1)
  }

  // ---------------------------------------------------------------------------
  // Token ordering and reserves

  /** `sort_tokens`: the two tokens in canonical (ascending) order. */
  function SortTokens(a: Address, b: Address): (r: Result<(Address, Address), LibError>)
    ensures r.Err? <==> a == b
    ensures r.Err? ==> r.error == IdenticalAddresses
    ensures r.Ok? ==> r.value.0 < r.value.1
    ensures r.Ok? ==> (r.value == (a, b) || r.value == (b, a))
  {
    if a == b then Err(IdenticalAddresses) else Ok(Ascending(a, b))
  }

  /** `pair_for`: the address the factory deploys the pair of `a` and `b` at, for either argument order. */
  function PairFor(factory: Address, a: Address, b: Address, derive: Derivation): (r: Result<Address, LibError>)
    ensures r.Err? <==> a == b
    ensures r.Err? ==> r.error == IdenticalAddresses
    ensures r.Ok? && a < b ==> r.value == derive(factory, a, b)
    ensures r.Ok? && b < a ==> r.value == derive(factory, b, a)
  {
    var (t0, t1) :- SortTokens(a, b);
    Ok(derive(factory, t0, t1))
  }

  /** `get_reserves`: the pair's reserves, oriented to the caller's (a, b) order. */
  function GetReserves(a: Address, b: Address, oracle: ReserveOracle): (r: Result<(i128, i128), LibError>)
    ensures a == b ==> r == Err(IdenticalAddresses)
    ensures a < b ==> r == oracle(a, b).OrErr(Trap)
    ensures b < a ==> (r.Ok? <==> oracle(b, a).Some?)
    ensures b < a && r.Ok? ==> r.value == (oracle(b, a).value.1, oracle(b, a).value.0)
  {
    var (t0, t1) :- SortTokens(a, b);
    var (r0, r1) :- oracle(t0, t1).OrErr(Trap);
    Ok(if a == t0 then (r0, r1) else (r1, r0))
  }

  // ---------------------------------------------------------------------------
  // Quotes and swap amounts

  /** `calculate_quote`: the amount of B worth `amountA` of A at the reserve ratio. */
  function CalculateQuote(amountA: i128, reserveA: i128, reserveB: i128): (r: Result<i128, LibError>)
    ensures amountA == 0 ==> r == Err(InsufficientAmount)
    ensures amountA != 0 && (reserveA == 0 || reserveB == 0) ==> r == Err(InsufficientLiquidity)
    ensures amountA != 0 && reserveA != 0 && reserveB != 0 ==>
      && (r == Err(Overflow) <==> !InI128(amountA * reserveB))
      && (r == Err(DivisionByZero) <==> amountA * reserveB == MIN && reserveA == -1)
    ensures r.Ok? ==> amountA != 0 && reserveA != 0 && reserveB != 0
    ensures r.Err? ==> r.error.InsufficientAmount? || r.error.InsufficientLiquidity? || r.error.Overflow? || r.error.DivisionByZero?
    ensures r.Ok? && amountA > 0 && reserveA > 0 && reserveB > 0 ==>
      r.value * reserveA <= amountA * reserveB < (r.value + 1) * reserveA
  {
    if amountA == 0 then Err(InsufficientAmount)
    else if reserveA == 0 || reserveB == 0 then Err(InsufficientLiquidity)
    else
      var product :- CheckedMul(amountA, reserveB).OrErr(Overflow);
      CheckedDiv(product, reserveA).OrErr(DivisionByZero)
  }

  /**
   * The fee `calculate_amount_out` keeps: 0.3% of the input rounded toward zero,
   * but never less than one unit.
   */
  function SwapFee(amountIn: int): (fee: int)
    requires amountIn > 0
    ensures 1 <= fee <= amountIn
    ensures fee == 1 ==> 3 * amountIn < 2000
    ensures fee > 1 ==> fee * 1000 <= 3 * amountIn < (fee + 1) * 1000
  {
    var f := TruncDiv(amountIn * 3, 1000);
    if f == 0 then 1 else f
  }

  /** The input that reaches the pool after `SwapFee`. */
  function NetInput(amountIn: int): (net: int)
    requires amountIn > 0
    ensures 0 <= net < amountIn
  {
    amountIn - SwapFee(amountIn)
  }

  /**
   * `calculate_amount_out`: the largest output whose removal keeps the product
   * of reserves, after the fee is taken from the input.
   */
  function CalculateAmountOut(amountIn: i128, reserveIn: i128, reserveOut: i128): (r: Result<i128, LibError>)
    ensures amountIn <= 0 ==> r == Err(InsufficientAmount)
    ensures amountIn > 0 && (reserveIn <= 0 || reserveOut <= 0) ==> r == Err(InsufficientLiquidity)
    ensures amountIn > 0 && reserveIn > 0 && reserveOut > 0 ==>
      && (r == Err(Trap) <==> !InI128(amountIn * 3))
      && (r == Err(Overflow) <==>
            InI128(amountIn * 3) &&
            (!InI128(NetInput(amountIn) * reserveOut) || !InI128(reserveIn + NetInput(amountIn))))
      && (r.Ok? || r == Err(Trap) || r == Err(Overflow))
    ensures r.Ok? ==> amountIn > 0 && reserveIn > 0 && reserveOut > 0
    ensures r.Ok? ==> 0 <= r.value < reserveOut
    ensures r.Ok? ==>
      var net := NetInput(amountIn);
      r.value * (reserveIn + net) <= net * reserveOut < (r.value + 1) * (reserveIn + net)
    ensures r.Ok? ==> (reserveIn + NetInput(amountIn)) * (reserveOut - r.value) >= reserveIn * reserveOut
  {
    if amountIn <= 0 then Err(InsufficientAmount)
    else if reserveIn <= 0 || reserveOut <= 0 then Err(InsufficientLiquidity)
    else
      var tripled :- CheckedMul(amountIn, 3).OrErr(Trap);
      var net := NetInput(amountIn);
      var numerator :- CheckedMul(net, reserveOut).OrErr(Overflow);
      var denominator :- CheckedAdd(reserveIn, net).OrErr(Overflow);
      var out := TruncDiv(numerator, denominator);
      AmountOutBounds(net, reserveIn, reserveOut, out);
      Ok(out)
  }

  lemma AmountOutBounds(net: int, reserveIn: int, reserveOut: int, out: int)
    requires net >= 0 && reserveIn > 0 && reserveOut > 0
    requires out == TruncDiv(net * reserveOut, reserveIn + net)
    ensures out * (reserveIn + net) <= net * reserveOut < (out + 1) * (reserveIn + net)
    ensures 0 <= out < reserveOut
    ensures (reserveIn + net) * (reserveOut - out) >= reserveIn * reserveOut
  {
    var den := reserveIn + net;
    var num := net * reserveOut;
    MulLe(0, net, reserveOut);
    FloorDiv(num, den);
    OutBelowReserve(num, den, net, reserveOut, out);
    ProductAfterOut(num, den, reserveIn, net, reserveOut, out);
  }

  lemma OutBelowReserve(num: int, den: int, net: int, reserveOut: int, out: int)
    requires 0 <= net < den && reserveOut > 0 && num == net * reserveOut
    requires out * den <= num
    ensures out < reserveOut
  {
    MulLt(net, den, reserveOut);
    if out >= reserveOut {
      MulLe(reserveOut, out, den);
    }
  }

  lemma ProductAfterOut(num: int, den: int, reserveIn: int, net: int, reserveOut: int, out: int)
    requires den == reserveIn + net && num == net * reserveOut && out * den <= num
    ensures den * (reserveOut - out) >= reserveIn * reserveOut
  {
    assert den * (reserveOut - out) == den * reserveOut - out * den;
    assert den * reserveOut == reserveIn * reserveOut + num;
  }

  /**
   * `calculate_amount_in`: the input needed for `amountOut`, priced with the
   * 997/1000 factor, rounded up, plus one more unit. An output larger than the
   * reserve is not rejected: the divisor turns negative and the quoted input is
   * at most 2.
   */
  function CalculateAmountIn(amountOut: i128, reserveIn: i128, reserveOut: i128): (r: Result<i128, LibError>)
    ensures amountOut <= 0 ==> r == Err(InsufficientAmount)
    ensures amountOut > 0 && (reserveIn <= 0 || reserveOut <= 0) ==> r == Err(InsufficientLiquidity)
    ensures (amountOut > 0 && reserveIn > 0 && reserveOut > 0 && amountOut == reserveOut
             && InI128(reserveIn * amountOut * 1000)) ==> r == Err(DivisionByZero)
    ensures amountOut > 0 && reserveIn > 0 && reserveOut > 0 ==> (r.Ok? || r == Err(Overflow) || r == Err(DivisionByZero))
    ensures r.Ok? ==> amountOut > 0 && reserveIn > 0 && reserveOut > 0 && amountOut != reserveOut
    ensures r.Ok? && amountOut < reserveOut ==>
      var numerator := reserveIn * amountOut * 1000;
      var denominator := (reserveOut - amountOut) * 997;
      (r.value - 2) * denominator < numerator <= (r.value - 1) * denominator
    ensures r.Ok? && amountOut > reserveOut ==> r.value <= 2
    ensures amountOut > 0 && reserveIn > 0 && reserveOut > 0 ==>
      (r == Err(Overflow) <==> !InI128(reserveIn * amountOut * 1000) || !InI128((reserveOut - amountOut) * 997))
    ensures amountOut > 0 && reserveIn > 0 && reserveOut > 0 && amountOut != reserveOut ==>
      (r.Ok? <==> InI128(reserveIn * amountOut * 1000) && InI128((reserveOut - amountOut) * 997))
  {
    if amountOut <= 0 then Err(InsufficientAmount)
    else if reserveIn <= 0 || reserveOut <= 0 then Err(InsufficientLiquidity)
    else
      var scaledIn :- CheckedMul(reserveIn, amountOut).OrErr(Overflow);
      var numerator :- CheckedMul(scaledIn, 1000).OrErr(Overflow);
      // Both reserve and output are positive, so `checked_sub` cannot fail; nor can
      // the final `checked_add` (CeilingRoom).
      var remaining := reserveOut - amountOut;
      var denominator :- CheckedMul(remaining, 997).OrErr(Overflow);
      var rounded :- CheckedCeilingDiv(numerator, denominator).OrErr(DivisionByZero);
      CeilingRoom(numerator, denominator, rounded);
      Ok(rounded + 1)
  }

  /** A rounded-up quotient of a positive dividend by a divisor of at least 2, or by a negative one, leaves room for `+ 1`. */
  lemma CeilingRoom(n: int, d: int, q: int)
    requires 0 < n <= MAX && (d >= 2 || d < 0)
    requires d > 0 ==> (q - 1) * d < n
    requires d < 0 ==> q <= 1
    ensures q + 1 <= MAX
  {
    if d > 0 && q > 1 {
      MulLe(2, d, q - 1);
    }
  }

  // ---------------------------------------------------------------------------
  // Chained amounts along a path

  /** One hop of `get_amounts_out`: the output of swapping `amountIn` of `a` for `b`. */
  function HopOut(amountIn: i128, a: Address, b: Address, oracle: ReserveOracle): (r: Result<i128, LibError>)
    ensures r.Err? ==> r.error != InvalidPath
  {
    var (reserveIn, reserveOut) :- GetReserves(a, b, oracle);
    CalculateAmountOut(amountIn, reserveIn, reserveOut)
  }

  /** One hop of `get_amounts_in`: the input of `a` needed to receive `amountOut` of `b`. */
  function HopIn(amountOut: i128, a: Address, b: Address, oracle: ReserveOracle): (r: Result<i128, LibError>)
    ensures r.Err? ==> r.error != InvalidPath
  {
    var (reserveIn, reserveOut) :- GetReserves(a, b, oracle);
    CalculateAmountIn(amountOut, reserveIn, reserveOut)
  }

  /** Hop `i` turns amount `i` into amount `i + 1`. */
  predicate LinksOut(amounts: seq<i128>, path: seq<Address>, oracle: ReserveOracle, i: nat)
    requires i + 1 < |amounts| && i + 1 < |path|
  {
    HopOut(amounts[i], path[i], path[i + 1], oracle) == Ok(amounts[i + 1])
  }

  /** The first `n` amounts are linked hop by hop by `HopOut` along the path. */
  predicate LinkedOut(amounts: seq<i128>, path: seq<Address>, oracle: ReserveOracle, n: nat)
    requires n <= |amounts| && n <= |path|
  {
    forall i :: 0 <= i < n - 1 ==> LinksOut(amounts, path, oracle, i)
  }

  /** `amounts` is a complete output chain for `path`: one amount per token. */
  predicate IsAmountsOut(amounts: seq<i128>, path: seq<Address>, oracle: ReserveOracle) {
    |path| >= 2 && |amounts| == |path| && LinkedOut(amounts, path, oracle, |path|)
  }

  /** The loop of `get_amounts_out`, from the amounts computed so far. */
  function ExtendOut(amounts: seq<i128>, path: seq<Address>, oracle: ReserveOracle): (r: Result<seq<i128>, LibError>)
    requires 1 <= |amounts| <= |path|
    requires LinkedOut(amounts, path, oracle, |amounts|)
    ensures r.Ok? ==> |r.value| == |path| && r.value[..|amounts|] == amounts
    ensures r.Ok? ==> LinkedOut(r.value, path, oracle, |path|)
    ensures r.Err? ==> r.error != InvalidPath
    decreases |path| - |amounts|
  {
    if |amounts| == |path| then Ok(amounts)
    else
      var i := |amounts| - 1;
      var out :- HopOut(amounts[i], path[i], path[i + 1], oracle);
      var next := amounts + [out];
      assert LinkedOut(next, path, oracle, |next|) by {
        forall j | 0 <= j < |next| - 1
          ensures LinksOut(next, path, oracle, j)
        {
          if j < i {
            assert LinksOut(amounts, path, oracle, j);
            assert next[j] == amounts[j] && next[j + 1] == amounts[j + 1];
          }
        }
      }
      var r := ExtendOut(next, path, oracle);
      assert r.Ok? ==> r.value[..|amounts|] == amounts by {
        if r.Ok? {
          assert r.value[..|amounts|] == r.value[..|next|][..|amounts|];
        }
      }
      r
  }

  /** `get_amounts_out`: the amounts received at each token of the path. */
  function GetAmountsOut(amountIn: i128, path: seq<Address>, oracle: ReserveOracle): (r: Result<seq<i128>, LibError>)
    ensures |path| < 2 ==> r == Err(InvalidPath)
    ensures r.Ok? ==> IsAmountsOut(r.value, path, oracle) && r.value[0] == amountIn
    ensures |path| >= 2 && r.Err? ==> r.error != InvalidPath
  {
    if |path| < 2 then Err(InvalidPath)
    else
      var r := ExtendOut([amountIn], path, oracle);
      assert r.Ok? ==> r.value[0] == r.value[..1][0];
      r
  }

  /** Amount `j` is the input `HopIn` asks for to receive amount `j + 1`. */
  predicate LinksIn(amounts: seq<i128>, tokens: seq<Address>, oracle: ReserveOracle, j: nat)
    requires j + 1 < |amounts| && j + 1 < |tokens|
  {
    HopIn(amounts[j + 1], tokens[j], tokens[j + 1], oracle) == Ok(amounts[j])
  }

  /** Each amount is the input `HopIn` asks for to receive the next one, token by token. */
  predicate LinkedIn(amounts: seq<i128>, tokens: seq<Address>, oracle: ReserveOracle)
    requires |amounts| == |tokens|
  {
    forall j :: 0 <= j < |tokens| - 1 ==> LinksIn(amounts, tokens, oracle, j)
  }

  /** `amounts` is a complete input chain for `path`: one amount per token. */
  predicate IsAmountsIn(amounts: seq<i128>, path: seq<Address>, oracle: ReserveOracle) {
    |path| >= 2 && |amounts| == |path| && LinkedIn(amounts, path, oracle)
  }

  /** The loop of `get_amounts_in`, prepending one input per hop from the end of the path. */
  function ExtendIn(amounts: seq<i128>, path: seq<Address>, oracle: ReserveOracle): (r: Result<seq<i128>, LibError>)
    requires 1 <= |amounts| <= |path|
    requires LinkedIn(amounts, path[|path| - |amounts|..], oracle)
    ensures r.Ok? ==> |r.value| == |path| && r.value[|path| - |amounts|..] == amounts
    ensures r.Ok? ==> LinkedIn(r.value, path, oracle)
    ensures r.Err? ==> r.error != InvalidPath
    decreases |path| - |amounts|
  {
    if |amounts| == |path| then
      assert path[0..] == path;
      Ok(amounts)
    else
      var i := |path| - |amounts|;
      var input :- HopIn(amounts[0], path[i - 1], path[i], oracle);
      var next := [input] + amounts;
      assert LinkedIn(next, path[i - 1..], oracle) by {
        var tokens := path[i - 1..];
        forall j | 0 <= j < |tokens| - 1
          ensures LinksIn(next, tokens, oracle, j)
        {
          if j > 0 {
            assert LinksIn(amounts, path[i..], oracle, j - 1);
            assert tokens[j] == path[i..][j - 1] && tokens[j + 1] == path[i..][j];
          }
        }
      }
      var r := ExtendIn(next, path, oracle);
      assert r.Ok? ==> r.value[i..] == amounts by {
        if r.Ok? {
          assert r.value[i..] == r.value[i - 1..][1..];
        }
      }
      r
  }

  /** `get_amounts_in`: the amounts to send at each token of the path to receive `amountOut`. */
  function GetAmountsIn(amountOut: i128, path: seq<Address>, oracle: ReserveOracle): (r: Result<seq<i128>, LibError>)
    ensures |path| < 2 ==> r == Err(InvalidPath)
    ensures r.Ok? ==> IsAmountsIn(r.value, path, oracle) && r.value[|path| - 1] == amountOut
    ensures |path| >= 2 && r.Err? ==> r.error != InvalidPath
  {
    if |path| < 2 then Err(InvalidPath)
    else
      var r := ExtendIn([amountOut], path, oracle);
      assert r.Ok? ==> r.value[|path| - 1] == r.value[|path| - 1..][0];
      r
  }

  // ---------------------------------------------------------------------------
  // Liquidity

  /** `calculate_k`: the product of the reserves, when it fits in an i128. */
  function CalculateK(reserveA: i128, reserveB: i128): (r: Result<i128, LibError>)
    ensures r.Ok? <==> InI128(reserveA * reserveB)
    ensures r.Ok? ==> r.value == reserveA * reserveB
    ensures r.Err? ==> r.error == Overflow
  {
    CheckedMul(reserveA, reserveB).OrErr(Overflow)
  }

  /**
   * `optimal_liquidity`: the deposit that keeps the reserve ratio, using all of
   * one desired amount and at most the other, within the caller's minimums.
   */
  function OptimalLiquidity(
    amountADesired: i128, amountBDesired: i128,
    amountAMin: i128, amountBMin: i128,
    reserveA: i128, reserveB: i128): (r: Result<(i128, i128), LibError>)
    ensures reserveA == 0 && reserveB == 0 ==> r == Ok((amountADesired, amountBDesired))
    ensures r.Ok? && !(reserveA == 0 && reserveB == 0) ==>
      || (r.value.0 == amountADesired && amountBMin <= r.value.1 <= amountBDesired)
      || (amountAMin <= r.value.0 <= amountADesired && r.value.1 == amountBDesired)
    ensures r == Err(InsufficientBAmount) ==>
      var q := CalculateQuote(amountADesired, reserveA, reserveB);
      q.Ok? && q.value <= amountBDesired && q.value < amountBMin
    ensures r == Err(InsufficientAAmount) ==>
      var q := CalculateQuote(amountADesired, reserveA, reserveB);
      var p := CalculateQuote(amountBDesired, reserveB, reserveA);
      q.Ok? && q.value > amountBDesired && p.Ok? && p.value <= amountADesired && p.value < amountAMin
    ensures !(reserveA == 0 && reserveB == 0) ==>
      var q := CalculateQuote(amountADesired, reserveA, reserveB);
      var p := CalculateQuote(amountBDesired, reserveB, reserveA);
      && (q.Err? ==> r == Err(q.error))
      && (q.Ok? && q.value <= amountBDesired ==>
            r == (if q.value < amountBMin then Err(InsufficientBAmount) else Ok((amountADesired, q.value))))
      && (q.Ok? && q.value > amountBDesired && p.Err? ==> r == Err(p.error))
      && (q.Ok? && q.value > amountBDesired && p.Ok? ==>
            r == (if p.value > amountADesired then Err(Trap)
                  else if p.value < amountAMin then Err(InsufficientAAmount)
                  else Ok((p.value, amountBDesired))))
  {
    if reserveA == 0 && reserveB == 0 then Ok((amountADesired, amountBDesired))
    else
      var amountBOptimal :- CalculateQuote(amountADesired, reserveA, reserveB);
      if amountBOptimal <= amountBDesired then
        if amountBOptimal < amountBMin then Err(InsufficientBAmount)
        else Ok((amountADesired, amountBOptimal))
      else
        var amountAOptimal :- CalculateQuote(amountBDesired, reserveB, reserveA);
        if !(amountAOptimal <= amountADesired) then Err(Trap)
        else if amountAOptimal < amountAMin then Err(InsufficientAAmount)
        else Ok((amountAOptimal, amountBDesired))
  }

  /** Floor quotients of cross-multiplied fractions compare like the fractions. */
  lemma FloorMonotone(x: int, y: int, u: int, v: int, s: int, p: int, q: int)
    requires y > 0 && v > 0 && s >= 0 && x >= 0 && u >= 0
    requires x * v <= u * y
    requires p * y <= s * x && q * v <= s * u < (q + 1) * v
    ensures p <= q
  {
    assert p * y * v <= s * x * v by { MulLe(p * y, s * x, v); }
    assert s * x * v <= s * u * y by {
      MulLe(x * v, u * y, s);
      assert s * (x * v) == s * x * v && s * (u * y) == s * u * y;
    }
    assert p * v * y <= s * u * y;
    if p > q {
      MulLe(q + 1, p, v);
      assert s * u < p * v;
      MulLt(s * u, p * v, y);
      assert false;
    }
  }

  lemma ImpactBounds(mid: int, exec: int, p: int)
    requires 0 <= exec <= mid && mid > 0
    requires p == TruncDiv((mid - exec) * 10000, mid)
    ensures 0 <= p <= 10000
  {
    MulLe(0, mid - exec, 10000);
    FloorDiv((mid - exec) * 10000, mid);
    MulLe(mid - exec, mid, 10000);
    if p > 10000 {
      MulLe(10001, p, mid);
      assert false;
    }
  }

  /**
   * `calculate_price_impact`: how far the execution price falls below the mid
   * price, in basis points of the mid price (both prices scaled by 10^18).
   */
  function CalculatePriceImpact(amountIn: i128, amountOut: i128, reserveIn: i128, reserveOut: i128): (r: Result<i128, LibError>)
    ensures (r.Ok? && amountIn > 0 && amountOut > 0 && reserveIn > 0 && reserveOut > 0
             && amountOut * reserveIn <= amountIn * reserveOut) ==> 0 <= r.value <= 10000
    ensures amountIn == 0 || amountOut == 0 || reserveIn == 0 || reserveOut == 0 ==> r.Err?
  {
    var midPrice :- CalculateQuote(PRICE_SCALE, reserveIn, reserveOut);
    var executionPrice :- CalculateQuote(PRICE_SCALE, amountIn, amountOut);
    var gap :- CheckedSub(midPrice, executionPrice).OrErr(Overflow);
    var scaled :- CheckedMul(gap, 10000).OrErr(Overflow);
    var impact :- CheckedDiv(scaled, midPrice).OrErr(DivisionByZero);
    assert amountIn > 0 && amountOut > 0 && reserveIn > 0 && reserveOut > 0
      && amountOut * reserveIn <= amountIn * reserveOut ==> 0 <= impact <= 10000 by {
      if amountIn > 0 && amountOut > 0 && reserveIn > 0 && reserveOut > 0
        && amountOut * reserveIn <= amountIn * reserveOut {
        FloorMonotone(amountOut, amountIn, reserveOut, reserveIn, PRICE_SCALE, executionPrice, midPrice);
        ImpactBounds(midPrice, executionPrice, impact);
      }
    }
    Ok(impact)
  }

  /** A pro-rata floor share bounded by both deposits, and maximal for one of them. */
  predicate IsProRataMint(liquidity: int, totalSupply: int, amountA: int, amountB: int, reserveA: int, reserveB: int) {
    && liquidity * reserveA <= amountA * totalSupply
    && liquidity * reserveB <= amountB * totalSupply
    && ((liquidity + 1) * reserveA > amountA * totalSupply || (liquidity + 1) * reserveB > amountB * totalSupply)
  }

  lemma MinOfFloors(la: int, lb: int, ts: int, a: int, b: int, ra: int, rb: int)
    requires ts > 0 && ra > 0 && rb > 0 && a >= 0 && b >= 0
    requires la == TruncDiv(a * ts, ra) && lb == TruncDiv(b * ts, rb)
    ensures IsProRataMint(if la < lb then la else lb, ts, a, b, ra, rb)
  {
    MulLe(0, a, ts);
    MulLe(0, b, ts);
    FloorDiv(a * ts, ra);
    FloorDiv(b * ts, rb);
    if la < lb {
      MulLe(la, lb, rb);
    } else {
      MulLe(lb, la, ra);
    }
  }

  /**
   * `calculate_liquidity_minted`: the bootstrap share `sqrt(a * b) - 1000`, or
   * the smaller pro-rata share of the two deposits; never a non-positive amount.
   */
  function CalculateLiquidityMinted(totalSupply: i128, amountA: i128, amountB: i128, reserveA: i128, reserveB: i128): (r: Result<i128, LibError>)
    ensures r.Ok? ==> r.value > 0
    ensures totalSupply == 0 && !InI128(amountA * amountB) ==> r == Err(Overflow)
    ensures totalSupply == 0 && InI128(amountA * amountB) && amountA * amountB < 0 ==> r == Err(Trap)
    ensures totalSupply == 0 && InI128(amountA * amountB) && amountA * amountB >= 0 ==>
      (r.Err? <==> Isqrt(amountA * amountB) <= 1000) &&
      (r.Err? ==> r.error == InsufficientLiquidityMinted)
    ensures totalSupply == 0 && r.Ok? ==>
      (r.value + 1000) * (r.value + 1000) <= amountA * amountB < (r.value + 1001) * (r.value + 1001)
    ensures totalSupply != 0 && reserveA == 0 && InI128(amountA * totalSupply) ==> r == Err(DivisionByZero)
    ensures totalSupply > 0 && reserveA > 0 && reserveB > 0 && amountA >= 0 && amountB >= 0 && r.Ok? ==>
      IsProRataMint(r.value, totalSupply, amountA, amountB, reserveA, reserveB)
    ensures totalSupply != 0 && !InI128(amountA * totalSupply) ==> r == Err(Overflow)
    ensures totalSupply != 0 && InI128(amountA * totalSupply) && !DivisionDefined(amountA * totalSupply, reserveA) ==>
      r == Err(DivisionByZero)
    ensures totalSupply != 0 && InI128(amountA * totalSupply) && DivisionDefined(amountA * totalSupply, reserveA) ==>
      && (!InI128(amountB * totalSupply) ==> r == Err(Overflow))
      && (InI128(amountB * totalSupply) && !DivisionDefined(amountB * totalSupply, reserveB) ==> r == Err(DivisionByZero))
    ensures totalSupply != 0 && InI128(amountA * totalSupply) && InI128(amountB * totalSupply)
            && DivisionDefined(amountA * totalSupply, reserveA) && DivisionDefined(amountB * totalSupply, reserveB) ==>
      var shareA := TruncDiv(amountA * totalSupply, reserveA);
      var shareB := TruncDiv(amountB * totalSupply, reserveB);
      var m := if shareA < shareB then shareA else shareB;
      r == (if m <= 0 then Err(InsufficientLiquidityMinted) else Ok(m))
  {
    var liquidity :-
      if totalSupply == 0 then
        var product :- CheckedMul(amountA, amountB).OrErr(Overflow);
        var root :- Sqrt(product).OrErr(Trap);
        CheckedSub(root, 1000).OrErr(Overflow)
      else
        var scaledA :- CheckedMul(amountA, totalSupply).OrErr(Overflow);
        var liquidityA :- CheckedDiv(scaledA, reserveA).OrErr(DivisionByZero);
        var scaledB :- CheckedMul(amountB, totalSupply).OrErr(Overflow);
        var liquidityB :- CheckedDiv(scaledB, reserveB).OrErr(DivisionByZero);
        assert totalSupply > 0 && reserveA > 0 && reserveB > 0 && amountA >= 0 && amountB >= 0 ==>
          IsProRataMint(if liquidityA < liquidityB then liquidityA else liquidityB,
                        totalSupply, amountA, amountB, reserveA, reserveB) by {
          if totalSupply > 0 && reserveA > 0 && reserveB > 0 && amountA >= 0 && amountB >= 0 {
            MinOfFloors(liquidityA, liquidityB, totalSupply, amountA, amountB, reserveA, reserveB);
          }
        }
        Ok(if liquidityA < liquidityB then liquidityA else liquidityB);
    if liquidity <= 0 then Err(InsufficientLiquidityMinted) else Ok(liquidity)
  }

  lemma ShareBounds(liquidity: int, totalSupply: int, reserve: int, amount: int)
    requires 0 <= liquidity <= totalSupply && totalSupply > 0 && reserve >= 0
    requires amount == TruncDiv(liquidity * reserve, totalSupply)
    ensures amount * totalSupply <= liquidity * reserve < (amount + 1) * totalSupply
    ensures amount <= reserve
  {
    MulLe(0, liquidity, reserve);
    FloorDiv(liquidity * reserve, totalSupply);
    MulLe(liquidity, totalSupply, reserve);
    if amount > reserve {
      MulLe(reserve + 1, amount, totalSupply);
      assert false;
    }
  }

  /**
   * `calculate_burn_amounts`: the floor pro-rata shares of the two reserves for
   * `liquidity` out of `totalSupply`; both shares must be positive.
   */
  function CalculateBurnAmounts(liquidity: i128, totalSupply: i128, reserveA: i128, reserveB: i128): (r: Result<(i128, i128), LibError>)
    ensures liquidity > totalSupply ==> r == Err(InsufficientTotalSupply)
    ensures r.Ok? ==> liquidity <= totalSupply && r.value.0 > 0 && r.value.1 > 0
    ensures r.Ok? && 0 <= liquidity && totalSupply > 0 && reserveA >= 0 && reserveB >= 0 ==>
      && r.value.0 <= reserveA && r.value.1 <= reserveB
      && r.value.0 * totalSupply <= liquidity * reserveA < (r.value.0 + 1) * totalSupply
      && r.value.1 * totalSupply <= liquidity * reserveB < (r.value.1 + 1) * totalSupply
    ensures liquidity <= totalSupply && totalSupply == 0 && InI128(liquidity * reserveA) ==> r == Err(DivisionByZero)
    ensures liquidity <= totalSupply && !InI128(liquidity * reserveA) ==> r == Err(Overflow)
    ensures liquidity <= totalSupply && InI128(liquidity * reserveA) && !DivisionDefined(liquidity * reserveA, totalSupply) ==>
      r == Err(DivisionByZero)
    ensures liquidity <= totalSupply && InI128(liquidity * reserveA) && DivisionDefined(liquidity * reserveA, totalSupply) ==>
      && (!InI128(liquidity * reserveB) ==> r == Err(Overflow))
      && (InI128(liquidity * reserveB) && !DivisionDefined(liquidity * reserveB, totalSupply) ==> r == Err(DivisionByZero))
    ensures liquidity <= totalSupply && InI128(liquidity * reserveA) && InI128(liquidity * reserveB)
            && DivisionDefined(liquidity * reserveA, totalSupply) && DivisionDefined(liquidity * reserveB, totalSupply) ==>
      var amountA := TruncDiv(liquidity * reserveA, totalSupply);
      var amountB := TruncDiv(liquidity * reserveB, totalSupply);
      r == (if amountA <= 0 || amountB <= 0 then Err(InsufficientLiquidityBurned) else Ok((amountA, amountB)))
  {
    if liquidity > totalSupply then Err(InsufficientTotalSupply)
    else
      var scaledA :- CheckedMul(liquidity, reserveA).OrErr(Overflow);
      var amountA :- CheckedDiv(scaledA, totalSupply).OrErr(DivisionByZero);
      var scaledB :- CheckedMul(liquidity, reserveB).OrErr(Overflow);
      var amountB :- CheckedDiv(scaledB, totalSupply).OrErr(DivisionByZero);
      if amountA <= 0 || amountB <= 0 then Err(InsufficientLiquidityBurned)
      else
        assert 0 <= liquidity && totalSupply > 0 && reserveA >= 0 && reserveB >= 0 ==>
          && amountA <= reserveA && amountB <= reserveB
          && amountA * totalSupply <= liquidity * reserveA < (amountA + 1) * totalSupply
          && amountB * totalSupply <= liquidity * reserveB < (amountB + 1) * totalSupply by {
          if 0 <= liquidity && totalSupply > 0 && reserveA >= 0 && reserveB >= 0 {
            ShareBounds(liquidity, totalSupply, reserveA, amountA);
            ShareBounds(liquidity, totalSupply, reserveB, amountB);
          }
        }
        Ok((amountA, amountB))
  }

  /**
   * `is_constant_product_maintained`: the new product is at least the old one;
   * an overflowing product answers `false`, not an error.
   */
  function IsConstantProductMaintained(reserveA: i128, reserveB: i128, newReserveA: i128, newReserveB: i128): (r: bool)
    ensures r <==> InI128(reserveA * reserveB) && InI128(newReserveA * newReserveB)
                   && newReserveA * newReserveB >= reserveA * reserveB
  {
    match (CalculateK(reserveA, reserveB), CalculateK(newReserveA, newReserveB))
    case (Ok(kBefore), Ok(kAfter)) => kAfter >= kBefore
    case _ => false
  }
}

=== FILE: library_proofs.dfy ===
/**
 * Properties of the pricing library that relate several calls: the swap
 * round trip, the constant product kept by a swap, uniqueness of the chained
 * path amounts, and the amounts the library's own tests expect.
 */
module LibraryProofs {
  import opened Results
  import opened Int128
  import opened Addresses
  import opened Library

  // ---------------------------------------------------------------------------
  // Swap amounts

  /**
   * Paying the input `calculate_amount_in` quotes for `amountOut` buys at
   * least `amountOut`: the 997/1000 pricing of the input side covers the
   * 0.3% fee (with its one-unit minimum) taken by the output side.
   */
  lemma {:induction false} AmountInCoversAmountOut(amountOut: i128, reserveIn: i128, reserveOut: i128, amountIn: i128, received: i128)
    requires CalculateAmountIn(amountOut, reserveIn, reserveOut) == Ok(amountIn)
    requires amountOut < reserveOut
    requires CalculateAmountOut(amountIn, reserveIn, reserveOut) == Ok(received)
    ensures received >= amountOut
  {
    var net := NetInput(amountIn);
    var fee := SwapFee(amountIn);
    assert net * 1000 >= (amountIn - 1) * 997;
    RoundTripArithmetic(amountOut, reserveIn, reserveOut, amountIn, net, received);
  }

  /** The arithmetic behind `AmountInCoversAmountOut`, over plain integers. */
  lemma RoundTripArithmetic(y: int, reserveIn: int, reserveOut: int, x: int, net: int, z: int)
    requires 0 < y < reserveOut && reserveIn > 0 && net >= 0
    requires reserveIn * y * 1000 <= (x - 1) * ((reserveOut - y) * 997)
    requires net * 1000 >= (x - 1) * 997
    requires net * reserveOut < (z + 1) * (reserveIn + net)
    ensures z >= y
  {
    var m := reserveOut - y;
    var d := m * 997;
    MulLt(0, reserveIn, y);
    MulLe((x - 1) * 997, net * 1000, m);
    assert (x - 1) * 997 * m == (x - 1) * d;
    assert net * 1000 * m == (net * m) * 1000;
    assert reserveIn * y * 1000 == (reserveIn * y) * 1000;
    assert net * m >= reserveIn * y;
    assert net * m == net * reserveOut - net * y;
    assert y * (reserveIn + net) == reserveIn * y + net * y;
    if z < y {
      MulLe(z + 1, y, reserveIn + net);
      assert false;
    }
  }

  /** A swap priced by `calculate_amount_out` never lowers the product of the reserves. */
  lemma AmountOutKeepsProduct(amountIn: i128, reserveIn: i128, reserveOut: i128, amountOut: i128)
    requires CalculateAmountOut(amountIn, reserveIn, reserveOut) == Ok(amountOut)
    ensures amountOut < reserveOut
    ensures (reserveIn + amountIn) * (reserveOut - amountOut) >= reserveIn * reserveOut
  {
    var net := NetInput(amountIn);
    MulLe(reserveIn + net, reserveIn + amountIn, reserveOut - amountOut);
  }

  /** The same fact seen through `is_constant_product_maintained`, when the products fit. */
  lemma AmountOutPassesProductCheck(
    amountIn: i128, reserveIn: i128, reserveOut: i128, amountOut: i128,
    newReserveIn: i128, newReserveOut: i128)
    requires CalculateAmountOut(amountIn, reserveIn, reserveOut) == Ok(amountOut)
    requires newReserveIn == reserveIn + amountIn && newReserveOut == reserveOut - amountOut
    requires InI128(reserveIn * reserveOut) && InI128(newReserveIn * newReserveOut)
    ensures IsConstantProductMaintained(reserveIn, reserveOut, newReserveIn, newReserveOut)
  {
    AmountOutKeepsProduct(amountIn, reserveIn, reserveOut, amountOut);
  }

  // ---------------------------------------------------------------------------
  // Quotes

  /**
   * Quoting twice the amount gives twice the quote or one more: the floor makes
   * `calculate_quote` superadditive, not linear.
   */
  lemma QuoteOfDouble(amountA: i128, doubled: i128, reserveA: i128, reserveB: i128, q1: i128, q2: i128)
    requires amountA > 0 && reserveA > 0 && reserveB > 0 && doubled == 2 * amountA
    requires CalculateQuote(amountA, reserveA, reserveB) == Ok(q1)
    requires CalculateQuote(doubled, reserveA, reserveB) == Ok(q2)
    ensures 2 * q1 <= q2 <= 2 * q1 + 1
  {
    DoubleProduct(amountA, reserveB);
    DoubleFloor(amountA * reserveB, reserveA, q1, q2);
  }

  lemma DoubleProduct(a: int, b: int)
    ensures (2 * a) * b == 2 * (a * b)
  {
  }

  /** Floor quotients of `x` and `2 * x` by the same divisor. */
  lemma DoubleFloor(x: int, d: int, q1: int, q2: int)
    requires d > 0
    requires q1 * d <= x < (q1 + 1) * d
    requires q2 * d <= 2 * x < (q2 + 1) * d
    ensures 2 * q1 <= q2 <= 2 * q1 + 1
  {
    if q2 < 2 * q1 {
      MulLe(q2 + 1, 2 * q1, d);
      assert false;
    }
    if q2 > 2 * q1 + 1 {
      MulLe(2 * q1 + 2, q2, d);
      assert false;
    }
  }

  /** Doubling the amount can add one unit more than twice the quote. */
  lemma QuoteNotLinear()
    ensures CalculateQuote(1, 2, 1) == Ok(0)
    ensures CalculateQuote(2, 2, 1) == Ok(1)
  {
    FloorDivUnique(1, 2, 0);
    FloorDivUnique(2, 2, 1);
  }

  /** `get_reserves` with the tokens swapped answers the same reserves, swapped. */
  lemma GetReservesSwapped(a: Address, b: Address, oracle: ReserveOracle)
    ensures GetReserves(a, b, oracle).Ok? <==> GetReserves(b, a, oracle).Ok?
    ensures GetReserves(a, b, oracle).Ok? ==>
      GetReserves(b, a, oracle).value == (GetReserves(a, b, oracle).value.1, GetReserves(a, b, oracle).value.0)
  {
  }

  // ---------------------------------------------------------------------------
  // Path amounts

  lemma {:induction false} ExtendOutComplete(amounts: seq<i128>, path: seq<Address>, oracle: ReserveOracle, k: nat)
    requires IsAmountsOut(amounts, path, oracle) && 1 <= k <= |path|
    ensures LinkedOut(amounts[..k], path, oracle, k)
    ensures ExtendOut(amounts[..k], path, oracle) == Ok(amounts)
    decreases |path| - k
  {
    if k == |path| {
      ExtendOutDone(amounts, path, oracle);
    } else {
      ExtendOutComplete(amounts, path, oracle, k + 1);
      ExtendOutTurn(amounts, path, oracle, k);
    }
  }

  /** With every amount of a complete output chain in hand, the loop stops and returns it. */
  lemma ExtendOutDone(amounts: seq<i128>, path: seq<Address>, oracle: ReserveOracle)
    requires IsAmountsOut(amounts, path, oracle)
    ensures LinkedOut(amounts[..|path|], path, oracle, |path|)
    ensures ExtendOut(amounts[..|path|], path, oracle) == Ok(amounts)
  {
    assert amounts[..|path|] == amounts;
  }

  /**
   * Along a complete output chain, one turn of the loop extends the first `k`
   * amounts to the first `k + 1`, so the loop that finishes from `k + 1`
   * finishes from `k` with the same result.
   */
  lemma ExtendOutTurn(amounts: seq<i128>, path: seq<Address>, oracle: ReserveOracle, k: nat)
    requires IsAmountsOut(amounts, path, oracle) && 1 <= k < |path|
    requires LinkedOut(amounts[..k + 1], path, oracle, k + 1)
    requires ExtendOut(amounts[..k + 1], path, oracle) == Ok(amounts)
    ensures LinkedOut(amounts[..k], path, oracle, k)
    ensures ExtendOut(amounts[..k], path, oracle) == Ok(amounts)
  {
    var prefix := amounts[..k];
    LinkedOutPrefix(amounts, path, oracle, k);
    assert HopOut(prefix[k - 1], path[k - 1], path[k], oracle) == Ok(amounts[k]) by {
      assert LinksOut(amounts, path, oracle, k - 1);
      assert prefix[k - 1] == amounts[k - 1];
    }
    PrefixGrows(amounts, k);
    ExtendOutStep(prefix, path, oracle, amounts[k]);
  }

  /** The first `k + 1` amounts are the first `k` followed by amount `k`. */
  lemma PrefixGrows(amounts: seq<i128>, k: nat)
    requires k < |amounts|
    ensures amounts[..k] + [amounts[k]] == amounts[..k + 1]
  {
  }

  /** Every prefix of a complete output chain is linked as far as it goes. */
  lemma LinkedOutPrefix(amounts: seq<i128>, path: seq<Address>, oracle: ReserveOracle, k: nat)
    requires IsAmountsOut(amounts, path, oracle) && 1 <= k <= |path|
    ensures LinkedOut(amounts[..k], path, oracle, k)
  {
    var prefix := amounts[..k];
    forall i | 0 <= i < k - 1
      ensures LinksOut(prefix, path, oracle, i)
    {
      assert LinksOut(amounts, path, oracle, i);
      assert prefix[i] == amounts[i] && prefix[i + 1] == amounts[i + 1];
    }
  }

  /** One turn of the `get_amounts_out` loop: a successful hop appends its output and the loop goes on. */
  lemma ExtendOutStep(prefix: seq<i128>, path: seq<Address>, oracle: ReserveOracle, out: i128)
    requires 1 <= |prefix| < |path| && LinkedOut(prefix, path, oracle, |prefix|)
    requires HopOut(prefix[|prefix| - 1], path[|prefix| - 1], path[|prefix|], oracle) == Ok(out)
    requires LinkedOut(prefix + [out], path, oracle, |prefix| + 1)
    ensures ExtendOut(prefix, path, oracle) == ExtendOut(prefix + [out], path, oracle)
  {
  }

  /**
   * `get_amounts_out` succeeds on every complete chain starting at the given
   * amount, and returns exactly that chain.
   */
  lemma GetAmountsOutComplete(amountIn: i128, path: seq<Address>, oracle: ReserveOracle, amounts: seq<i128>)
    requires IsAmountsOut(amounts, path, oracle) && amounts[0] == amountIn
    ensures GetAmountsOut(amountIn, path, oracle) == Ok(amounts)
  {
    ExtendOutComplete(amounts, path, oracle, 1);
    assert amounts[..1] == [amountIn];
  }

  lemma {:induction false} ExtendInComplete(amounts: seq<i128>, path: seq<Address>, oracle: ReserveOracle, k: nat)
    requires IsAmountsIn(amounts, path, oracle) && k < |path|
    ensures LinkedIn(amounts[k..], path[k..], oracle)
    ensures ExtendIn(amounts[k..], path, oracle) == Ok(amounts)
    decreases k
  {
    var suffix, tokens := amounts[k..], path[k..];
    forall j | 0 <= j < |tokens| - 1
      ensures LinksIn(suffix, tokens, oracle, j)
    {
      assert LinksIn(amounts, path, oracle, k + j);
      assert suffix[j + 1] == amounts[k + j + 1] && tokens[j] == path[k + j];
    }
    if k == 0 {
      assert suffix == amounts;
    } else {
      assert LinksIn(amounts, path, oracle, k - 1);
      assert [amounts[k - 1]] + suffix == amounts[k - 1..];
      ExtendInComplete(amounts, path, oracle, k - 1);
    }
  }

  /**
   * `get_amounts_in` succeeds on every complete chain ending at the given
   * amount, and returns exactly that chain.
   */
  lemma GetAmountsInComplete(amountOut: i128, path: seq<Address>, oracle: ReserveOracle, amounts: seq<i128>)
    requires IsAmountsIn(amounts, path, oracle) && amounts[|path| - 1] == amountOut
    ensures GetAmountsIn(amountOut, path, oracle) == Ok(amounts)
  {
    ExtendInComplete(amounts, path, oracle, |path| - 1);
    assert amounts[|path| - 1..] == [amountOut];
  }

  // ---------------------------------------------------------------------------
  // Deposits and shares

  /**
   * Away from the bootstrap case, a successful `optimal_liquidity` uses one
   * desired amount in full and the floor quote of it at the reserve ratio.
   */
  lemma OptimalLiquidityKeepsRatio(
    amountADesired: i128, amountBDesired: i128, amountAMin: i128, amountBMin: i128,
    reserveA: i128, reserveB: i128, amountA: i128, amountB: i128)
    requires OptimalLiquidity(amountADesired, amountBDesired, amountAMin, amountBMin, reserveA, reserveB) == Ok((amountA, amountB))
    requires reserveA > 0 && reserveB > 0 && amountADesired > 0 && amountBDesired > 0
    ensures || (amountA == amountADesired && amountB * reserveA <= amountADesired * reserveB < (amountB + 1) * reserveA)
            || (amountB == amountBDesired && amountA * reserveB <= amountBDesired * reserveA < (amountA + 1) * reserveB)
  {
    var q := CalculateQuote(amountADesired, reserveA, reserveB);
    if q.Ok? && q.value <= amountBDesired {
      assert amountB == q.value;
    } else {
      var p := CalculateQuote(amountBDesired, reserveB, reserveA);
      assert p.Ok? && amountA == p.value;
    }
  }

  /**
   * The minimum of the side used in full is never checked: a desired A below
   * its own minimum is accepted.
   */
  lemma OptimalLiquidityIgnoresUsedSideMinimum()
    ensures OptimalLiquidity(100, 1000, 200, 0, 1000, 2000) == Ok((100, 200))
  {
    FloorDivUnique(200000, 1000, 200);
  }

  /** The pro-rata share of `calculate_liquidity_minted` is unique: it is the smaller floor share. */
  lemma ProRataMintUnique(l1: int, l2: int, totalSupply: int, amountA: int, amountB: int, reserveA: int, reserveB: int)
    requires reserveA > 0 && reserveB > 0
    requires IsProRataMint(l1, totalSupply, amountA, amountB, reserveA, reserveB)
    requires IsProRataMint(l2, totalSupply, amountA, amountB, reserveA, reserveB)
    ensures l1 == l2
  {
    if l1 < l2 {
      MulLe(l1 + 1, l2, reserveA);
      MulLe(l1 + 1, l2, reserveB);
      assert false;
    } else if l2 < l1 {
      MulLe(l2 + 1, l1, reserveA);
      MulLe(l2 + 1, l1, reserveB);
      assert false;
    }
  }

  /** The bootstrap mint is exactly the floor square root of the product, less the 1000 locked units. */
  lemma BootstrapMintIsRootLessMinimum(amountA: i128, amountB: i128, reserveA: i128, reserveB: i128)
    requires InI128(amountA * amountB) && amountA * amountB >= 0 && Isqrt(amountA * amountB) > 1000
    ensures CalculateLiquidityMinted(0, amountA, amountB, reserveA, reserveB) == Ok(Isqrt(amountA * amountB) - 1000)
  {
    var r := CalculateLiquidityMinted(0, amountA, amountB, reserveA, reserveB);
    IsqrtUnique(amountA * amountB, r.value + 1000);
  }

  /**
   * A burn of a positive part of a positive supply whose share of each reserve
   * reaches one whole unit succeeds, and pays out no more than either reserve.
   */
  lemma BurnAmountsSucceed(liquidity: i128, totalSupply: i128, reserveA: i128, reserveB: i128)
    requires 0 < liquidity <= totalSupply && reserveA >= 0 && reserveB >= 0
    requires InI128(liquidity * reserveA) && InI128(liquidity * reserveB)
    requires liquidity * reserveA >= totalSupply && liquidity * reserveB >= totalSupply
    ensures var r := CalculateBurnAmounts(liquidity, totalSupply, reserveA, reserveB);
      && r.Ok?
      && 0 < r.value.0 <= reserveA && 0 < r.value.1 <= reserveB
  {
    WholeShare(liquidity * reserveA, totalSupply);
    WholeShare(liquidity * reserveB, totalSupply);
  }

  /** A dividend at least as large as the positive divisor has a positive quotient. */
  lemma WholeShare(n: int, d: int)
    requires 0 < d <= n
    ensures TruncDiv(n, d) >= 1
  {
    FloorDiv(n, d);
  }

  // ---------------------------------------------------------------------------
  // Values the library's tests assert

  lemma QuoteExample()
    ensures CalculateQuote(100, 1000, 2000) == Ok(200)
  {
    FloorDivUnique(200000, 1000, 200);
  }

  lemma AmountOutExample()
    ensures CalculateAmountOut(3, 100, 100) == Ok(1)
  {
    FloorDivUnique(9, 1000, 0);
    FloorDivUnique(200, 102, 1);
  }

  lemma AmountInExample()
    ensures CalculateAmountIn(1, 100, 100) == Ok(3)
  {
    FloorDivUnique(100000, 98703, 1);
  }

  lemma CalculateKExample()
    ensures CalculateK(1000, 2000) == Ok(2_000_000)
  {
  }

  lemma OptimalLiquidityExample()
    ensures OptimalLiquidity(100, 200, 90, 180, 1000, 2000) == Ok((100, 200))
  {
    FloorDivUnique(200000, 1000, 200);
  }

  lemma PriceImpactExample()
    ensures CalculatePriceImpact(100, 189, 10000, 20000) == Ok(550)
  {
    FloorDivUnique(20_000_000_000_000_000_000_000, 10000, 2_000_000_000_000_000_000);
    FloorDivUnique(189_000_000_000_000_000_000, 100, 1_890_000_000_000_000_000);
    FloorDivUnique(1_100_000_000_000_000_000_000, 2_000_000_000_000_000_000, 550);
  }

  lemma LiquidityMintedExample()
    ensures CalculateLiquidityMinted(1000, 100, 200, 1000, 2000) == Ok(100)
  {
    FloorDivUnique(100000, 1000, 100);
    FloorDivUnique(200000, 2000, 100);
  }

  lemma BurnAmountsExample()
    ensures CalculateBurnAmounts(100, 1000, 1000, 2000) == Ok((100, 200))
  {
    FloorDivUnique(100000, 1000, 100);
    FloorDivUnique(200000, 1000, 200);
  }

  lemma ConstantProductExamples()
    ensures IsConstantProductMaintained(1000, 2000, 1100, 1900)
    ensures !IsConstantProductMaintained(1000, 2000, 1100, 1800)
  {
  }
}

=== FILE: pair.dfy ===
/**
 * The pair contract: one pool of token0 and token1 with its reserves, the last
 * recorded product, the reentrancy flag, the pair's own holdings of the two
 * tokens and its LP ledger. `mint`, `swap` and `burn` map a state to a new
 * state or an error; on an error the host rolls storage back, so the error
 * carries no state.
 */
module Pair {
  import opened Results
  import opened Int128
  import opened Addresses
  import PairToken

  /** `MINIMUM_LIQUIDITY`, the LP units locked with the pair on the first mint. */
  const MINIMUM_LIQUIDITY: i128 := 1000

  datatype PairError =
    | Locked
    | AlreadyInitialized
    | Forbidden
    | InsufficientLiquidityMinted
    | InsufficientOutputAmount
    | InsufficientLiquidity
    | InvalidTo
    | InsufficientInputAmount
    | K
    | Overflow
    | CreatePairIdenticalTokens
    | PairTokenError
    | InvalidAmount
    | InsufficientLiquidityBurned
    /** The host aborted the call (a Rust panic, or a failing call into another contract). */
    | Trap

  /** The `Factory`, `Token0` and `Token1` entries, written together by `initialize`. */
  datatype PairConfig = PairConfig(factory: Address, token0: Address, token1: Address)

  /**
   * The pair's state. `reserve0`, `reserve1` and `kLast` read 0 and `unlocked`
   * reads true while never written; `held0` and `held1` are the balances of
   * token0 and token1 that the token contracts record for the pair.
   */
  datatype PairState = PairState(
    self: Address,
    config: Option<PairConfig>,
    reserve0: i128,
    reserve1: i128,
    kLast: i128,
    unlocked: bool,
    held0: i128,
    held1: i128,
    lp: PairToken.Ledger)

  /** A freshly deployed pair contract at `self`. */
  function NewPair(self: Address): (s: PairState)
    ensures s.self == self && s.config.None? && s.unlocked
    ensures s.reserve0 == 0 && s.reserve1 == 0 && s.kLast == 0
    ensures s.held0 == 0 && s.held1 == 0 && s.lp == PairToken.EmptyLedger
  {
    PairState(self, None, 0, 0, 0, true, 0, 0, PairToken.EmptyLedger)
  }

  /** The balances a successful call can leave the pair in never go negative. */
  predicate Valid(s: PairState) {
    s.held0 >= 0 && s.held1 >= 0 && s.reserve0 >= 0 && s.reserve1 >= 0
  }

  /** A ledger failure as the pair reports it: a panic stays a panic, an error becomes `PairTokenError`. */
  function FromToken(e: PairToken.TokenError): (r: PairError)
    ensures r == Trap <==> e == PairToken.Trap
    ensures r != Trap ==> r == PairTokenError
  {
    if e == PairToken.Trap then Trap else PairTokenError
  }

  // ---------------------------------------------------------------------------
  // Storage and the reentrancy guard

  /** `initialize`: refuses a second call; records the tokens and factory and unlocks. */
  function Initialize(s: PairState, token0: Address, token1: Address, factory: Address): (r: Result<PairState, PairError>)
    ensures r.Err? <==> s.config.Some?
    ensures r.Err? ==> r.error == AlreadyInitialized
    ensures r.Ok? ==> r.value.config == Some(PairConfig(factory, token0, token1)) && r.value.unlocked
    ensures r.Ok? ==> r.value.(config := s.config, unlocked := s.unlocked) == s
  {
    if s.config.Some? then Err(AlreadyInitialized)
    else Ok(s.(config := Some(PairConfig(factory, token0, token1)), unlocked := true))
  }

  /** `get_reserves`. */
  function GetReserves(s: PairState): (r: (i128, i128))
    ensures r.0 == s.reserve0 && r.1 == s.reserve1
  {
    (s.reserve0, s.reserve1)
  }

  /** `update`: the reserves become the given balances; nothing else changes. */
  function Update(s: PairState, balance0: i128, balance1: i128): (r: PairState)
    ensures GetReserves(r) == (balance0, balance1)
    ensures r.(reserve0 := s.reserve0, reserve1 := s.reserve1) == s
  {
    s.(reserve0 := balance0, reserve1 := balance1)
  }

  /** `check_locked`: fails with `Locked` exactly while a guarded call is running. */
  function CheckLocked(s: PairState): (r: Result<(), PairError>)
    ensures r.Err? <==> !s.unlocked
    ensures r.Err? ==> r.error == Locked
  {
    if !s.unlocked then Err(Locked) else Ok(())
  }

  /** `Guard::new`: clears the flag for the duration of the call. */
  function Acquire(s: PairState): (r: PairState)
    ensures !r.unlocked && r.(unlocked := s.unlocked) == s
  {
    s.(unlocked := false)
  }

  /** `Guard`'s `drop`: sets the flag again when the call returns. */
  function Release(s: PairState): (r: PairState)
    ensures r.unlocked && r.(unlocked := s.unlocked) == s
  {
    s.(unlocked := true)
  }

  /**
   * A token transfer from the pair, as the token contract performs it: a
   * negative amount or one above the pair's balance panics; paying the pair
   * itself leaves its balance as it was.
   */
  function PayOut(held: i128, amount: i128, toSelf: bool): (r: Result<i128, PairError>)
    ensures r.Err? <==> amount < 0 || amount > held
    ensures r.Err? ==> r.error == Trap
    ensures r.Ok? && toSelf ==> r.value == held
    ensures r.Ok? && !toSelf ==> r.value == held - amount
    ensures r.Ok? ==> 0 <= r.value <= held
  {
    if amount < 0 || amount > held then Err(Trap)
    else Ok(if toSelf then held else held - amount)
  }

  // ---------------------------------------------------------------------------
  // Protocol fee

  /**
   * The protocol fee in LP units for growth of the root product from
   * `rootKLast` to `rootK`, with every step saturating as the code has it.
   */
  function FeeLiquidity(rootK: i128, rootKLast: i128, totalSupply: i128): (r: i128)
    requires 0 <= rootKLast < rootK
    ensures totalSupply >= 0 ==> r >= 0
    ensures totalSupply <= 0 ==> r <= 0
    ensures InI128((rootK - rootKLast) * totalSupply) && InI128(5 * rootK + rootKLast) && totalSupply >= 0 ==>
      r * (5 * rootK + rootKLast) <= (rootK - rootKLast) * totalSupply < (r + 1) * (5 * rootK + rootKLast)
  {
    var numerator := SaturatingMul(SaturatingSub(rootK, rootKLast), totalSupply);
    var denominator := SaturatingAdd(SaturatingMul(rootK, 5), rootKLast);
    assert denominator > 0;
    FeeSign(SaturatingSub(rootK, rootKLast), totalSupply, numerator);
    FeeQuotientSign(numerator, denominator);
    assert InI128((rootK - rootKLast) * totalSupply) && totalSupply >= 0 ==> numerator >= 0 && numerator == (rootK - rootKLast) * totalSupply;
    assert InI128((rootK - rootKLast) * totalSupply) && InI128(5 * rootK + rootKLast) && totalSupply >= 0 ==>
      TruncDiv(numerator, denominator) * denominator <= numerator < (TruncDiv(numerator, denominator) + 1) * denominator by {
      if InI128((rootK - rootKLast) * totalSupply) && InI128(5 * rootK + rootKLast) && totalSupply >= 0 {
        FloorDiv(numerator, denominator);
      }
    }
    SaturatingDiv(numerator, denominator)
  }

  lemma FeeSign(diff: i128, totalSupply: i128, numerator: i128)
    requires diff > 0 && numerator == Clamp(diff * totalSupply)
    ensures totalSupply >= 0 ==> numerator >= 0
    ensures totalSupply <= 0 ==> numerator <= 0
  {
    if totalSupply >= 0 {
      MulLe(0, diff, totalSupply);
    } else {
      MulLe(totalSupply, 0, diff);
    }
  }

  lemma FeeQuotientSign(numerator: i128, denominator: i128)
    requires denominator > 0
    ensures numerator >= 0 ==> Clamp(TruncDiv(numerator, denominator)) >= 0
    ensures numerator <= 0 ==> Clamp(TruncDiv(numerator, denominator)) <= 0
  {
  }

  /**
   * The protocol fee `mint_fee` computes from the reserves, `kLast` and the LP
   * supply: 0 when `kLast` is 0 or the root product has not grown. The checked
   * product and both square roots panic rather than fail softly.
   */
  function ProtocolFee(kLast: i128, reserve0: i128, reserve1: i128, totalSupply: i128): (r: Result<i128, PairError>)
    ensures kLast == 0 ==> r == Ok(0)
    ensures kLast != 0 && (!InI128(reserve0 * reserve1) || reserve0 * reserve1 < 0 || kLast < 0) ==> r == Err(Trap)
    ensures r.Err? ==> r.error == Trap
    ensures r.Ok? && r.value != 0 ==>
      && kLast > 0 && InI128(reserve0 * reserve1) && reserve0 * reserve1 >= 0
      && Isqrt(reserve0 * reserve1) > Isqrt(kLast)
      && r.value == FeeLiquidity(Isqrt(reserve0 * reserve1), Isqrt(kLast), totalSupply)
    ensures r.Ok? && totalSupply >= 0 ==> r.value >= 0
    ensures kLast > 0 && InI128(reserve0 * reserve1) && reserve0 * reserve1 >= 0 ==>
      r == Ok(if Isqrt(reserve0 * reserve1) > Isqrt(kLast)
              then FeeLiquidity(Isqrt(reserve0 * reserve1), Isqrt(kLast), totalSupply)
              else 0)
  {
    if kLast == 0 then Ok(0)
    else
      var product :- CheckedMul(reserve0, reserve1).OrErr(Trap);
      var rootK :- Sqrt(product).OrErr(Trap);
      var rootKLast :- Sqrt(kLast).OrErr(Trap);
      assert rootK == Isqrt(product) by { IsqrtUnique(product, rootK); }
      assert rootKLast == Isqrt(kLast) by { IsqrtUnique(kLast, rootKLast); }
      if rootK <= rootKLast then Ok(0)
      else Ok(FeeLiquidity(rootK, rootKLast, totalSupply))
  }

  /**
   * `mint_fee`: mints the protocol fee, when it is not 0, to the factory's
   * `fee_to`, and always reports the fee as on. `feeTo` is the factory's answer
   * to `get_fee_to`, `None` when that call panics; an uninitialised pair has no
   * factory to ask.
   */
  function MintFee(s: PairState, reserve0: i128, reserve1: i128, feeTo: Option<Address>): (r: Result<(PairState, bool), PairError>)
    ensures s.config.None? || feeTo.None? ==> r == Err(Trap)
    ensures r.Ok? ==> r.value.1
    ensures r.Ok? ==> r.value.0 == s.(lp := r.value.0.lp)
    ensures s.kLast == 0 && s.config.Some? && feeTo.Some? ==> r == Ok((s, true))
    ensures r.Ok? && r.value.0.lp != s.lp ==>
      && feeTo.Some?
      && var fee := ProtocolFee(s.kLast, reserve0, reserve1, PairToken.TotalSupply(s.lp));
         fee.Ok? && fee.value != 0 && PairToken.MintToken(s.lp, feeTo.value, fee.value) == Ok(r.value.0.lp)
    ensures r.Err? && s.config.Some? && feeTo.Some? ==> r.error == Trap || r.error == PairTokenError
    ensures s.config.Some? && feeTo.Some? ==>
      var fee := ProtocolFee(s.kLast, reserve0, reserve1, PairToken.TotalSupply(s.lp));
      && (fee.Err? ==> r == Err(fee.error))
      && (fee == Ok(0) ==> r == Ok((s, true)))
      && (fee.Ok? && fee.value != 0 ==>
            var minted := PairToken.MintToken(s.lp, feeTo.value, fee.value);
            && (minted.Ok? ==> r == Ok((s.(lp := minted.value), true)))
            && (minted.Err? ==> r == Err(FromToken(minted.error))))
  {
    var _ :- s.config.OrErr(Trap);
    var recipient :- feeTo.OrErr(Trap);
    var fee :- ProtocolFee(s.kLast, reserve0, reserve1, PairToken.TotalSupply(s.lp));
    if fee == 0 then Ok((s, true))
    else
      var lp :- PairToken.MintToken(s.lp, recipient, fee).MapError(FromToken);
      Ok((s.(lp := lp), true))
  }

  // ---------------------------------------------------------------------------
  // Mint

  /** The LP amount a mint creates, before it is checked for being positive. */
  function MintedLiquidity(lp: PairToken.Ledger, self: Address, amount0: i128, amount1: i128, reserve0: i128, reserve1: i128): (r: Result<(i128, PairToken.Ledger), PairError>)
    requires amount0 > 0 && amount1 > 0
    ensures PairToken.TotalSupply(lp) == 0 && r.Ok? ==>
      && r.value.0 == Isqrt(amount0 * amount1) - MINIMUM_LIQUIDITY
      && PairToken.MintToken(lp, self, MINIMUM_LIQUIDITY) == Ok(r.value.1)
    ensures PairToken.TotalSupply(lp) == 0 && InI128(amount0 * amount1) ==> r.Ok? || r == Err(Trap)
    ensures PairToken.TotalSupply(lp) != 0 && r.Ok? ==>
      && r.value.1 == lp
      && InI128(amount0 * PairToken.TotalSupply(lp)) && InI128(amount1 * PairToken.TotalSupply(lp))
      && reserve0 != 0 && reserve1 != 0
      && var share0 := TruncDiv(amount0 * PairToken.TotalSupply(lp), reserve0);
         var share1 := TruncDiv(amount1 * PairToken.TotalSupply(lp), reserve1);
         r.value.0 == (if share0 < share1 then share0 else share1)
    ensures r.Err? ==> r.error == Trap
  {
    var totalSupply := PairToken.TotalSupply(lp);
    if totalSupply == 0 then
      var product :- CheckedMul(amount0, amount1).OrErr(Trap);
      var root :- Sqrt(product).OrErr(Trap);
      var lp1 :- PairToken.MintToken(lp, self, MINIMUM_LIQUIDITY).MapError(FromToken);
      Ok((root - MINIMUM_LIQUIDITY, lp1))
    else
      var scaled0 :- CheckedMul(amount0, totalSupply).OrErr(Trap);
      var share0 :- CheckedDiv(scaled0, reserve0).OrErr(Trap);
      var scaled1 :- CheckedMul(amount1, totalSupply).OrErr(Trap);
      var share1 :- CheckedDiv(scaled1, reserve1).OrErr(Trap);
      Ok((if share0 < share1 then share0 else share1, lp))
  }

  /** `mint` after the guard is taken: the body of the call. */
  function MintLocked(s: PairState, to: Address, feeTo: Option<Address>): (r: Result<(PairState, i128), PairError>)
    ensures s.config.None? ==> r == Err(Trap)
    ensures (s.config.Some? &&
             (!InI128(s.held0 - s.reserve0) || !InI128(s.held1 - s.reserve1)
              || s.held0 - s.reserve0 <= 0 || s.held1 - s.reserve1 <= 0)) ==> r == Err(InvalidAmount)
    ensures r.Ok? ==> r.value.1 > 0
    ensures r.Ok? ==>
      && r.value.0.reserve0 == s.held0 && r.value.0.reserve1 == s.held1
      && r.value.0.kLast == s.reserve0 * s.reserve1
      && r.value.0 == s.(reserve0 := s.held0, reserve1 := s.held1, kLast := s.reserve0 * s.reserve1, lp := r.value.0.lp)
    ensures (s.config.Some? && InI128(s.held0 - s.reserve0) && InI128(s.held1 - s.reserve1)
             && s.held0 - s.reserve0 > 0 && s.held1 - s.reserve1 > 0) ==>
      var fee := MintFee(s, s.reserve0, s.reserve1, feeTo);
      && (fee.Err? ==> r == Err(fee.error))
      && (fee.Ok? ==>
            var minted := MintedLiquidity(fee.value.0.lp, s.self, s.held0 - s.reserve0, s.held1 - s.reserve1, s.reserve0, s.reserve1);
            && (minted.Err? ==> r == Err(minted.error))
            && (minted.Ok? && minted.value.0 <= 0 ==> r == Err(InsufficientLiquidityMinted))
            && (minted.Ok? && minted.value.0 > 0 ==>
                  var credited := PairToken.MintToken(minted.value.1, to, minted.value.0);
                  && (r.Ok? <==> credited.Ok? && InI128(s.reserve0 * s.reserve1))
                  && (r.Ok? ==> r.value.1 == minted.value.0 && r.value.0.lp == credited.value)))
  {
    var config :- s.config.OrErr(Trap);
    var balance0, balance1 := s.held0, s.held1;
    var amount0 :- CheckedSub(balance0, s.reserve0).OrErr(InvalidAmount);
    var amount1 :- CheckedSub(balance1, s.reserve1).OrErr(InvalidAmount);
    if amount0 <= 0 || amount1 <= 0 then Err(InvalidAmount)
    else
      var (s1, feeOn) :- MintFee(s, s.reserve0, s.reserve1, feeTo);
      var (liquidity, lp2) :- MintedLiquidity(s1.lp, s.self, amount0, amount1, s.reserve0, s.reserve1);
      if liquidity <= 0 then Err(InsufficientLiquidityMinted)
      else
        var lp3 :- PairToken.MintToken(lp2, to, liquidity).MapError(FromToken);
        var s2 := Update(s1.(lp := lp3), balance0, balance1);
        var kLast :- CheckedMul(s.reserve0, s.reserve1).OrErr(Trap);
        Ok((s2.(kLast := kLast), liquidity))
  }

  /**
   * `mint`: LP tokens for the deposits `held - reserve` the caller has already
   * sent to the pair. The first mint also locks `MINIMUM_LIQUIDITY` with the
   * pair; `kLast` becomes the product of the reserves from before the call.
   */
  function Mint(s: PairState, to: Address, feeTo: Option<Address>): (r: Result<(PairState, i128), PairError>)
    ensures !s.unlocked ==> r == Err(Locked)
    ensures s.unlocked ==> r == (match MintLocked(Acquire(s), to, feeTo)
                                 case Ok((s1, liquidity)) => Ok((Release(s1), liquidity))
                                 case Err(e) => Err(e))
    ensures r.Ok? ==> r.value.0.unlocked && r.value.1 > 0
    ensures r.Ok? ==>
      r.value.0 == s.(reserve0 := s.held0, reserve1 := s.held1, kLast := s.reserve0 * s.reserve1, lp := r.value.0.lp)
  {
    var _ :- CheckLocked(s);
    var (s1, liquidity) :- MintLocked(Acquire(s), to, feeTo);
    Ok((Release(s1), liquidity))
  }

  // ---------------------------------------------------------------------------
  // Swap

  /** The input measured on one side: what the pair holds above `reserve - amountOut`. */
  function MeasuredInput(balance: i128, reserve: i128, amountOut: i128): (r: Result<i128, PairError>)
    ensures r.Ok? <==> InI128(reserve - amountOut) && (balance > reserve - amountOut ==> InI128(balance - (reserve - amountOut)))
    ensures r.Err? ==> r.error == Trap
    ensures r.Ok? ==> r.value >= 0
    ensures r.Ok? ==> r.value == (if balance > reserve - amountOut then balance - (reserve - amountOut) else 0)
  {
    var base :- CheckedSub(reserve, amountOut).OrErr(Trap);
    if balance > base then CheckedSub(balance, base).OrErr(Trap) else Ok(0)
  }

  /** A balance scaled by 1000 less three times the input on that side: the fee-adjusted balance. */
  function Adjusted(balance: i128, amountIn: i128): (r: Result<i128, PairError>)
    ensures r.Ok? <==> InI128(balance * 1000) && InI128(amountIn * 3) && InI128(balance * 1000 - amountIn * 3)
    ensures r.Err? ==> r.error == Trap
    ensures r.Ok? ==> r.value == balance * 1000 - amountIn * 3
  {
    var scaled :- CheckedMul(balance, 1000).OrErr(Trap);
    var fee :- CheckedMul(amountIn, 3).OrErr(Trap);
    CheckedSub(scaled, fee).OrErr(Trap)
  }

  /** Every intermediate value of the constant-product check fits in `i128`. */
  predicate KInRange(balance0: int, balance1: int, amount0In: int, amount1In: int, reserve0: int, reserve1: int) {
    && InI128(balance0 * 1000) && InI128(amount0In * 3) && InI128(balance0 * 1000 - amount0In * 3)
    && InI128(balance1 * 1000) && InI128(amount1In * 3) && InI128(balance1 * 1000 - amount1In * 3)
    && InI128((balance0 * 1000 - amount0In * 3) * (balance1 * 1000 - amount1In * 3))
    && InI128(reserve0 * reserve1) && InI128(reserve0 * reserve1 * 1000000)
  }

  /**
   * The constant-product check of `swap`: the product of the fee-adjusted
   * balances must reach the product of the old reserves, both scaled by 1000
   * per factor. Every product is computed with overflow checks.
   */
  function CheckK(balance0: i128, balance1: i128, amount0In: i128, amount1In: i128, reserve0: i128, reserve1: i128): (r: Result<(), PairError>)
    ensures r.Err? ==> r.error == Trap || r.error == K
    ensures r.Ok? <==>
      && KInRange(balance0, balance1, amount0In, amount1In, reserve0, reserve1)
      && (balance0 * 1000 - amount0In * 3) * (balance1 * 1000 - amount1In * 3) >= reserve0 * reserve1 * 1000000
    ensures r == Err(K) <==>
      && KInRange(balance0, balance1, amount0In, amount1In, reserve0, reserve1)
      && (balance0 * 1000 - amount0In * 3) * (balance1 * 1000 - amount1In * 3) < reserve0 * reserve1 * 1000000
  {
    var adjusted0 :- Adjusted(balance0, amount0In);
    var adjusted1 :- Adjusted(balance1, amount1In);
    var after :- CheckedMul(adjusted0, adjusted1).OrErr(Trap);
    var k :- CheckedMul(reserve0, reserve1).OrErr(Trap);
    var before :- CheckedMul(k, 1000000).OrErr(Trap);
    if after < before then Err(K) else Ok(())
  }

  /** `swap` after the guard is taken: the body of the call. */
  function SwapLocked(s: PairState, amount0Out: i128, amount1Out: i128, to: Address): (r: Result<PairState, PairError>)
    ensures amount0Out == 0 && amount1Out == 0 ==> r == Err(InsufficientOutputAmount)
    ensures !(amount0Out == 0 && amount1Out == 0) && (amount0Out > s.reserve0 || amount1Out > s.reserve1) ==>
      r == Err(InsufficientLiquidity)
    ensures !(amount0Out == 0 && amount1Out == 0) && amount0Out <= s.reserve0 && amount1Out <= s.reserve1 ==>
      && (s.config.None? ==> r == Err(Trap))
      && (s.config.Some? && (to == s.config.value.token0 || to == s.config.value.token1) ==> r == Err(InvalidTo))
    ensures r.Ok? ==> s.config.Some? && to != s.config.value.token0 && to != s.config.value.token1
    ensures r.Ok? ==>
      && r.value.held0 == (if amount0Out > 0 && to != s.self then s.held0 - amount0Out else s.held0)
      && r.value.held1 == (if amount1Out > 0 && to != s.self then s.held1 - amount1Out else s.held1)
    ensures r.Ok? ==>
      && var in0 := MeasuredInput(r.value.held0, s.reserve0, amount0Out);
      && var in1 := MeasuredInput(r.value.held1, s.reserve1, amount1Out);
      && in0.Ok? && in1.Ok? && (in0.value != 0 || in1.value != 0)
      && CheckK(r.value.held0, r.value.held1, in0.value, in1.value, s.reserve0, s.reserve1).Ok?
    ensures r.Ok? ==> r.value == s.(reserve0 := r.value.held0, reserve1 := r.value.held1, held0 := r.value.held0, held1 := r.value.held1)
    ensures (!(amount0Out == 0 && amount1Out == 0) && amount0Out <= s.reserve0 && amount1Out <= s.reserve1
             && s.config.Some? && to != s.config.value.token0 && to != s.config.value.token1) ==>
      var paid0 := if amount0Out > 0 then PayOut(s.held0, amount0Out, to == s.self) else Ok(s.held0);
      var paid1 := if amount1Out > 0 then PayOut(s.held1, amount1Out, to == s.self) else Ok(s.held1);
      && (paid0.Err? || paid1.Err? ==> r == Err(Trap))
      && (paid0.Ok? && paid1.Ok? ==>
            var in0 := MeasuredInput(paid0.value, s.reserve0, amount0Out);
            var in1 := MeasuredInput(paid1.value, s.reserve1, amount1Out);
            && (in0.Err? || in1.Err? ==> r == Err(Trap))
            && (in0.Ok? && in1.Ok? && in0.value == 0 && in1.value == 0 ==> r == Err(InsufficientInputAmount))
            && (in0.Ok? && in1.Ok? && !(in0.value == 0 && in1.value == 0) ==>
                  var k := CheckK(paid0.value, paid1.value, in0.value, in1.value, s.reserve0, s.reserve1);
                  && (k.Err? ==> r == Err(k.error))
                  && (k.Ok? ==> r.Ok?)))
  {
    if amount0Out == 0 && amount1Out == 0 then Err(InsufficientOutputAmount)
    else if amount0Out > s.reserve0 || amount1Out > s.reserve1 then Err(InsufficientLiquidity)
    else
      var config :- s.config.OrErr(Trap);
      if to == config.token0 || to == config.token1 then Err(InvalidTo)
      else
        var balance0 :- if amount0Out > 0 then PayOut(s.held0, amount0Out, to == s.self) else Ok(s.held0);
        var balance1 :- if amount1Out > 0 then PayOut(s.held1, amount1Out, to == s.self) else Ok(s.held1);
        var amount0In :- MeasuredInput(balance0, s.reserve0, amount0Out);
        var amount1In :- MeasuredInput(balance1, s.reserve1, amount1Out);
        if amount0In == 0 && amount1In == 0 then Err(InsufficientInputAmount)
        else
          var _ :- CheckK(balance0, balance1, amount0In, amount1In, s.reserve0, s.reserve1);
          Ok(Update(s.(held0 := balance0, held1 := balance1), balance0, balance1))
  }

  /**
   * `swap`: pays `amount0Out` and `amount1Out` to `to`, then requires the
   * fee-adjusted product of the new balances to cover the old reserves'
   * product; the reserves become the new balances.
   */
  function Swap(s: PairState, amount0Out: i128, amount1Out: i128, to: Address): (r: Result<PairState, PairError>)
    ensures !s.unlocked ==> r == Err(Locked)
    ensures s.unlocked ==> r == (match SwapLocked(Acquire(s), amount0Out, amount1Out, to)
                                 case Ok(s1) => Ok(Release(s1))
                                 case Err(e) => Err(e))
    ensures r.Ok? ==> r.value.unlocked
    ensures r.Ok? ==> r.value == s.(reserve0 := r.value.held0, reserve1 := r.value.held1, held0 := r.value.held0, held1 := r.value.held1)
    ensures r.Ok? ==> s.config.Some? && to != s.config.value.token0 && to != s.config.value.token1
    ensures r.Ok? ==>
      && r.value.held0 == (if amount0Out > 0 && to != s.self then s.held0 - amount0Out else s.held0)
      && r.value.held1 == (if amount1Out > 0 && to != s.self then s.held1 - amount1Out else s.held1)
  {
    var _ :- CheckLocked(s);
    var s1 :- SwapLocked(Acquire(s), amount0Out, amount1Out, to);
    Ok(Release(s1))
  }

  // ---------------------------------------------------------------------------
  // Burn

  /**
   * Every checked step `burn` takes before comparing the shares with 0 succeeds:
   * the user's LP units, both products and both divisions stay in range.
   */
  predicate BurnSharesDefined(s: PairState) {
    var liquidity := PairToken.Balance(s.lp, s.self);
    var totalSupply := PairToken.TotalSupply(s.lp);
    var user := liquidity - MINIMUM_LIQUIDITY;
    && InI128(user)
    && InI128(s.held0 * user) && DivisionDefined(s.held0 * user, totalSupply)
    && InI128(s.held1 * user) && DivisionDefined(s.held1 * user, totalSupply)
  }

  /** `burn` after the guard is taken: the body of the call. */
  function BurnLocked(s: PairState, to: Address): (r: Result<(PairState, (i128, i128)), PairError>)
    ensures s.config.None? ==> r == Err(Trap)
    ensures r.Ok? ==>
      var liquidity := PairToken.Balance(s.lp, s.self);
      var totalSupply := PairToken.TotalSupply(s.lp);
      var (amount0, amount1) := r.value.1;
      && totalSupply != 0
      && amount0 == TruncDiv(s.held0 * (liquidity - MINIMUM_LIQUIDITY), totalSupply)
      && amount1 == TruncDiv(s.held1 * (liquidity - MINIMUM_LIQUIDITY), totalSupply)
      && amount0 > 0 && amount1 > 0
      && PairToken.BurnToken(s.lp, s.self, liquidity) == Ok(r.value.0.lp)
      && r.value.0.held0 == (if to == s.self then s.held0 else s.held0 - amount0)
      && r.value.0.held1 == (if to == s.self then s.held1 else s.held1 - amount1)
      && r.value.0 == s.(reserve0 := r.value.0.held0, reserve1 := r.value.0.held1,
                          held0 := r.value.0.held0, held1 := r.value.0.held1, lp := r.value.0.lp)
    ensures s.config.Some? && PairToken.Balance(s.lp, s.self) == MINIMUM_LIQUIDITY && PairToken.TotalSupply(s.lp) != 0 ==>
      r == Err(InsufficientLiquidityBurned)
    ensures s.config.Some? && !BurnSharesDefined(s) ==> r == Err(Trap)
    ensures s.config.Some? && BurnSharesDefined(s) ==>
      var liquidity := PairToken.Balance(s.lp, s.self);
      var totalSupply := PairToken.TotalSupply(s.lp);
      var amount0 := TruncDiv(s.held0 * (liquidity - MINIMUM_LIQUIDITY), totalSupply);
      var amount1 := TruncDiv(s.held1 * (liquidity - MINIMUM_LIQUIDITY), totalSupply);
      && (amount0 == 0 || amount1 == 0 ==> r == Err(InsufficientLiquidityBurned))
      && (amount0 != 0 && amount1 != 0 ==>
            (r.Ok? <==> PairToken.BurnToken(s.lp, s.self, liquidity).Ok? && 0 <= amount0 <= s.held0 && 0 <= amount1 <= s.held1))
      && (amount0 != 0 && amount1 != 0 && r.Err? ==> r.error == Trap)
  {
    var config :- s.config.OrErr(Trap);
    var balance0, balance1 := s.held0, s.held1;
    var liquidity := PairToken.Balance(s.lp, s.self);
    var userBalance :- CheckedSub(liquidity, MINIMUM_LIQUIDITY).OrErr(Trap);
    var totalSupply := PairToken.TotalSupply(s.lp);
    var scaled0 :- CheckedMul(balance0, userBalance).OrErr(Trap);
    var amount0 :- CheckedDiv(scaled0, totalSupply).OrErr(Trap);
    var scaled1 :- CheckedMul(balance1, userBalance).OrErr(Trap);
    var amount1 :- CheckedDiv(scaled1, totalSupply).OrErr(Trap);
    if amount0 == 0 || amount1 == 0 then Err(InsufficientLiquidityBurned)
    else
      var lp :- PairToken.BurnToken(s.lp, s.self, liquidity).MapError(FromToken);
      var paid0 :- PayOut(balance0, amount0, to == s.self);
      var paid1 :- PayOut(balance1, amount1, to == s.self);
      Ok((Update(s.(lp := lp, held0 := paid0, held1 := paid1), paid0, paid1), (amount0, amount1)))
  }

  /**
   * `burn`: pays out the pro-rata share of the LP units the pair holds beyond
   * `MINIMUM_LIQUIDITY`, burns all the LP units the pair holds, and sets the
   * reserves to the balances left.
   */
  function Burn(s: PairState, to: Address): (r: Result<(PairState, (i128, i128)), PairError>)
    ensures !s.unlocked ==> r == Err(Locked)
    ensures s.unlocked ==> r == (match BurnLocked(Acquire(s), to)
                                 case Ok((s1, amounts)) => Ok((Release(s1), amounts))
                                 case Err(e) => Err(e))
    ensures r.Ok? ==> r.value.0.unlocked
    ensures r.Ok? ==> r.value.0.reserve0 == r.value.0.held0 && r.value.0.reserve1 == r.value.0.held1
    ensures r.Ok? ==> PairToken.Balance(r.value.0.lp, s.self) == 0
  {
    var _ :- CheckLocked(s);
    var (s1, amounts) :- BurnLocked(Acquire(s), to);
    Ok((Release(s1), amounts))
  }
}

=== FILE: pair_proofs.dfy ===
/**
 * What the pair's entry points keep and where they lead. Three facts fit
 * together. Every call keeps the LP ledger's "supply plus holdings" sum. The
 * first mint leaves the supply negative. While it is negative no later mint
 * and no burn can succeed. The concrete lemmas replay the pair's own test
 * scenarios.
 */
module PairProofs {
  import opened Results
  import opened Int128
  import opened Addresses
  import PairToken
  import opened PairTokenProofs
  import opened Pair

  // ---------------------------------------------------------------------------
  // The ledger sum

  /** A successful `mint` keeps supply plus holdings, and the holdings grow by at least the minted amount. */
  lemma MintKeepsSupplyPlusHoldings(s: PairState, to: Address, feeTo: Option<Address>, s2: PairState, liquidity: i128)
    requires Mint(s, to, feeTo) == Ok((s2, liquidity))
    ensures PairToken.TotalSupply(s2.lp) + Holdings(s2.lp) == PairToken.TotalSupply(s.lp) + Holdings(s.lp)
    ensures Holdings(s2.lp) >= Holdings(s.lp) + liquidity
  {
    MintLockedKeepsSupplyPlusHoldings(Acquire(s), to, feeTo);
  }

  lemma MintLockedKeepsSupplyPlusHoldings(a: PairState, to: Address, feeTo: Option<Address>)
    requires MintLocked(a, to, feeTo).Ok?
    ensures var (s2, liquidity) := MintLocked(a, to, feeTo).value;
      && PairToken.TotalSupply(s2.lp) + Holdings(s2.lp) == PairToken.TotalSupply(a.lp) + Holdings(a.lp)
      && Holdings(s2.lp) >= Holdings(a.lp) + liquidity
  {
    var r := MintLocked(a, to, feeTo);
    var fee := MintFee(a, a.reserve0, a.reserve1, feeTo);
    var amount0, amount1 := a.held0 - a.reserve0, a.held1 - a.reserve1;
    assert a.config.Some? && InI128(amount0) && InI128(amount1) && amount0 > 0 && amount1 > 0;
    assert fee.Ok?;
    var l1 := fee.value.0.lp;
    var minted := MintedLiquidity(l1, a.self, amount0, amount1, a.reserve0, a.reserve1);
    assert minted.Ok? && minted.value.0 > 0;
    var l2 := minted.value.1;
    assert r.value.1 == minted.value.0 && PairToken.MintToken(l2, to, minted.value.0) == Ok(r.value.0.lp);
    var feeAmount := MintFeeLedger(a, feeTo);
    MintedLiquidityLedger(l1, a.self, amount0, amount1, a.reserve0, a.reserve1);
    MintChainKeepsSupplyPlusHoldings(a.lp, l1, l2, r.value.0.lp, feeTo.GetOr(0), feeAmount, a.self, to, r.value.1);
  }

  /** The LP ledger after `mint_fee` is the one before, or it with one mint to `fee_to`. */
  lemma MintFeeLedger(a: PairState, feeTo: Option<Address>) returns (fee: i128)
    requires MintFee(a, a.reserve0, a.reserve1, feeTo).Ok?
    ensures var l1 := MintFee(a, a.reserve0, a.reserve1, feeTo).value.0.lp;
      l1 == a.lp || PairToken.MintToken(a.lp, feeTo.GetOr(0), fee) == Ok(l1)
  {
    var l1 := MintFee(a, a.reserve0, a.reserve1, feeTo).value.0.lp;
    fee := if l1 != a.lp then ProtocolFee(a.kLast, a.reserve0, a.reserve1, PairToken.TotalSupply(a.lp)).value else 0;
  }

  /** The LP ledger after the share computation is the one before, or it with `MINIMUM_LIQUIDITY` locked. */
  lemma MintedLiquidityLedger(lp: PairToken.Ledger, self: Address, amount0: i128, amount1: i128, reserve0: i128, reserve1: i128)
    requires amount0 > 0 && amount1 > 0
    requires MintedLiquidity(lp, self, amount0, amount1, reserve0, reserve1).Ok?
    ensures var l2 := MintedLiquidity(lp, self, amount0, amount1, reserve0, reserve1).value.1;
      l2 == lp || PairToken.MintToken(lp, self, MINIMUM_LIQUIDITY) == Ok(l2)
  {
  }

  /** The three LP mints of a `mint`, each optional but the last: the fee, the locked minimum, the caller's share. */
  lemma MintChainKeepsSupplyPlusHoldings(
    l0: PairToken.Ledger, l1: PairToken.Ledger, l2: PairToken.Ledger, l3: PairToken.Ledger,
    feeTo: Address, fee: i128, self: Address, to: Address, liquidity: i128)
    requires l1 == l0 || PairToken.MintToken(l0, feeTo, fee) == Ok(l1)
    requires l2 == l1 || PairToken.MintToken(l1, self, MINIMUM_LIQUIDITY) == Ok(l2)
    requires PairToken.MintToken(l2, to, liquidity) == Ok(l3)
    ensures PairToken.TotalSupply(l3) + Holdings(l3) == PairToken.TotalSupply(l0) + Holdings(l0)
    ensures Holdings(l3) >= Holdings(l0) + liquidity
  {
    if l1 != l0 {
      MintTokenKeepsSupplyPlusHoldings(l0, feeTo, fee, l1);
    }
    if l2 != l1 {
      MintTokenKeepsSupplyPlusHoldings(l1, self, MINIMUM_LIQUIDITY, l2);
    }
    MintTokenKeepsSupplyPlusHoldings(l2, to, liquidity, l3);
  }

  /** A successful `burn` keeps supply plus holdings. */
  lemma BurnKeepsSupplyPlusHoldings(s: PairState, to: Address, s2: PairState, amounts: (i128, i128))
    requires Burn(s, to) == Ok((s2, amounts))
    ensures PairToken.TotalSupply(s2.lp) + Holdings(s2.lp) == PairToken.TotalSupply(s.lp) + Holdings(s.lp)
  {
    var a := Acquire(s);
    assert BurnLocked(a, to).Ok?;
    BurnTokenKeepsSupplyPlusHoldings(a.lp, a.self, PairToken.Balance(a.lp, a.self), s2.lp);
  }

  /** "Supply plus holdings is 0": true of a new pair, and kept by every successful call. */
  ghost predicate Balanced(s: PairState) {
    PairToken.TotalSupply(s.lp) + Holdings(s.lp) == 0
  }

  lemma NewPairBalanced(self: Address)
    ensures Balanced(NewPair(self))
  {
    EmptyLedgerBalanced();
  }

  lemma EntryPointsKeepBalanced(s: PairState, to: Address, feeTo: Option<Address>, amount0Out: i128, amount1Out: i128)
    requires Balanced(s)
    ensures Mint(s, to, feeTo).Ok? ==> Balanced(Mint(s, to, feeTo).value.0)
    ensures Burn(s, to).Ok? ==> Balanced(Burn(s, to).value.0)
    ensures Swap(s, amount0Out, amount1Out, to).Ok? ==> Balanced(Swap(s, amount0Out, amount1Out, to).value)
  {
    if Mint(s, to, feeTo).Ok? {
      var (s2, liquidity) := Mint(s, to, feeTo).value;
      MintKeepsSupplyPlusHoldings(s, to, feeTo, s2, liquidity);
    }
    if Burn(s, to).Ok? {
      var (s2, amounts) := Burn(s, to).value;
      BurnKeepsSupplyPlusHoldings(s, to, s2, amounts);
    }
  }

  // ---------------------------------------------------------------------------
  // The protocol fee

  /**
   * With a recorded `kLast`, `mint_fee` leaves the pair as it was unless the
   * root product grew; when it grew, `fee_to` is credited with exactly the
   * `FeeLiquidity` units (taken off the supply, as `mint_logic` is written),
   * every other holder is untouched, and a positive fee fails only when that
   * credit or that supply leaves i128. A negative supply makes the fee negative,
   * and `mint_token` refuses it.
   */
  lemma MintFeeCreditsFeeTo(s: PairState, reserve0: i128, reserve1: i128, feeTo: Address)
    requires s.config.Some? && s.kLast > 0 && InI128(reserve0 * reserve1) && reserve0 * reserve1 >= 0
    ensures var r := MintFee(s, reserve0, reserve1, Some(feeTo));
      var rootK := Isqrt(reserve0 * reserve1);
      var rootKLast := Isqrt(s.kLast);
      && (rootK <= rootKLast ==> r == Ok((s, true)))
      && (rootK > rootKLast ==>
            var fee := FeeLiquidity(rootK, rootKLast, PairToken.TotalSupply(s.lp));
            && (fee > 0 ==>
                  (r.Ok? <==> InI128(PairToken.Balance(s.lp, feeTo) + fee) && InI128(PairToken.TotalSupply(s.lp) - fee)))
            && (fee < 0 ==> r == Err(PairTokenError))
            && (r.Ok? ==>
                  && PairToken.Balance(r.value.0.lp, feeTo) == PairToken.Balance(s.lp, feeTo) + fee
                  && PairToken.TotalSupply(r.value.0.lp) == PairToken.TotalSupply(s.lp) - fee
                  && forall other :: other != feeTo ==> PairToken.Balance(r.value.0.lp, other) == PairToken.Balance(s.lp, other)))
  {
    var rootK := Isqrt(reserve0 * reserve1);
    var rootKLast := Isqrt(s.kLast);
    var fee := if rootK > rootKLast then FeeLiquidity(rootK, rootKLast, PairToken.TotalSupply(s.lp)) else 0;
    assert ProtocolFee(s.kLast, reserve0, reserve1, PairToken.TotalSupply(s.lp)) == Ok(fee);
    MintFeeMintsFee(s, reserve0, reserve1, feeTo, fee);
  }

  /** `mint_fee` with a known fee: nothing for 0, a refusal below 0, otherwise exactly that many LP units to `fee_to`. */
  lemma MintFeeMintsFee(s: PairState, reserve0: i128, reserve1: i128, feeTo: Address, fee: i128)
    requires s.config.Some? && ProtocolFee(s.kLast, reserve0, reserve1, PairToken.TotalSupply(s.lp)) == Ok(fee)
    ensures var r := MintFee(s, reserve0, reserve1, Some(feeTo));
      && (fee == 0 ==> r == Ok((s, true)))
      && (fee > 0 ==>
            (r.Ok? <==> InI128(PairToken.Balance(s.lp, feeTo) + fee) && InI128(PairToken.TotalSupply(s.lp) - fee)))
      && (fee < 0 ==> r == Err(PairTokenError))
      && (r.Ok? ==>
            && PairToken.Balance(r.value.0.lp, feeTo) == PairToken.Balance(s.lp, feeTo) + fee
            && PairToken.TotalSupply(r.value.0.lp) == PairToken.TotalSupply(s.lp) - fee
            && forall other :: other != feeTo ==> PairToken.Balance(r.value.0.lp, other) == PairToken.Balance(s.lp, other))
  {
    var r := MintFee(s, reserve0, reserve1, Some(feeTo));
    if fee != 0 {
      var minted := PairToken.MintToken(s.lp, feeTo, fee);
      if minted.Ok? {
        assert r == Ok((s.(lp := minted.value), true));
      } else {
        assert r.Err?;
      }
    }
  }

  // ---------------------------------------------------------------------------
  // After the first mint

  /** The first mint leaves the recorded supply at minus everything it minted. */
  lemma FirstMintMakesSupplyNegative(s: PairState, to: Address, feeTo: Option<Address>, s2: PairState, liquidity: i128)
    requires PairToken.TotalSupply(s.lp) == 0
    requires Mint(s, to, feeTo) == Ok((s2, liquidity))
    ensures PairToken.TotalSupply(s2.lp) == -(liquidity + MINIMUM_LIQUIDITY)
    ensures PairToken.TotalSupply(s2.lp) < 0
    ensures PairToken.Balance(s2.lp, s.self) >= PairToken.Balance(s.lp, s.self) + MINIMUM_LIQUIDITY
  {
    var a := Acquire(s);
    assert MintLocked(a, to, feeTo).Ok?;
    var amount0, amount1 := a.held0 - a.reserve0, a.held1 - a.reserve1;
    var fee := MintFee(a, a.reserve0, a.reserve1, feeTo);
    assert fee.Ok?;
    var s1 := fee.value.0;
    assert s1.lp == a.lp;
    var minted := MintedLiquidity(s1.lp, a.self, amount0, amount1, a.reserve0, a.reserve1);
    assert minted.Ok?;
  }

  /** With a negative supply and non-negative reserves, `mint` never succeeds. */
  lemma MintFailsWhileSupplyNegative(s: PairState, to: Address, feeTo: Option<Address>)
    requires PairToken.TotalSupply(s.lp) < 0
    requires s.reserve0 >= 0 && s.reserve1 >= 0
    ensures Mint(s, to, feeTo).Err?
  {
    if s.unlocked {
      MintLockedFailsWhileSupplyNegative(Acquire(s), to, feeTo);
    }
  }

  lemma MintLockedFailsWhileSupplyNegative(a: PairState, to: Address, feeTo: Option<Address>)
    requires PairToken.TotalSupply(a.lp) < 0
    requires a.reserve0 >= 0 && a.reserve1 >= 0
    ensures MintLocked(a, to, feeTo).Err?
  {
    var amount0, amount1 := a.held0 - a.reserve0, a.held1 - a.reserve1;
    if a.config.Some? && InI128(amount0) && InI128(amount1) && amount0 > 0 && amount1 > 0 {
      var fee := MintFee(a, a.reserve0, a.reserve1, feeTo);
      if fee.Ok? {
        assert fee.value.0.lp == a.lp;
        MintedLiquidityNotPositive(a.lp, a.self, amount0, amount1, a.reserve0, a.reserve1);
      }
    }
  }

  /** With a negative supply, the share a mint computes is never positive. */
  lemma MintedLiquidityNotPositive(lp: PairToken.Ledger, self: Address, amount0: i128, amount1: i128, reserve0: i128, reserve1: i128)
    requires PairToken.TotalSupply(lp) < 0
    requires amount0 > 0 && amount1 > 0 && reserve0 >= 0 && reserve1 >= 0
    ensures MintedLiquidity(lp, self, amount0, amount1, reserve0, reserve1).Ok? ==>
      MintedLiquidity(lp, self, amount0, amount1, reserve0, reserve1).value.0 <= 0
  {
    if MintedLiquidity(lp, self, amount0, amount1, reserve0, reserve1).Ok? {
      NegativeShare(amount0, PairToken.TotalSupply(lp), reserve0);
    }
  }

  /** A positive amount times a negative supply, over a positive reserve, is never a positive share. */
  lemma NegativeShare(amount: int, totalSupply: int, reserve: int)
    requires amount > 0 && totalSupply < 0 && reserve > 0
    ensures TruncDiv(amount * totalSupply, reserve) <= 0
  {
    MulLt(totalSupply, 0, amount);
  }

  /**
   * With a negative supply, the pair holding at least `MINIMUM_LIQUIDITY` of
   * its own LP token and non-negative balances, `burn` never succeeds: each
   * pay-out is 0, which `burn` rejects, or negative, which the token refuses.
   */
  lemma BurnFailsWhileSupplyNegative(s: PairState, to: Address)
    requires PairToken.TotalSupply(s.lp) < 0
    requires PairToken.Balance(s.lp, s.self) >= MINIMUM_LIQUIDITY
    requires s.held0 >= 0 && s.held1 >= 0
    ensures Burn(s, to).Err?
  {
    if s.unlocked {
      var a := Acquire(s);
      var user := PairToken.Balance(a.lp, a.self) - MINIMUM_LIQUIDITY;
      if BurnSharesDefined(a) {
        NonPositivePayout(a.held0, user, PairToken.TotalSupply(a.lp));
      }
    }
  }

  lemma NonPositivePayout(held: int, user: int, totalSupply: int)
    requires held >= 0 && user >= 0 && totalSupply < 0
    ensures TruncDiv(held * user, totalSupply) <= 0
  {
    MulLe(0, held, user);
  }

  // ---------------------------------------------------------------------------
  // Swap

  /**
   * For a pair whose balances and reserves are non-negative, a successful
   * `swap` keeps them non-negative and never lowers the product of the
   * reserves: the fee-adjusted balances are at most 1000 times the balances.
   */
  lemma SwapKeepsReserveProduct(s: PairState, amount0Out: i128, amount1Out: i128, to: Address)
    requires Valid(s)
    requires Swap(s, amount0Out, amount1Out, to).Ok?
    ensures Valid(Swap(s, amount0Out, amount1Out, to).value)
    ensures var s2 := Swap(s, amount0Out, amount1Out, to).value;
      s2.reserve0 * s2.reserve1 >= s.reserve0 * s.reserve1
  {
    var a := Acquire(s);
    var s2 := SwapLocked(a, amount0Out, amount1Out, to).value;
    var b0, b1 := s2.held0, s2.held1;
    assert b0 >= 0 && b1 >= 0;
    var in0 := if b0 > s.reserve0 - amount0Out then b0 - (s.reserve0 - amount0Out) else 0;
    var in1 := if b1 > s.reserve1 - amount1Out then b1 - (s.reserve1 - amount1Out) else 0;
    AdjustedProductBound(b0, b1, in0, in1, s.reserve0 * s.reserve1);
  }

  /**
   * The arithmetic behind `SwapKeepsReserveProduct`: inputs between 0 and the
   * balance make the adjusted balances lie between 0 and 1000 times the balance.
   */
  lemma AdjustedProductBound(b0: int, b1: int, in0: int, in1: int, k: int)
    requires 0 <= in0 <= b0 && 0 <= in1 <= b1
    requires (b0 * 1000 - in0 * 3) * (b1 * 1000 - in1 * 3) >= k * 1000000
    ensures b0 * b1 >= k
  {
    var x0, x1 := b0 * 1000 - in0 * 3, b1 * 1000 - in1 * 3;
    assert 0 <= x0 <= b0 * 1000 && 0 <= x1 <= b1 * 1000;
    MulLe(x0, b0 * 1000, x1);
    MulLe(x1, b1 * 1000, b0 * 1000);
    assert (b0 * 1000) * (b1 * 1000) == b0 * b1 * 1000000;
    if b0 * b1 < k {
      MulLt(b0 * b1, k, 1000000);
    }
  }

  // ---------------------------------------------------------------------------
  // The pair's test scenarios

  /**
   * A pair initialised with `token0`, `token1` and `factory`, holding
   * `deposit0` and `deposit1` of the two tokens and nothing else.
   */
  function Funded(self: Address, token0: Address, token1: Address, factory: Address, deposit0: i128, deposit1: i128): (s: PairState)
    ensures s.config == Some(PairConfig(factory, token0, token1)) && s.unlocked
    ensures s.reserve0 == 0 && s.reserve1 == 0 && s.kLast == 0 && s.lp == PairToken.EmptyLedger
    ensures s.held0 == deposit0 && s.held1 == deposit1
  {
    Initialize(NewPair(self), token0, token1, factory).value.(held0 := deposit0, held1 := deposit1)
  }

  /**
   * On an empty supply the minted amount is the floor square root of the
   * deposits' product less `MINIMUM_LIQUIDITY`, which goes to the pair itself.
   */
  lemma FirstMintLiquidity(lp: PairToken.Ledger, self: Address, amount0: i128, amount1: i128, reserve0: i128, reserve1: i128, root: nat)
    requires PairToken.TotalSupply(lp) == 0 && PairToken.Balance(lp, self) == 0
    requires amount0 > 0 && amount1 > 0 && amount0 * amount1 <= MAX
    requires root * root <= amount0 * amount1 < (root + 1) * (root + 1)
    ensures PairToken.MintToken(lp, self, MINIMUM_LIQUIDITY).Ok?
    ensures MintedLiquidity(lp, self, amount0, amount1, reserve0, reserve1)
      == Ok((root - MINIMUM_LIQUIDITY, PairToken.MintToken(lp, self, MINIMUM_LIQUIDITY).value))
  {
    IsqrtUnique(amount0 * amount1, root);
  }

  /**
   * A first mint on an initialised pair that has minted nothing: the caller
   * receives the floor square root of the deposits' product less
   * `MINIMUM_LIQUIDITY`; the pair keeps exactly `MINIMUM_LIQUIDITY` and the
   * recorded supply ends at minus the root.
   */
  lemma FirstMintOnFunded(s: PairState, user: Address, feeTo: Address, root: int)
    requires s.unlocked && s.config.Some? && s.kLast == 0 && s.lp == PairToken.EmptyLedger
    requires 0 <= s.reserve0 < s.held0 && 0 <= s.reserve1 < s.held1 && InI128(s.reserve0 * s.reserve1)
    requires (s.held0 - s.reserve0) * (s.held1 - s.reserve1) <= MAX
    requires root * root <= (s.held0 - s.reserve0) * (s.held1 - s.reserve1) < (root + 1) * (root + 1)
    requires root > MINIMUM_LIQUIDITY
    ensures Mint(s, user, Some(feeTo)).Ok?
    ensures Mint(s, user, Some(feeTo)).value.1 == root - MINIMUM_LIQUIDITY
    ensures PairToken.TotalSupply(Mint(s, user, Some(feeTo)).value.0.lp) == -root
    ensures user != s.self ==> PairToken.Balance(Mint(s, user, Some(feeTo)).value.0.lp, s.self) == MINIMUM_LIQUIDITY
  {
    var a := Acquire(s);
    var amount0, amount1 := s.held0 - s.reserve0, s.held1 - s.reserve1;
    assert MintFee(a, a.reserve0, a.reserve1, Some(feeTo)) == Ok((a, true));
    FirstMintLiquidity(a.lp, s.self, amount0, amount1, s.reserve0, s.reserve1, root);
    var lp2 := PairToken.MintToken(a.lp, s.self, MINIMUM_LIQUIDITY).value;
    assert PairToken.MintToken(lp2, user, root - MINIMUM_LIQUIDITY).Ok?;
  }

  /**
   * A swap paying token1 out of a pair whose token0 balance grew: its outcome
   * is the outcome of the product check on the new balances.
   */
  lemma SwapToken0ForToken1(s: PairState, out: i128, to: Address)
    requires s.unlocked && s.config.Some? && to != s.config.value.token0 && to != s.config.value.token1 && to != s.self
    requires 0 <= s.reserve0 < s.held0 && 0 < out <= s.reserve1 && s.held1 == s.reserve1
    ensures var check := CheckK(s.held0, s.reserve1 - out, s.held0 - s.reserve0, 0, s.reserve0, s.reserve1);
      && (check.Ok? ==> Swap(s, 0, out, to) == Ok(s.(reserve0 := s.held0, reserve1 := s.reserve1 - out, held1 := s.reserve1 - out)))
      && (check.Err? ==> Swap(s, 0, out, to) == Err(check.error))
  {
    var a := Acquire(s);
    assert PayOut(a.held1, out, false) == Ok(s.reserve1 - out);
    assert MeasuredInput(a.held0, a.reserve0, 0) == Ok(s.held0 - s.reserve0);
    assert MeasuredInput(s.reserve1 - out, a.reserve1, out) == Ok(0);
  }

  /**
   * The mint test: reserves of 1000 each and balances of 2000 and 4000 mint
   * `sqrt(1000 * 3000) - 1000 = 732` LP units.
   */
  lemma MintTestExample(self: Address, token0: Address, token1: Address, factory: Address, user: Address, feeTo: Address)
    ensures var s := Funded(self, token0, token1, factory, 2000, 4000).(reserve0 := 1000, reserve1 := 1000);
      && Mint(s, user, Some(feeTo)).Ok?
      && Mint(s, user, Some(feeTo)).value.1 == 732
  {
    var s := Funded(self, token0, token1, factory, 2000, 4000).(reserve0 := 1000, reserve1 := 1000);
    FirstMintOnFunded(s, user, feeTo, 1732);
  }

  /**
   * The swap test: after a first mint of 50 000 000 and 100 000 000 and a
   * further 10 000 000 of token0 sent in, 16 624 979 of token1 is the most
   * `swap` pays out; one unit more fails the product check.
   */
  lemma SwapTestExample(self: Address, token0: Address, token1: Address, factory: Address, user: Address, feeTo: Address)
    requires user != token0 && user != token1 && user != self
    ensures var s := Funded(self, token0, token1, factory, 50000000, 100000000);
      && Mint(s, user, Some(feeTo)).Ok?
      && var s1 := Mint(s, user, Some(feeTo)).value.0.(held0 := 60000000);
         && Swap(s1, 0, 16624979, user).Ok?
         && GetReserves(Swap(s1, 0, 16624979, user).value) == (60000000, 83375021)
         && Swap(s1, 0, 16624980, user) == Err(K)
  {
    var s := Funded(self, token0, token1, factory, 50000000, 100000000);
    FirstMintOnFunded(s, user, feeTo, 70710678);
    SwapTestSwaps(Mint(s, user, Some(feeTo)).value.0.(held0 := 60000000), user);
  }

  /** The two swaps of the swap test, on the state the first mint left. */
  lemma SwapTestSwaps(s1: PairState, user: Address)
    requires s1.unlocked && s1.config.Some? && user != s1.config.value.token0 && user != s1.config.value.token1 && user != s1.self
    requires s1.reserve0 == 50000000 && s1.reserve1 == 100000000 && s1.held0 == 60000000 && s1.held1 == 100000000
    ensures Swap(s1, 0, 16624979, user).Ok?
    ensures GetReserves(Swap(s1, 0, 16624979, user).value) == (60000000, 83375021)
    ensures Swap(s1, 0, 16624980, user) == Err(K)
  {
    SwapToken0ForToken1(s1, 16624979, user);
    SwapToken0ForToken1(s1, 16624980, user);
    assert CheckK(60000000, 83375021, 10000000, 0, 50000000, 100000000).Ok?;
    assert CheckK(60000000, 83375020, 10000000, 0, 50000000, 100000000) == Err(K);
  }

  /**
   * The burn test: right after the first mint the pair holds exactly
   * `MINIMUM_LIQUIDITY` of its LP token, so `burn` has nothing to pay out.
   */
  lemma BurnTestExample(self: Address, token0: Address, token1: Address, factory: Address, user: Address, feeTo: Address)
    ensures var s := Funded(self, token0, token1, factory, 3000000, 2000000);
      && Mint(s, user, Some(feeTo)).Ok?
      && (user != self ==> Burn(Mint(s, user, Some(feeTo)).value.0, user) == Err(InsufficientLiquidityBurned))
  {
    var s := Funded(self, token0, token1, factory, 3000000, 2000000);
    FirstMintOnFunded(s, user, feeTo, 2449489);
  }
}

=== FILE: pair_token.dfy ===
/**
 * The pair's liquidity-share (LP) token: a total supply, per-holder balances
 * and allowances kept in the pair contract's instance storage, and the
 * entry points `mint_token`, `burn_token`, `balance`, `allowance`, `approve`
 * and `transfer`. The model follows the code as written, including that
 * minting lowers the recorded total supply and burning raises it.
 */
module PairToken {
  import opened Results
  import opened Int128
  import opened Addresses

  datatype TokenError =
    | InsufficientBalance
    | InsufficientAllowance
    | InvalidAmount
    /** The host aborted the call (a Rust panic). */
    | Trap

  /**
   * The ledger's storage entries. A key that was never written is absent;
   * every getter reads an absent entry as 0.
   */
  datatype Ledger = Ledger(
    totalSupply: Option<i128>,
    balances: map<Address, i128>,
    allowances: map<(Address, Address), i128>)

  /** A ledger no one has written to yet. */
  const EmptyLedger: Ledger := Ledger(None, map[], map[])

  // ---------------------------------------------------------------------------
  // Storage getters and setters

  /** `get_total_supply`. */
  function TotalSupply(l: Ledger): (r: i128)
    ensures l.totalSupply.None? ==> r == 0
    ensures l.totalSupply.Some? ==> r == l.totalSupply.value
  {
    l.totalSupply.GetOr(0)
  }

  /** `set_total_supply`: stores the supply and touches nothing else. */
  function SetTotalSupply(l: Ledger, amount: i128): (r: Ledger)
    ensures TotalSupply(r) == amount
    ensures r.balances == l.balances && r.allowances == l.allowances
  {
    l.(totalSupply := Some(amount))
  }

  /** `get_balance` (and the public `balance`). */
  function Balance(l: Ledger, id: Address): (r: i128)
    ensures id !in l.balances ==> r == 0
    ensures id in l.balances ==> r == l.balances[id]
  {
    if id in l.balances then l.balances[id] else 0
  }

  /** `set_balance`: changes the one holder's entry only. */
  function SetBalance(l: Ledger, id: Address, amount: i128): (r: Ledger)
    ensures Balance(r, id) == amount
    ensures forall other :: other != id ==> Balance(r, other) == Balance(l, other)
    ensures r.totalSupply == l.totalSupply && r.allowances == l.allowances
    ensures r.balances.Keys == l.balances.Keys + {id}
  {
    l.(balances := l.balances[id := amount])
  }

  /** `get_allowance` (and the public `allowance`). */
  function Allowance(l: Ledger, owner: Address, spender: Address): (r: i128)
    ensures (owner, spender) !in l.allowances ==> r == 0
    ensures (owner, spender) in l.allowances ==> r == l.allowances[(owner, spender)]
  {
    if (owner, spender) in l.allowances then l.allowances[(owner, spender)] else 0
  }

  /** `set_allowance`: changes the one (owner, spender) entry only. */
  function SetAllowance(l: Ledger, owner: Address, spender: Address, amount: i128): (r: Ledger)
    ensures Allowance(r, owner, spender) == amount
    ensures forall o: Address, s: Address :: (o, s) != (owner, spender) ==> Allowance(r, o, s) == Allowance(l, o, s)
    ensures r.totalSupply == l.totalSupply && r.balances == l.balances
  {
    l.(allowances := l.allowances[(owner, spender) := amount])
  }

  // ---------------------------------------------------------------------------
  // Supply changes

  /**
   * `burn_logic`: panics on a negative amount; stores `balance - amount` for the
   * holder and `totalSupply + amount` as the new supply, both checked.
   */
  function BurnLogic(l: Ledger, holder: Address, amount: i128, balance: i128): (r: Result<Ledger, TokenError>)
    ensures r.Err? <==> amount < 0 || !InI128(balance - amount) || !InI128(TotalSupply(l) + amount)
    ensures r.Err? ==> r.error == Trap
    ensures r.Ok? ==> Balance(r.value, holder) == balance - amount
    ensures r.Ok? ==> TotalSupply(r.value) == TotalSupply(l) + amount
    ensures r.Ok? ==> forall other :: other != holder ==> Balance(r.value, other) == Balance(l, other)
    ensures r.Ok? ==> r.value.allowances == l.allowances
  {
    if amount < 0 then Err(Trap)
    else
      var newBalance :- CheckedSub(balance, amount).OrErr(Trap);
      var l1 := SetBalance(l, holder, newBalance);
      var newSupply :- CheckedAdd(TotalSupply(l1), amount).OrErr(Trap);
      Ok(SetTotalSupply(l1, newSupply))
  }

  /**
   * `mint_logic`: panics on a negative amount; stores `balance + amount` for the
   * holder and, as written, `totalSupply - amount` as the new supply.
   */
  function MintLogic(l: Ledger, holder: Address, amount: i128, balance: i128): (r: Result<Ledger, TokenError>)
    ensures r.Err? <==> amount < 0 || !InI128(balance + amount) || !InI128(TotalSupply(l) - amount)
    ensures r.Err? ==> r.error == Trap
    ensures r.Ok? ==> Balance(r.value, holder) == balance + amount
    ensures r.Ok? ==> TotalSupply(r.value) == TotalSupply(l) - amount
    ensures r.Ok? ==> forall other :: other != holder ==> Balance(r.value, other) == Balance(l, other)
    ensures r.Ok? ==> r.value.allowances == l.allowances
  {
    if amount < 0 then Err(Trap)
    else
      var newBalance :- CheckedAdd(balance, amount).OrErr(Trap);
      var l1 := SetBalance(l, holder, newBalance);
      var newSupply :- CheckedSub(TotalSupply(l1), amount).OrErr(Trap);
      Ok(SetTotalSupply(l1, newSupply))
  }

  // ---------------------------------------------------------------------------
  // Entry points

  /** `mint_token`: rejects a non-positive amount, then credits `to` with exactly `amount`. */
  function MintToken(l: Ledger, to: Address, amount: i128): (r: Result<Ledger, TokenError>)
    ensures amount <= 0 ==> r == Err(InvalidAmount)
    ensures amount > 0 ==>
      (r.Ok? <==> InI128(Balance(l, to) + amount) && InI128(TotalSupply(l) - amount))
    ensures amount > 0 && r.Err? ==> r.error == Trap
    ensures r.Ok? ==> Balance(r.value, to) == Balance(l, to) + amount
    ensures r.Ok? ==> TotalSupply(r.value) == TotalSupply(l) - amount
    ensures r.Ok? ==> forall other :: other != to ==> Balance(r.value, other) == Balance(l, other)
    ensures r.Ok? ==> r.value.allowances == l.allowances
  {
    if amount <= 0 then Err(InvalidAmount)
    else MintLogic(l, to, amount, Balance(l, to))
  }

  /**
   * `burn_token`: panics on a negative amount, then debits `from` by `amount`
   * without checking that the balance covers it.
   */
  function BurnToken(l: Ledger, from: Address, amount: i128): (r: Result<Ledger, TokenError>)
    ensures r.Err? <==> amount < 0 || !InI128(Balance(l, from) - amount) || !InI128(TotalSupply(l) + amount)
    ensures r.Err? ==> r.error == Trap
    ensures r.Ok? ==> Balance(r.value, from) == Balance(l, from) - amount
    ensures r.Ok? ==> TotalSupply(r.value) == TotalSupply(l) + amount
    ensures r.Ok? ==> forall other :: other != from ==> Balance(r.value, other) == Balance(l, other)
    ensures r.Ok? ==> r.value.allowances == l.allowances
  {
    if amount < 0 then Err(Trap)
    else BurnLogic(l, from, amount, Balance(l, from))
  }

  /**
   * `approve`: needs the owner's authorisation (`signers` holds the addresses
   * that signed the invocation); overwrites the allowance and answers `true`.
   */
  function Approve(l: Ledger, owner: Address, spender: Address, amount: i128, signers: set<Address>): (r: Result<(Ledger, bool), TokenError>)
    ensures r.Err? <==> owner !in signers
    ensures r.Err? ==> r.error == Trap
    ensures r.Ok? ==> r.value.1
    ensures r.Ok? ==> Allowance(r.value.0, owner, spender) == amount
    ensures r.Ok? ==> forall o: Address, s: Address :: (o, s) != (owner, spender) ==> Allowance(r.value.0, o, s) == Allowance(l, o, s)
    ensures r.Ok? ==> r.value.0.balances == l.balances && r.value.0.totalSupply == l.totalSupply
  {
    if owner !in signers then Err(Trap)
    else Ok((SetAllowance(l, owner, spender, amount), true))
  }

  /**
   * `do_transfer`: panics when `from` holds less than `amount`; otherwise writes
   * `from`'s debited balance, then reads `to`'s balance (which already sees that
   * write when `to == from`) and writes it credited. The unchecked `-` and `+`
   * panic on overflow.
   */
  function DoTransfer(l: Ledger, from: Address, to: Address, amount: i128): (r: Result<(Ledger, bool), TokenError>)
    ensures Balance(l, from) < amount ==> r == Err(Trap)
    ensures r.Err? ==> r.error == Trap
    ensures r.Ok? ==> r.value.1
    ensures r.Ok? && from != to ==>
      && Balance(r.value.0, from) == Balance(l, from) - amount
      && Balance(r.value.0, to) == Balance(l, to) + amount
    ensures r.Ok? && from == to ==> Balance(r.value.0, from) == Balance(l, from)
    ensures r.Ok? ==> forall other :: other != from && other != to ==> Balance(r.value.0, other) == Balance(l, other)
    ensures r.Ok? ==> r.value.0.totalSupply == l.totalSupply && r.value.0.allowances == l.allowances
    ensures Balance(l, from) >= amount && from != to ==>
      (r.Ok? <==> InI128(Balance(l, from) - amount) && InI128(Balance(l, to) + amount))
    ensures Balance(l, from) >= amount && from == to ==> (r.Ok? <==> InI128(Balance(l, from) - amount))
  {
    var fromBalance := Balance(l, from);
    if fromBalance < amount then Err(Trap)
    else
      var debited :- CheckedSub(fromBalance, amount).OrErr(Trap);
      var l1 := SetBalance(l, from, debited);
      var toBalance := Balance(l1, to);
      var credited :- CheckedAdd(toBalance, amount).OrErr(Trap);
      Ok((SetBalance(l1, to, credited), true))
  }

  /** `transfer`: needs `from`'s authorisation, then `do_transfer`. */
  function Transfer(l: Ledger, from: Address, to: Address, amount: i128, signers: set<Address>): (r: Result<(Ledger, bool), TokenError>)
    ensures from !in signers ==> r == Err(Trap)
    ensures from in signers ==> r == DoTransfer(l, from, to, amount)
  {
    if from !in signers then Err(Trap)
    else DoTransfer(l, from, to, amount)
  }
}

=== FILE: pair_token_proofs.dfy ===
/**
 * What the LP ledger keeps across calls. The usual token invariant "total
 * supply equals the sum of balances" does not hold: minting lowers the supply
 * and burning raises it. What every entry point keeps instead is the sum of
 * the supply and all balances, which starts at 0, so a reachable ledger
 * records the negated holdings as its supply.
 */
module PairTokenProofs {
  import opened Results
  import opened Int128
  import opened Addresses
  import opened PairToken

  /** The sum of all stored balances. */
  ghost function SumOf(m: map<Address, i128>): int
    decreases |m|
  {
    if m == map[] then 0
    else
      var k :| k in m;
      m[k] + SumOf(m - {k})
  }

  /** Any entry can be taken out of the sum first. */
  lemma {:induction false} SumRemove(m: map<Address, i128>, k: Address)
    requires k in m
    ensures SumOf(m) == m[k] + SumOf(m - {k})
    decreases |m|
  {
    var j :| j in m && SumOf(m) == m[j] + SumOf(m - {j});
    if j != k {
      SumRemove(m - {j}, k);
      SumRemove(m - {k}, j);
      assert m - {j} - {k} == m - {k} - {j};
    }
  }

  /** Writing one balance changes the sum by the difference at that holder. */
  lemma SumAfterSet(m: map<Address, i128>, id: Address, v: i128)
    ensures SumOf(m[id := v]) == SumOf(m) - (if id in m then m[id] else 0) + v
  {
    SumRemove(m[id := v], id);
    if id in m {
      SumRemove(m, id);
      assert m[id := v] - {id} == m - {id};
    } else {
      assert m[id := v] - {id} == m;
    }
  }

  /** All LP tokens held, by every holder together. */
  ghost function Holdings(l: Ledger): int {
    SumOf(l.balances)
  }

  lemma HoldingsAfterSetBalance(l: Ledger, id: Address, v: i128)
    ensures Holdings(SetBalance(l, id, v)) == Holdings(l) - Balance(l, id) + v
  {
    SumAfterSet(l.balances, id, v);
  }

  /** `mint_token` raises the holdings by `amount` and lowers the supply by as much. */
  lemma MintTokenKeepsSupplyPlusHoldings(l: Ledger, to: Address, amount: i128, l2: Ledger)
    requires MintToken(l, to, amount) == Ok(l2)
    ensures Holdings(l2) == Holdings(l) + amount
    ensures TotalSupply(l2) + Holdings(l2) == TotalSupply(l) + Holdings(l)
  {
    var l1 := SetBalance(l, to, Balance(l, to) + amount);
    HoldingsAfterSetBalance(l, to, Balance(l, to) + amount);
    assert l2.balances == l1.balances;
  }

  /** `burn_token` lowers the holdings by `amount` and raises the supply by as much. */
  lemma BurnTokenKeepsSupplyPlusHoldings(l: Ledger, from: Address, amount: i128, l2: Ledger)
    requires BurnToken(l, from, amount) == Ok(l2)
    ensures Holdings(l2) == Holdings(l) - amount
    ensures TotalSupply(l2) + Holdings(l2) == TotalSupply(l) + Holdings(l)
  {
    var l1 := SetBalance(l, from, Balance(l, from) - amount);
    HoldingsAfterSetBalance(l, from, Balance(l, from) - amount);
    assert l2.balances == l1.balances;
  }

  /** `do_transfer` moves tokens between holders: the holdings and the supply stay put. */
  lemma TransferKeepsHoldings(l: Ledger, from: Address, to: Address, amount: i128, l2: Ledger)
    requires DoTransfer(l, from, to, amount) == Ok((l2, true))
    ensures Holdings(l2) == Holdings(l)
    ensures TotalSupply(l2) == TotalSupply(l)
  {
    var debited := Balance(l, from) - amount;
    var l1 := SetBalance(l, from, debited);
    HoldingsAfterSetBalance(l, from, debited);
    var credited := Balance(l1, to) + amount;
    HoldingsAfterSetBalance(l1, to, credited);
    assert l2 == SetBalance(l1, to, credited);
  }

  /** `approve` touches neither balances nor supply. */
  lemma ApproveKeepsHoldings(l: Ledger, owner: Address, spender: Address, amount: i128, signers: set<Address>, l2: Ledger)
    requires Approve(l, owner, spender, amount, signers) == Ok((l2, true))
    ensures Holdings(l2) == Holdings(l) && TotalSupply(l2) == TotalSupply(l)
    ensures Allowance(l2, owner, spender) == amount
  {
  }

  lemma EmptyLedgerBalanced()
    ensures TotalSupply(EmptyLedger) + Holdings(EmptyLedger) == 0
  {
    assert EmptyLedger.balances == map[];
  }

  /**
   * One mint on a fresh ledger already breaks "supply equals holdings": the
   * supply reads -1000 while the holder owns 1000.
   */
  lemma SupplyIsNegatedHoldings(holder: Address)
    ensures MintToken(EmptyLedger, holder, 1000).Ok?
    ensures var l := MintToken(EmptyLedger, holder, 1000).value;
      TotalSupply(l) == -1000 && Holdings(l) == 1000 && TotalSupply(l) != Holdings(l)
  {
    var l := MintToken(EmptyLedger, holder, 1000).value;
    EmptyLedgerBalanced();
    MintTokenKeepsSupplyPlusHoldings(EmptyLedger, holder, 1000, l);
  }

  /** A holder paying itself ends with the balance it started with. */
  lemma SelfTransferKeepsBalance(l: Ledger, holder: Address, amount: i128)
    requires 0 <= amount <= Balance(l, holder)
    ensures DoTransfer(l, holder, holder, amount).Ok?
    ensures DoTransfer(l, holder, holder, amount).value.0 == SetBalance(l, holder, Balance(l, holder))
  {
  }
}

=== FILE: results.dfy ===
/** Failure-compatible result types shared by every module of the model. */
module Results {

  /** An optional value; absent storage entries and `checked_*` failures are `None`. */
  datatype Option<+T> = None | Some(value: T) {

    predicate IsFailure() {
      None?
    }

    function PropagateFailure<U>(): Option<U>
      requires None?
    {
      None
    }

    function Extract(): T
      requires Some?
    {
      value
    }

    /** The stored value, or `default` when absent (Rust's `unwrap_or`). */
    function GetOr(default: T): T {
      match this
      case Some(v) => v
      case None => default
    }

    /** Turns an absent value into the given error (Rust's `ok_or`). */
    function OrErr<E>(error: E): Result<T, E> {
      match this
      case Some(v) => Ok(v)
      case None => Err(error)
    }
  }

  /** The outcome of a call: a value, or the error that aborted it. */
  datatype Result<+T, +E> = Ok(value: T) | Err(error: E) {

    predicate IsFailure() {
      Err?
    }

    function PropagateFailure<U>(): Result<U, E>
      requires Err?
    {
      Err(error)
    }

    function Extract(): T
      requires Ok?
    {
      value
    }

    /** Re-labels the error, as a caller does when it wraps a callee's failure. */
    function MapError<E2>(f: E -> E2): Result<T, E2> {
      match this
      case Ok(v) => Ok(v)
      case Err(e) => Err(f(e))
    }
  }

  /** Fails with `error` unless `condition` holds. */
  function Need<E>(condition: bool, error: E): Result<(), E> {
    if condition then Ok(()) else Err(error)
  }
}

=== FILE: router.dfy ===
/**
 * The router contract over a world of contracts: the router's own settings,
 * the factory's registry, every deployed pair's state, and the balances the
 * token contracts record. Each entry point maps a world to a new world or an
 * error; every error of an entry point aborts the whole invocation, so the
 * error carries no world.
 */
module Router {
  import opened Results
  import opened Int128
  import opened Addresses
  import opened RouterHelper
  import Library
  import PairToken
  import Pair
  import Factory

  /**
   * `now` is the ledger timestamp; `factory` and `native` the router's
   * `Factory` and `Native` entries; `registry` the storage of the factory
   * contract at `registry.self`; `pairs` the pair contracts by address;
   * `wallets` the token balances by (token, holder), absent meaning 0. The
   * balances a pair holds live in `wallets`: a pair's `held0` and `held1` are
   * read from there whenever the pair is called.
   */
  datatype World = World(
    now: u64,
    factory: Option<Address>,
    native: Option<Address>,
    registry: Factory.Registry,
    pairs: map<Address, Pair.PairState>,
    wallets: map<(Address, Address), i128>)

  /** `token`'s balance of `holder`. */
  function Wallet(w: World, token: Address, holder: Address): (r: i128)
    ensures (token, holder) !in w.wallets ==> r == 0
    ensures (token, holder) in w.wallets ==> r == w.wallets[(token, holder)]
  {
    if (token, holder) in w.wallets then w.wallets[(token, holder)] else 0
  }

  /** `initialize`: stores the factory and native-token addresses, with no guard against a second call. */
  function Initialize(w: World, factory: Address, native: Address): (r: World)
    ensures r.factory == Some(factory) && r.native == Some(native)
    ensures r == w.(factory := Some(factory), native := Some(native))
  {
    w.(factory := Some(factory), native := Some(native))
  }

  /** `ensure`: aborts once the ledger time is past the deadline. */
  function Ensure(now: u64, deadline: u64): (r: Result<(), RouterError>)
    ensures r.Ok? <==> now <= deadline
    ensures r.Err? ==> r.error == DeadlineExpired
  {
    if now > deadline then Err(DeadlineExpired) else Ok(())
  }

  // ---------------------------------------------------------------------------
  // Calls into other contracts

  /**
   * A token contract's `transfer`: aborts on a negative amount or one above the
   * sender's balance, and on an overflowing credit; paying oneself changes
   * nothing. The sender's authorisation is checked by the callers.
   */
  function TokenTransfer(w: World, token: Address, from: Address, to: Address, amount: i128): (r: Result<World, RouterError>)
    ensures r.Err? <==> amount < 0 || Wallet(w, token, from) < amount || (from != to && !InI128(Wallet(w, token, to) + amount))
    ensures r.Err? ==> r.error == Trap
    ensures r.Ok? && from == to ==> r.value == w
    ensures r.Ok? && from != to ==>
      && Wallet(r.value, token, from) == Wallet(w, token, from) - amount
      && Wallet(r.value, token, to) == Wallet(w, token, to) + amount
    ensures r.Ok? ==> forall t: Address, h: Address :: (t, h) != (token, from) && (t, h) != (token, to) ==> Wallet(r.value, t, h) == Wallet(w, t, h)
    ensures r.Ok? ==> r.value == w.(wallets := r.value.wallets)
  {
    var fromBalance := Wallet(w, token, from);
    if amount < 0 || fromBalance < amount then Err(Trap)
    else if from == to then Ok(w)
    else
      var credited :- CheckedAdd(Wallet(w, token, to), amount).OrErr(Trap);
      Ok(w.(wallets := w.wallets[(token, from) := fromBalance - amount][(token, to) := credited]))
  }

  /** The pair contract at `pair` as a call finds it: its balances read from the token contracts. */
  function PairAt(w: World, pair: Address): (r: Result<Pair.PairState, RouterError>)
    ensures r.Err? <==> pair !in w.pairs
    ensures r.Err? ==> r.error == Trap
    ensures r.Ok? ==> r.value.self == pair
    ensures r.Ok? ==> r.value.(self := w.pairs[pair].self, held0 := w.pairs[pair].held0, held1 := w.pairs[pair].held1) == w.pairs[pair]
    ensures r.Ok? && r.value.config.Some? ==>
      r.value.held0 == Wallet(w, r.value.config.value.token0, pair) && r.value.held1 == Wallet(w, r.value.config.value.token1, pair)
  {
    if pair !in w.pairs then Err(Trap)
    else
      var s := w.pairs[pair].(self := pair);
      match s.config
      case None => Ok(s)
      case Some(config) => Ok(s.(held0 := Wallet(w, config.token0, pair), held1 := Wallet(w, config.token1, pair)))
  }

  /**
   * Writes a pair back after a call: the pair's state, its balances, and the
   * amounts it paid out (its balance drop on each side) credited to `to`.
   */
  function StorePair(w: World, before: Pair.PairState, after: Pair.PairState, to: Address): (r: Result<World, RouterError>)
    requires after.self == before.self && after.config == before.config
    requires after.held0 <= before.held0 && after.held1 <= before.held1
    ensures r.Ok? ==> r.value.pairs == w.pairs[after.self := after]
    ensures r.Ok? ==> r.value == w.(pairs := r.value.pairs, wallets := r.value.wallets)
    ensures r.Ok? && after.config.Some? && after.config.value.token0 != after.config.value.token1 ==>
      var config := after.config.value;
      && Wallet(r.value, config.token0, after.self) == after.held0
      && Wallet(r.value, config.token1, after.self) == after.held1
      && (to != after.self ==>
           && Wallet(r.value, config.token0, to) == Wallet(w, config.token0, to) + (before.held0 - after.held0)
           && Wallet(r.value, config.token1, to) == Wallet(w, config.token1, to) + (before.held1 - after.held1))
    ensures r.Ok? ==> forall t: Address, h: Address :: !StoreTouches(after, to, t, h) ==> Wallet(r.value, t, h) == Wallet(w, t, h)
    ensures r.Err? ==> r.error == Trap
  {
    var w1 := w.(pairs := w.pairs[after.self := after]);
    match after.config
    case None => Ok(w1)
    case Some(config) =>
      var paid0, paid1 := before.held0 - after.held0, before.held1 - after.held1;
      var credit0 := Wallet(w1, config.token0, to) + paid0;
      if !InI128(credit0) then Err(Trap)
      else
      var w2 := w1.(wallets := w1.wallets[(config.token0, to) := credit0]);
      var credit1 := Wallet(w2, config.token1, to) + paid1;
      if !InI128(credit1) then Err(Trap)
      else
      var w3 := w2.(wallets := w2.wallets[(config.token1, to) := credit1]);
      Ok(w3.(wallets := w3.wallets[(config.token0, after.self) := after.held0][(config.token1, after.self) := after.held1]))
  }

  /** Storing `after` back may change `token`'s balance of `holder` only for the pair's two tokens, held by `to` or by the pair. */
  predicate StoreTouches(after: Pair.PairState, to: Address, token: Address, holder: Address) {
    && after.config.Some?
    && (token == after.config.value.token0 || token == after.config.value.token1)
    && (holder == to || holder == after.self)
  }

  /** The pair's `get_fee_to` call to its factory: only the modelled factory answers. */
  function FeeToFor(w: World, s: Pair.PairState): (r: Option<Address>)
    ensures r.Some? <==> s.config.Some? && s.config.value.factory == w.registry.self && w.registry.feeTo.Some?
    ensures r.Some? ==> r == Factory.GetFeeTo(w.registry)
  {
    if s.config.Some? && s.config.value.factory == w.registry.self then Factory.GetFeeTo(w.registry) else None
  }

  /** A `mint` call on the pair at `pair`; the pair's error aborts the router. */
  function PairMint(w: World, pair: Address, to: Address): (r: Result<(World, i128), RouterError>)
    ensures pair !in w.pairs ==> r == Err(Trap)
    ensures r.Err? ==> r.error == Trap
    ensures r.Ok? ==> r.value.1 > 0
    ensures r.Ok? ==>
      var s := PairAt(w, pair).value;
      Pair.Mint(s, to, FeeToFor(w, s)).Ok? && Pair.Mint(s, to, FeeToFor(w, s)).value.1 == r.value.1
    ensures r.Ok? ==>
      var s := PairAt(w, pair).value;
      StorePair(w, s, Pair.Mint(s, to, FeeToFor(w, s)).value.0, to) == Ok(r.value.0)
    ensures pair in w.pairs ==>
      var s := PairAt(w, pair).value;
      var minted := Pair.Mint(s, to, FeeToFor(w, s));
      r.Ok? <==> minted.Ok? && StorePair(w, s, minted.value.0, to).Ok?
    ensures r.Ok? ==> forall t: Address, h: Address :: Wallet(r.value.0, t, h) == Wallet(w, t, h)
  {
    var s :- PairAt(w, pair);
    var (s2, liquidity) :- Pair.Mint(s, to, FeeToFor(w, s)).MapError(_ => Trap);
    var w2 :- StorePair(w, s, s2, to);
    StoreKeepsWallets(w, s, s2, to, w2);
    Ok((w2, liquidity))
  }

  /** Storing back a pair whose balances did not move leaves every token balance as it was. */
  lemma StoreKeepsWallets(w: World, before: Pair.PairState, after: Pair.PairState, to: Address, w2: World)
    requires before.self in w.pairs && PairAt(w, before.self) == Ok(before)
    requires after.self == before.self && after.config == before.config
    requires after.held0 == before.held0 && after.held1 == before.held1
    requires StorePair(w, before, after, to) == Ok(w2)
    ensures forall t: Address, h: Address :: Wallet(w2, t, h) == Wallet(w, t, h)
  {
    match after.config
    case None =>
    case Some(config) =>
      assert before.held0 == Wallet(w, config.token0, before.self);
      assert before.held1 == Wallet(w, config.token1, before.self);
  }

  /** A `burn` call on the pair at `pair`. */
  function PairBurn(w: World, pair: Address, to: Address): (r: Result<(World, (i128, i128)), RouterError>)
    ensures pair !in w.pairs ==> r == Err(Trap)
    ensures r.Err? ==> r.error == Trap
    ensures r.Ok? ==>
      Pair.Burn(PairAt(w, pair).value, to).Ok? && Pair.Burn(PairAt(w, pair).value, to).value.1 == r.value.1
    ensures r.Ok? ==> PairAt(w, pair).value.config.Some?
    ensures r.Ok? ==>
      var s := PairAt(w, pair).value;
      StorePair(w, s, Pair.Burn(s, to).value.0, to) == Ok(r.value.0)
    ensures pair in w.pairs ==>
      var s := PairAt(w, pair).value;
      var burnt := Pair.Burn(s, to);
      r.Ok? <==> burnt.Ok? && StorePair(w, s, burnt.value.0, to).Ok?
    ensures r.Ok? && to != pair ==>
      var config := PairAt(w, pair).value.config.value;
      config.token0 != config.token1 ==>
        && Wallet(r.value.0, config.token0, to) == Wallet(w, config.token0, to) + r.value.1.0
        && Wallet(r.value.0, config.token1, to) == Wallet(w, config.token1, to) + r.value.1.1
        && Wallet(r.value.0, config.token0, pair) == Wallet(w, config.token0, pair) - r.value.1.0
        && Wallet(r.value.0, config.token1, pair) == Wallet(w, config.token1, pair) - r.value.1.1
  {
    var s :- PairAt(w, pair);
    var (s2, amounts) :- Pair.Burn(s, to).MapError(_ => Trap);
    var w2 :- StorePair(w, s, s2, to);
    Ok((w2, amounts))
  }

  /** A `swap` call on the pair at `pair`. */
  function PairSwap(w: World, pair: Address, amount0Out: i128, amount1Out: i128, to: Address): (r: Result<World, RouterError>)
    ensures pair !in w.pairs ==> r == Err(Trap)
    ensures r.Err? ==> r.error == Trap
    ensures r.Ok? ==> Pair.Swap(PairAt(w, pair).value, amount0Out, amount1Out, to).Ok?
    ensures r.Ok? ==> r.value.now == w.now && r.value.factory == w.factory && r.value.registry == w.registry
    ensures r.Ok? ==> PairAt(w, pair).value.config.Some?
    ensures r.Ok? ==>
      var s := PairAt(w, pair).value;
      StorePair(w, s, Pair.Swap(s, amount0Out, amount1Out, to).value, to) == Ok(r.value)
    ensures pair in w.pairs ==>
      var s := PairAt(w, pair).value;
      var swapped := Pair.Swap(s, amount0Out, amount1Out, to);
      r.Ok? <==> swapped.Ok? && StorePair(w, s, swapped.value, to).Ok?
    ensures r.Ok? && to != pair ==>
      var config := PairAt(w, pair).value.config.value;
      config.token0 != config.token1 ==>
        && Wallet(r.value, config.token0, to) == Wallet(w, config.token0, to) + (if amount0Out > 0 then amount0Out else 0)
        && Wallet(r.value, config.token1, to) == Wallet(w, config.token1, to) + (if amount1Out > 0 then amount1Out else 0)
        && Wallet(r.value, config.token0, pair) == Wallet(w, config.token0, pair) - (if amount0Out > 0 then amount0Out else 0)
        && Wallet(r.value, config.token1, pair) == Wallet(w, config.token1, pair) - (if amount1Out > 0 then amount1Out else 0)
  {
    var s :- PairAt(w, pair);
    var s2 :- Pair.Swap(s, amount0Out, amount1Out, to).MapError(_ => Trap);
    StorePair(w, s, s2, to)
  }

  /** The pair's LP-token `transfer`, needing `from`'s authorisation. */
  function PairLpTransfer(w: World, pair: Address, from: Address, to: Address, amount: i128, signers: set<Address>): (r: Result<World, RouterError>)
    ensures pair !in w.pairs || from !in signers ==> r == Err(Trap)
    ensures r.Err? ==> r.error == Trap
    ensures r.Ok? ==>
      && var s := PairAt(w, pair).value;
      && PairToken.Transfer(s.lp, from, to, amount, signers).Ok?
      && r.value == w.(pairs := w.pairs[pair := s.(lp := PairToken.Transfer(s.lp, from, to, amount, signers).value.0)])
    ensures pair in w.pairs ==> (r.Ok? <==> PairToken.Transfer(PairAt(w, pair).value.lp, from, to, amount, signers).Ok?)
  {
    var s :- PairAt(w, pair);
    var (lp, _) :- PairToken.Transfer(s.lp, from, to, amount, signers).MapError(_ => Trap);
    Ok(w.(pairs := w.pairs[pair := s.(lp := lp)]))
  }

  /**
   * The reserves the library reads for a canonical (token0, token1): those of
   * the pair contract at the derived address, `None` when no pair is there.
   */
  function OracleOf(w: World, factory: Address, derive: Derivation): (oracle: Library.ReserveOracle)
    ensures forall t0: Address, t1: Address :: derive(factory, t0, t1) !in w.pairs ==> oracle(t0, t1).None?
    ensures forall t0: Address, t1: Address :: derive(factory, t0, t1) in w.pairs ==>
      oracle(t0, t1) == Some(Pair.GetReserves(w.pairs[derive(factory, t0, t1)]))
  {
    (t0: Address, t1: Address) =>
      var pair := derive(factory, t0, t1);
      if pair in w.pairs then Some(Pair.GetReserves(w.pairs[pair])) else None
  }

  /** The router's `factory()`: aborts before `initialize`, or when no factory is deployed there. */
  function FactoryRegistry(w: World): (r: Result<Factory.Registry, RouterError>)
    ensures r.Ok? <==> w.factory == Some(w.registry.self)
    ensures r.Err? ==> r.error == Trap
    ensures r.Ok? ==> r.value == w.registry
  {
    var factory :- w.factory.OrErr(Trap);
    if factory != w.registry.self then Err(Trap) else Ok(w.registry)
  }

  /** The factory's `create_new_pair`, deploying the new pair into the world. */
  function CreatePairIn(w: World, a: Address, b: Address, derive: Derivation): (r: Result<World, RouterError>)
    ensures r.Ok? <==> Factory.CreatePair(w.registry, a, b, derive).Ok?
    ensures r.Err? ==> r.error == Trap
    ensures r.Ok? ==>
      var (reg2, pair, state) := Factory.CreatePair(w.registry, a, b, derive).value;
      r.value == w.(registry := reg2, pairs := w.pairs[pair := state])
  {
    var (reg2, pair, state) :- Factory.CreatePair(w.registry, a, b, derive).MapError(_ => Trap);
    Ok(w.(registry := reg2, pairs := w.pairs[pair := state]))
  }

  /** A library error as the router reports it: the two minimum checks keep their messages, the rest abort. */
  function FromLibrary(e: Library.LibError): (r: RouterError)
    ensures e == Library.InsufficientAAmount <==> r == InsufficientAAmount
    ensures e == Library.InsufficientBAmount <==> r == InsufficientBAmount
    ensures r == InsufficientAAmount || r == InsufficientBAmount || r == Trap
  {
    match e
    case InsufficientAAmount => InsufficientAAmount
    case InsufficientBAmount => InsufficientBAmount
    case _ => Trap
  }

  // ---------------------------------------------------------------------------
  // Liquidity

  /**
   * `_add_liquidity`: creates the pair when `get_pair` does not find it, looks
   * it up again under the sorted tokens, and sizes the deposit from the pair's
   * reserves taken in pair order, not in the caller's (a, b) order.
   */
  function AddLiquidityAmounts(
    w: World, a: Address, b: Address,
    amountADesired: i128, amountBDesired: i128, amountAMin: i128, amountBMin: i128,
    derive: Derivation): (r: Result<(World, (i128, i128)), RouterError>)
    ensures FactoryRegistry(w).Err? ==> r == Err(Trap)
    ensures r.Ok? ==>
      && var w1 := r.value.0;
      && (w1 == w || (Factory.GetPair(w.registry, a, b).None? && CreatePairIn(w, a, b, derive) == Ok(w1)))
      && a != b
      && Factory.GetPair(w1.registry, a, b).Some?
      && var s := PairAt(w1, Factory.GetPair(w1.registry, a, b).value);
         s.Ok? && Library.OptimalLiquidity(amountADesired, amountBDesired, amountAMin, amountBMin, s.value.reserve0, s.value.reserve1) == Ok(r.value.1)
    ensures r.Err? ==> r.error in {Trap, InsufficientAAmount, InsufficientBAmount}
    ensures r.Ok? ==> FactoryRegistry(w).Ok? && r.value.0.factory == w.factory && r.value.0.wallets == w.wallets
    ensures FactoryRegistry(w).Ok? && a < b && Factory.GetPair(w.registry, a, b).None? ==>
      && (r.Ok? <==> CreatePairIn(w, a, b, derive).Ok?)
      && (r.Ok? ==> r.value == (CreatePairIn(w, a, b, derive).value, (amountADesired, amountBDesired)))
  {
    var reg :- FactoryRegistry(w);
    var w1 :- if Factory.GetPair(reg, a, b).None? then CreatePairIn(w, a, b, derive) else Ok(w);
    var (token0, token1) :- SortTokens(a, b).MapError(_ => Trap);
    assert Factory.SortTokens(token0, token1) == Factory.SortTokens(a, b);
    var pair :- Factory.GetPair(w1.registry, token0, token1).OrErr(Trap);
    var s :- PairAt(w1, pair);
    var (reserveA, reserveB) := Pair.GetReserves(s);
    var amounts :- Library.OptimalLiquidity(amountADesired, amountBDesired, amountAMin, amountBMin, reserveA, reserveB).MapError(FromLibrary);
    Ok((w1, amounts))
  }

  /**
   * `add_liquidity`: after the deadline and `to`'s authorisation, sizes the
   * deposit, sends both amounts from `to` to the pair and mints LP tokens to `to`.
   */
  function AddLiquidity(
    w: World, a: Address, b: Address,
    amountADesired: i128, amountBDesired: i128, amountAMin: i128, amountBMin: i128,
    to: Address, deadline: u64, signers: set<Address>, derive: Derivation): (r: Result<(World, (i128, i128, i128)), RouterError>)
    ensures w.now > deadline ==> r == Err(DeadlineExpired)
    ensures w.now <= deadline && to !in signers ==> r == Err(Trap)
    ensures r.Ok? ==>
      && to in signers
      && var amounts := AddLiquidityAmounts(w, a, b, amountADesired, amountBDesired, amountAMin, amountBMin, derive);
      && amounts.Ok?
      && r.value.1.0 == amounts.value.1.0 && r.value.1.1 == amounts.value.1.1
      && r.value.1.2 > 0
    ensures r.Err? ==> r.error in {DeadlineExpired, Trap, InsufficientAAmount, InsufficientBAmount}
    ensures w.now <= deadline && to in signers ==>
      var amounts := AddLiquidityAmounts(w, a, b, amountADesired, amountBDesired, amountAMin, amountBMin, derive);
      && (amounts.Err? ==> r == Err(amounts.error))
      && (amounts.Ok? ==>
            var w1 := amounts.value.0;
            var (amountA, amountB) := amounts.value.1;
            var pair := PairFor(derive, w1.factory.value, a, b).value;
            var w2 := TokenTransfer(w1, a, to, pair, amountA);
            && (w2.Err? ==> r == Err(Trap))
            && (w2.Ok? ==>
                  var w3 := TokenTransfer(w2.value, b, to, pair, amountB);
                  && (w3.Err? ==> r == Err(Trap))
                  && (w3.Ok? ==>
                        var minted := PairMint(w3.value, pair, to);
                        && (minted.Err? ==> r == Err(Trap))
                        && (minted.Ok? ==> r == Ok((minted.value.0, (amountA, amountB, minted.value.1)))))))
  {
    var _ :- Ensure(w.now, deadline);
    if to !in signers then Err(Trap)
    else
      var (w1, (amountA, amountB)) :- AddLiquidityAmounts(w, a, b, amountADesired, amountBDesired, amountAMin, amountBMin, derive);
      var pair := PairFor(derive, w1.factory.value, a, b).value;
      var w2 :- TokenTransfer(w1, a, to, pair, amountA);
      var w3 :- TokenTransfer(w2, b, to, pair, amountB);
      var (w4, liquidity) :- PairMint(w3, pair, to);
      Ok((w4, (amountA, amountB, liquidity)))
  }

  /** The pair's two amounts in the caller's (a, b) order. */
  function Reorder(a: Address, token0: Address, amount0: i128, amount1: i128): (r: (i128, i128))
    ensures a == token0 ==> r == (amount0, amount1)
    ensures a != token0 ==> r == (amount1, amount0)
  {
    if a == token0 then (amount0, amount1) else (amount1, amount0)
  }

  /**
   * `remove_liquidity`: after the deadline and `to`'s authorisation, requires
   * `get_pair` to know the pair, moves `liquidity` LP tokens from `to` to the
   * pair, burns, and checks both minimums in the caller's order.
   */
  function RemoveLiquidity(
    w: World, a: Address, b: Address, liquidity: i128, amountAMin: i128, amountBMin: i128,
    to: Address, deadline: u64, signers: set<Address>, derive: Derivation): (r: Result<(World, (i128, i128)), RouterError>)
    ensures w.now > deadline ==> r == Err(DeadlineExpired)
    ensures w.now <= deadline && to !in signers ==> r == Err(Trap)
    ensures w.now <= deadline && to in signers && FactoryRegistry(w).Ok? && Factory.GetPair(w.registry, a, b).None? ==>
      r == Err(PairDoesNotExist)
    ensures r.Ok? ==>
      && a != b && w.factory.Some?
      && var pair := PairFor(derive, w.factory.value, a, b).value;
      && var w1 := PairLpTransfer(w, pair, to, pair, liquidity, signers);
      && w1.Ok?
      && var burned := PairBurn(w1.value, pair, to);
      && burned.Ok?
      && r.value.1 == Reorder(a, Ascending(a, b).0, burned.value.1.0, burned.value.1.1)
      && r.value.1.0 >= amountAMin && r.value.1.1 >= amountBMin
      && r.value.0 == burned.value.0
    ensures (w.now <= deadline && to in signers && FactoryRegistry(w).Ok?
             && Factory.GetPair(w.registry, a, b).Some? && a != b) ==>
      var pair := PairFor(derive, w.registry.self, a, b).value;
      var w1 := PairLpTransfer(w, pair, to, pair, liquidity, signers);
      && (w1.Err? ==> r == Err(Trap))
      && (w1.Ok? ==>
            var burned := PairBurn(w1.value, pair, to);
            && (burned.Err? ==> r == Err(Trap))
            && (burned.Ok? ==>
                  var amounts := Reorder(a, Ascending(a, b).0, burned.value.1.0, burned.value.1.1);
                  r == (if amounts.0 < amountAMin then Err(InsufficientAAmount)
                        else if amounts.1 < amountBMin then Err(InsufficientBAmount)
                        else Ok((burned.value.0, amounts)))))
  {
    var _ :- Ensure(w.now, deadline);
    if to !in signers then Err(Trap)
    else
      var reg :- FactoryRegistry(w);
      if Factory.GetPair(reg, a, b).None? then Err(PairDoesNotExist)
      else
        var pair :- PairFor(derive, reg.self, a, b).MapError(_ => Trap);
        var w1 :- PairLpTransfer(w, pair, to, pair, liquidity, signers);
        var (w2, (amount0, amount1)) :- PairBurn(w1, pair, to);
        var (token0, _) := SortTokens(a, b).value;
        var (amountA, amountB) := Reorder(a, token0, amount0, amount1);
        if amountA < amountAMin then Err(InsufficientAAmount)
        else if amountB < amountBMin then Err(InsufficientBAmount)
        else Ok((w2, (amountA, amountB)))
  }

  // ---------------------------------------------------------------------------
  // Read-only entry points

  /** `quote`: the library's quote, aborting on its errors. */
  function Quote(amountA: i128, reserveA: i128, reserveB: i128): (r: Result<i128, RouterError>)
    ensures r.Ok? <==> Library.CalculateQuote(amountA, reserveA, reserveB).Ok?
    ensures r.Ok? ==> r.value == Library.CalculateQuote(amountA, reserveA, reserveB).value
    ensures r.Err? ==> r.error == Trap
  {
    Library.CalculateQuote(amountA, reserveA, reserveB).MapError(_ => Trap)
  }

  /** `get_amount_out`. */
  function GetAmountOut(amountIn: i128, reserveIn: i128, reserveOut: i128): (r: Result<i128, RouterError>)
    ensures r.Ok? <==> Library.CalculateAmountOut(amountIn, reserveIn, reserveOut).Ok?
    ensures r.Ok? ==> r.value == Library.CalculateAmountOut(amountIn, reserveIn, reserveOut).value
    ensures r.Err? ==> r.error == Trap
  {
    Library.CalculateAmountOut(amountIn, reserveIn, reserveOut).MapError(_ => Trap)
  }

  /** `get_amount_in`. */
  function GetAmountIn(amountOut: i128, reserveIn: i128, reserveOut: i128): (r: Result<i128, RouterError>)
    ensures r.Ok? <==> Library.CalculateAmountIn(amountOut, reserveIn, reserveOut).Ok?
    ensures r.Ok? ==> r.value == Library.CalculateAmountIn(amountOut, reserveIn, reserveOut).value
    ensures r.Err? ==> r.error == Trap
  {
    Library.CalculateAmountIn(amountOut, reserveIn, reserveOut).MapError(_ => Trap)
  }

  /** `get_amounts_out`, against the pairs of the router's factory. */
  function GetAmountsOut(w: World, amountIn: i128, path: seq<Address>, derive: Derivation): (r: Result<seq<i128>, RouterError>)
    ensures w.factory.None? || |path| < 2 ==> r == Err(Trap)
    ensures r.Err? ==> r.error == Trap
    ensures r.Ok? ==>
      && w.factory.Some?
      && Library.IsAmountsOut(r.value, path, OracleOf(w, w.factory.value, derive))
      && r.value[0] == amountIn
    ensures w.factory.Some? ==> (r.Ok? <==> Library.GetAmountsOut(amountIn, path, OracleOf(w, w.factory.value, derive)).Ok?)
    ensures r.Ok? ==> r.value == Library.GetAmountsOut(amountIn, path, OracleOf(w, w.factory.value, derive)).value
  {
    var factory :- w.factory.OrErr(Trap);
    Library.GetAmountsOut(amountIn, path, OracleOf(w, factory, derive)).MapError(_ => Trap)
  }

  /** `get_amounts_in`, against the pairs of the router's factory. */
  function GetAmountsIn(w: World, amountOut: i128, path: seq<Address>, derive: Derivation): (r: Result<seq<i128>, RouterError>)
    ensures w.factory.None? || |path| < 2 ==> r == Err(Trap)
    ensures r.Err? ==> r.error == Trap
    ensures r.Ok? ==>
      && w.factory.Some?
      && Library.IsAmountsIn(r.value, path, OracleOf(w, w.factory.value, derive))
      && r.value[|path| - 1] == amountOut
    ensures w.factory.Some? ==> (r.Ok? <==> Library.GetAmountsIn(amountOut, path, OracleOf(w, w.factory.value, derive)).Ok?)
    ensures r.Ok? ==> r.value == Library.GetAmountsIn(amountOut, path, OracleOf(w, w.factory.value, derive)).value
  {
    var factory :- w.factory.OrErr(Trap);
    Library.GetAmountsIn(amountOut, path, OracleOf(w, factory, derive)).MapError(_ => Trap)
  }

  // ---------------------------------------------------------------------------
  // Swaps

  /**
   * Hop `i` of `_swap`: the pair of `path[i]` and `path[i + 1]`, the output
   * `amounts[i + 1]` on the side of `path[i + 1]`, and the recipient: the next
   * hop's pair, or `to` on the last hop.
   */
  datatype Hop = Hop(pair: Address, amount0Out: i128, amount1Out: i128, recipient: Address)

  function HopAt(factory: Address, amounts: seq<i128>, path: seq<Address>, to: Address, i: nat, derive: Derivation): (r: Result<Hop, RouterError>)
    requires |amounts| == |path| && i + 1 < |path|
    ensures r.Err? <==> path[i] == path[i + 1] || (i + 2 < |path| && path[i + 1] == path[i + 2])
    ensures r.Err? ==> r.error == Trap
    ensures r.Ok? ==>
      && r.value.pair == derive(factory, Ascending(path[i], path[i + 1]).0, Ascending(path[i], path[i + 1]).1)
      && (path[i] < path[i + 1] ==> r.value.amount0Out == 0 && r.value.amount1Out == amounts[i + 1])
      && (path[i + 1] < path[i] ==> r.value.amount0Out == amounts[i + 1] && r.value.amount1Out == 0)
      && (i + 2 < |path| ==> r.value.recipient == derive(factory, Ascending(path[i + 1], path[i + 2]).0, Ascending(path[i + 1], path[i + 2]).1))
      && (i + 2 == |path| ==> r.value.recipient == to)
  {
    var input, output := path[i], path[i + 1];
    var (token0, _) :- Library.SortTokens(input, output).MapError(_ => Trap);
    var amountOut := amounts[i + 1];
    var (amount0Out, amount1Out) := if input == token0 then (0, amountOut) else (amountOut, 0);
    var recipient :- if i < |path| - 2 then Library.PairFor(factory, output, path[i + 2], derive).MapError(_ => Trap) else Ok(to);
    var pair := Library.PairFor(factory, input, output, derive).value;
    Ok(Hop(pair, amount0Out, amount1Out, recipient))
  }

  /** `_swap` from hop `i` on: each hop's pair swap, in path order. */
  function SwapHops(w: World, factory: Address, amounts: seq<i128>, path: seq<Address>, to: Address, i: nat, derive: Derivation): (r: Result<World, RouterError>)
    requires |amounts| == |path| && 1 <= i + 1 <= |path|
    ensures i + 1 == |path| ==> r == Ok(w)
    ensures i + 1 < |path| && r.Ok? ==>
      && HopAt(factory, amounts, path, to, i, derive).Ok?
      && var hop := HopAt(factory, amounts, path, to, i, derive).value;
         PairSwap(w, hop.pair, hop.amount0Out, hop.amount1Out, hop.recipient).Ok?
    ensures r.Err? ==> r.error == Trap
    ensures r.Ok? ==> r.value.now == w.now && r.value.factory == w.factory && r.value.registry == w.registry
    decreases |path| - i
  {
    if i + 1 == |path| then Ok(w)
    else
      var hop :- HopAt(factory, amounts, path, to, i, derive);
      var w1 :- PairSwap(w, hop.pair, hop.amount0Out, hop.amount1Out, hop.recipient);
      SwapHops(w1, factory, amounts, path, to, i + 1, derive)
  }

  /**
   * What both swap entry points do once the amounts are priced and accepted:
   * send `amounts[0]` of `path[0]` from `to` to the first pair, then run every
   * hop; an abort in either step aborts the call.
   */
  function SwapChain(w: World, amounts: seq<i128>, path: seq<Address>, to: Address, derive: Derivation): (r: Result<(World, seq<i128>), RouterError>)
    requires w.factory.Some? && |path| >= 2 && |amounts| == |path|
    ensures r.Err? ==> r.error == Trap
    ensures Library.PairFor(w.factory.value, path[0], path[1], derive).Err? ==> r == Err(Trap)
    ensures Library.PairFor(w.factory.value, path[0], path[1], derive).Ok? ==>
      var w1 := TokenTransfer(w, path[0], to, Library.PairFor(w.factory.value, path[0], path[1], derive).value, amounts[0]);
      && (w1.Err? ==> r == Err(Trap))
      && (w1.Ok? ==>
            var w2 := SwapHops(w1.value, w.factory.value, amounts, path, to, 0, derive);
            && (w2.Err? ==> r == Err(Trap))
            && (w2.Ok? ==> r == Ok((w2.value, amounts))))
  {
    var factory := w.factory.value;
    var pair :- Library.PairFor(factory, path[0], path[1], derive).MapError(_ => Trap);
    var w1 :- TokenTransfer(w, path[0], to, pair, amounts[0]);
    var w2 :- SwapHops(w1, factory, amounts, path, to, 0, derive);
    Ok((w2, amounts))
  }

  /**
   * `swap_exact_tokens_for_tokens`: prices the path with `get_amounts_out`,
   * requires the final amount to reach `amountOutMin`, sends `amountIn` from
   * `to` to the first pair and runs the hops.
   */
  function SwapExactTokensForTokens(
    w: World, amountIn: i128, amountOutMin: i128, path: seq<Address>,
    to: Address, deadline: u64, signers: set<Address>, derive: Derivation): (r: Result<(World, seq<i128>), RouterError>)
    ensures w.now > deadline ==> r == Err(DeadlineExpired)
    ensures w.now <= deadline && to !in signers ==> r == Err(Trap)
    ensures (w.now <= deadline && to in signers && GetAmountsOut(w, amountIn, path, derive).Ok? &&
             GetAmountsOut(w, amountIn, path, derive).value[|path| - 1] < amountOutMin) ==> r == Err(InsufficientOutputAmount)
    ensures r.Ok? ==>
      && GetAmountsOut(w, amountIn, path, derive) == Ok(r.value.1)
      && r.value.1[0] == amountIn
      && r.value.1[|path| - 1] >= amountOutMin
    ensures r.Err? ==> r.error in {DeadlineExpired, Trap, InsufficientOutputAmount}
    ensures w.now <= deadline && to in signers ==>
      var amounts := GetAmountsOut(w, amountIn, path, derive);
      && (amounts.Err? ==> r == Err(amounts.error))
      && (amounts.Ok? && amounts.value[|path| - 1] >= amountOutMin ==>
            SwapChain(w, amounts.value, path, to, derive) == r)
  {
    var _ :- Ensure(w.now, deadline);
    if to !in signers then Err(Trap)
    else
      var amounts :- GetAmountsOut(w, amountIn, path, derive);
      if amounts[|amounts| - 1] < amountOutMin then Err(InsufficientOutputAmount)
      else SwapChain(w, amounts, path, to, derive)
  }

  /**
   * `swap_tokens_for_exact_tokens`: prices the path with `get_amounts_in`,
   * requires the first amount to stay within `amountInMax`, sends it from `to`
   * to the first pair and runs the hops.
   */
  function SwapTokensForExactTokens(
    w: World, amountOut: i128, amountInMax: i128, path: seq<Address>,
    to: Address, deadline: u64, signers: set<Address>, derive: Derivation): (r: Result<(World, seq<i128>), RouterError>)
    ensures w.now > deadline ==> r == Err(DeadlineExpired)
    ensures w.now <= deadline && to !in signers ==> r == Err(Trap)
    ensures (w.now <= deadline && to in signers && GetAmountsIn(w, amountOut, path, derive).Ok? &&
             GetAmountsIn(w, amountOut, path, derive).value[0] > amountInMax) ==> r == Err(ExcessiveInputAmount)
    ensures r.Ok? ==>
      && GetAmountsIn(w, amountOut, path, derive) == Ok(r.value.1)
      && r.value.1[|path| - 1] == amountOut
      && r.value.1[0] <= amountInMax
    ensures r.Err? ==> r.error in {DeadlineExpired, Trap, ExcessiveInputAmount}
    ensures w.now <= deadline && to in signers ==>
      var amounts := GetAmountsIn(w, amountOut, path, derive);
      && (amounts.Err? ==> r == Err(amounts.error))
      && (amounts.Ok? && amounts.value[0] <= amountInMax ==>
            SwapChain(w, amounts.value, path, to, derive) == r)
  {
    var _ :- Ensure(w.now, deadline);
    if to !in signers then Err(Trap)
    else
      var amounts :- GetAmountsIn(w, amountOut, path, derive);
      if amounts[0] > amountInMax then Err(ExcessiveInputAmount)
      else SwapChain(w, amounts, path, to, derive)
  }
}

=== FILE: router_proofs.dfy ===
/**
 * How the router's pieces fit together. The library's quote passes the pair's
 * fee-adjusted product check whenever the quote's rounded fee is at least the
 * 0.3% the pair charges, and can fail it otherwise. A pair created through the
 * router with its tokens in descending order cannot be found again, so that
 * first deposit aborts. A deposit into an existing pair is sized from the
 * reserves in pair order, whatever the caller's token order. Each hop of a
 * swap goes to the pair the factory recorded for the two tokens.
 */
module RouterProofs {
  import opened Results
  import opened Int128
  import opened Addresses
  import opened RouterHelper
  import opened Router
  import Library
  import Pair
  import Factory
  import FactoryProofs

  // ---------------------------------------------------------------------------
  // The library's quote against the pair's check

  /**
   * The pair's check after a trade quoted by the library, with the input on the
   * `reserveIn` side: when the quote kept at least 0.3% of the input, the
   * fee-adjusted product covers the old one.
   */
  lemma QuotedProductCovers(reserveIn: int, reserveOut: int, amountIn: int, fee: int, out: int)
    requires reserveIn > 0 && reserveOut > 0 && 0 <= out < reserveOut
    requires 0 <= fee <= amountIn && fee * 1000 >= amountIn * 3
    requires (reserveIn + (amountIn - fee)) * (reserveOut - out) >= reserveIn * reserveOut
    ensures ((reserveIn + amountIn) * 1000 - amountIn * 3) * ((reserveOut - out) * 1000) >= reserveIn * reserveOut * 1000000
  {
    var net := reserveIn + (amountIn - fee);
    var left := (reserveIn + amountIn) * 1000 - amountIn * 3;
    var right := (reserveOut - out) * 1000;
    assert net * 1000 <= left;
    MulLe(net * 1000, left, right);
    assert (net * 1000) * right == (net * (reserveOut - out)) * 1000000;
    MulLe(reserveIn * reserveOut, net * (reserveOut - out), 1000000);
  }

  /** The pair's state after `amountIn` of token0 arrived on settled reserves. */
  predicate Funded(s: Pair.PairState, amountIn: i128, to: Address) {
    && s.unlocked && s.config.Some?
    && to != s.config.value.token0 && to != s.config.value.token1 && to != s.self
    && 0 < s.reserve0 <= 1_000_000_000_000_000 && 0 < s.reserve1 <= 1_000_000_000_000_000
    && 0 < amountIn <= 1_000_000_000_000_000
    && s.held0 == s.reserve0 + amountIn && s.held1 == s.reserve1
  }

  /**
   * Paying `amountIn` of token0 into a pair and asking for the library's quote
   * of token1 succeeds, when the quote's fee is at least 0.3% of the input (the
   * bounds keep every product inside `i128`). The reserves become the
   * balances.
   */
  lemma QuotedSwapSucceeds(s: Pair.PairState, amountIn: i128, to: Address)
    requires Funded(s, amountIn, to)
    requires Library.SwapFee(amountIn) * 1000 >= amountIn * 3
    requires Library.CalculateAmountOut(amountIn, s.reserve0, s.reserve1).Ok?
    requires Library.CalculateAmountOut(amountIn, s.reserve0, s.reserve1).value > 0
    ensures var out := Library.CalculateAmountOut(amountIn, s.reserve0, s.reserve1).value;
      && Pair.Swap(s, 0, out, to).Ok?
      && Pair.GetReserves(Pair.Swap(s, 0, out, to).value) == (s.reserve0 + amountIn, s.reserve1 - out)
  {
    var out := Library.CalculateAmountOut(amountIn, s.reserve0, s.reserve1).value;
    QuotedSwapInRange(s.reserve0, s.reserve1, amountIn, Library.SwapFee(amountIn), out);
    QuotedSwapLocked(Pair.Acquire(s), amountIn, out, to);
  }

  /**
   * Through the router: the pair at `pair`, funded with `amountIn` of token0,
   * pays the library's quote of token1 to `to` whenever `to`'s balance has room
   * for it, and `to` receives exactly that quote.
   */
  lemma QuotedPairSwapSucceeds(w: World, pair: Address, amountIn: i128, to: Address)
    requires pair in w.pairs
    requires Funded(PairAt(w, pair).value, amountIn, to)
    requires var s := PairAt(w, pair).value;
      && Library.SwapFee(amountIn) * 1000 >= amountIn * 3
      && Library.CalculateAmountOut(amountIn, s.reserve0, s.reserve1).Ok?
      && Library.CalculateAmountOut(amountIn, s.reserve0, s.reserve1).value > 0
      && s.config.value.token0 != s.config.value.token1
      && InI128(Wallet(w, s.config.value.token1, to) + Library.CalculateAmountOut(amountIn, s.reserve0, s.reserve1).value)
    ensures var s := PairAt(w, pair).value;
      var out := Library.CalculateAmountOut(amountIn, s.reserve0, s.reserve1).value;
      && PairSwap(w, pair, 0, out, to).Ok?
      && Wallet(PairSwap(w, pair, 0, out, to).value, s.config.value.token1, to) == Wallet(w, s.config.value.token1, to) + out
  {
    var s := PairAt(w, pair).value;
    var out := Library.CalculateAmountOut(amountIn, s.reserve0, s.reserve1).value;
    QuotedSwapSucceeds(s, amountIn, to);
    PairCallStores(w, s, Pair.Swap(s, 0, out, to).value, to);
  }

  /**
   * Storing back a pair whose balances fell by amounts that fit in `to`'s
   * balances succeeds: a pair call fails at the router only when the pair fails.
   */
  lemma PairCallStores(w: World, before: Pair.PairState, after: Pair.PairState, to: Address)
    requires after.self == before.self && after.config == before.config
    requires after.held0 <= before.held0 && after.held1 <= before.held1
    requires after.config.Some? && after.config.value.token0 != after.config.value.token1
    requires InI128(Wallet(w, after.config.value.token0, to) + (before.held0 - after.held0))
    requires InI128(Wallet(w, after.config.value.token1, to) + (before.held1 - after.held1))
    ensures StorePair(w, before, after, to).Ok?
  {
    var config := after.config.value;
    var w1 := w.(pairs := w.pairs[after.self := after]);
    assert Wallet(w1, config.token0, to) == Wallet(w, config.token0, to);
    var w2 := w1.(wallets := w1.wallets[(config.token0, to) := Wallet(w1, config.token0, to) + (before.held0 - after.held0)]);
    assert Wallet(w2, config.token1, to) == Wallet(w, config.token1, to);
  }

  /** A pair's `mint` moves no token, so at the router it succeeds exactly when the pair's mint does. */
  lemma PairMintSucceeds(w: World, pair: Address, to: Address)
    requires pair in w.pairs
    ensures var s := PairAt(w, pair).value;
      PairMint(w, pair, to).Ok? <==> Pair.Mint(s, to, FeeToFor(w, s)).Ok?
  {
    var s := PairAt(w, pair).value;
    var minted := Pair.Mint(s, to, FeeToFor(w, s));
    if minted.Ok? {
      UnmovedStores(w, s, minted.value.0, to);
    }
  }

  /** Storing back a pair whose balances did not move cannot overflow a credit, so it succeeds. */
  lemma UnmovedStores(w: World, before: Pair.PairState, after: Pair.PairState, to: Address)
    requires after.self == before.self && after.config == before.config
    requires after.held0 == before.held0 && after.held1 == before.held1
    ensures StorePair(w, before, after, to).Ok?
  {
    if after.config.Some? {
      var config := after.config.value;
      var w1 := w.(pairs := w.pairs[after.self := after]);
      var w2 := w1.(wallets := w1.wallets[(config.token0, to) := Wallet(w1, config.token0, to)]);
      assert Wallet(w2, config.token1, to) + 0 == Wallet(w2, config.token1, to);
    }
  }

  /** The body of `swap` on a funded pair, for an output whose check and products are known to pass. */
  lemma QuotedSwapLocked(a: Pair.PairState, amountIn: i128, out: i128, to: Address)
    requires a.config.Some? && to != a.config.value.token0 && to != a.config.value.token1 && to != a.self
    requires a.reserve0 > 0 && 0 < out <= a.reserve1 && a.held0 == a.reserve0 + amountIn && a.held1 == a.reserve1 && amountIn > 0
    requires InI128((a.reserve0 + amountIn) * 1000) && InI128(amountIn * 3) && InI128(a.reserve1 * 1000)
    requires InI128((a.reserve0 + amountIn) * 1000 - amountIn * 3) && InI128((a.reserve1 - out) * 1000)
    requires InI128(((a.reserve0 + amountIn) * 1000 - amountIn * 3) * ((a.reserve1 - out) * 1000))
    requires InI128(a.reserve0 * a.reserve1) && InI128(a.reserve0 * a.reserve1 * 1000000)
    requires ((a.reserve0 + amountIn) * 1000 - amountIn * 3) * ((a.reserve1 - out) * 1000) >= a.reserve0 * a.reserve1 * 1000000
    ensures Pair.SwapLocked(a, 0, out, to).Ok?
    ensures Pair.GetReserves(Pair.SwapLocked(a, 0, out, to).value) == (a.reserve0 + amountIn, a.reserve1 - out)
  {
    assert Pair.PayOut(a.held1, out, false) == Ok(a.reserve1 - out);
    assert Pair.MeasuredInput(a.held0, a.reserve0, 0) == Ok(amountIn);
    assert Pair.MeasuredInput(a.reserve1 - out, a.reserve1, out) == Ok(0);
    assert Pair.CheckK(a.held0, a.reserve1 - out, amountIn, 0, a.reserve0, a.reserve1).Ok?;
    assert Pair.SwapLocked(a, 0, out, to).Ok?;
  }

  /** The products the pair computes for a quoted trade on bounded reserves fit in `i128`, and pass the check. */
  lemma QuotedSwapInRange(reserve0: int, reserve1: int, amountIn: int, fee: int, out: int)
    requires 0 < reserve0 <= 1_000_000_000_000_000 && 0 < reserve1 <= 1_000_000_000_000_000
    requires 0 < amountIn <= 1_000_000_000_000_000 && 0 <= out < reserve1
    requires 0 <= fee <= amountIn && fee * 1000 >= amountIn * 3
    requires (reserve0 + (amountIn - fee)) * (reserve1 - out) >= reserve0 * reserve1
    ensures InI128((reserve0 + amountIn) * 1000) && InI128(amountIn * 3) && InI128(reserve1 * 1000)
    ensures InI128((reserve0 + amountIn) * 1000 - amountIn * 3) && InI128((reserve1 - out) * 1000)
    ensures InI128(((reserve0 + amountIn) * 1000 - amountIn * 3) * ((reserve1 - out) * 1000))
    ensures InI128(reserve0 * reserve1) && InI128(reserve0 * reserve1 * 1000000)
    ensures ((reserve0 + amountIn) * 1000 - amountIn * 3) * ((reserve1 - out) * 1000) >= reserve0 * reserve1 * 1000000
  {
    QuotedProductCovers(reserve0, reserve1, amountIn, fee, out);
    var left := (reserve0 + amountIn) * 1000 - amountIn * 3;
    var right := (reserve1 - out) * 1000;
    MulLe(left, 2_000_000_000_000_000_000, right);
    MulLe(right, 1_000_000_000_000_000_000, 2_000_000_000_000_000_000);
    MulLe(reserve0, 1_000_000_000_000_000, reserve1);
    MulLe(reserve1, 1_000_000_000_000_000, 1_000_000_000_000_000);
  }

  /**
   * The rounding gap, on a pool of a million units a side: the library quotes
   * 1990 for 1999 in, keeping a fee of 5 where the pair charges 5.997, and the
   * pair rejects that very trade with `K`.
   */
  lemma QuotedSwapRejectedExample(self: Address, factory: Address, token0: Address, token1: Address, to: Address)
    requires to != token0 && to != token1 && to != self
    ensures Library.CalculateAmountOut(1999, 1_000_000, 1_000_000) == Ok(1990)
    ensures Library.SwapFee(1999) * 1000 < 1999 * 3
    ensures var s := Pair.NewPair(self).(config := Some(Pair.PairConfig(factory, token0, token1)), unlocked := true,
                                         reserve0 := 1_000_000, reserve1 := 1_000_000, held0 := 1_001_999, held1 := 1_000_000);
      Pair.Swap(s, 0, 1990, to) == Err(Pair.K)
  {
    FloorDivUnique(5997, 1000, 5);
    FloorDivUnique(1994 * 1_000_000, 1_001_994, 1990);
    var s := Pair.NewPair(self).(config := Some(Pair.PairConfig(factory, token0, token1)), unlocked := true,
                                 reserve0 := 1_000_000, reserve1 := 1_000_000, held0 := 1_001_999, held1 := 1_000_000);
    var s1 := Pair.Acquire(s);
    assert Pair.PayOut(s1.held1, 1990, false) == Ok(998_010);
    assert Pair.MeasuredInput(1_001_999, 1_000_000, 0) == Ok(1999);
    assert Pair.MeasuredInput(998_010, 1_000_000, 1990) == Ok(0);
    assert Pair.Adjusted(1_001_999, 1999) == Ok(1_001_993_003);
    assert Pair.Adjusted(998_010, 0) == Ok(998_010_000);
    assert 1_001_993_003 * 998_010_000 < 1_000_000 * 1_000_000 * 1_000_000;
  }

  /**
   * The quote of the pair test's trade, 10 000 000 in against reserves of
   * 50 000 000 and 100 000 000: here 0.3% of the input is a whole number, so
   * the quote's fee is exact.
   */
  lemma TestSwapQuote()
    ensures Library.CalculateAmountOut(10_000_000, 50_000_000, 100_000_000) == Ok(16_624_979)
    ensures Library.SwapFee(10_000_000) * 1000 == 10_000_000 * 3
  {
    FloorDivUnique(30_000_000, 1000, 30_000);
    FloorDivUnique(9_970_000 * 100_000_000, 59_970_000, 16_624_979);
  }

  // ---------------------------------------------------------------------------
  // Adding liquidity

  /**
   * When the factory does not know the pair and the caller lists the tokens in
   * descending order, `_add_liquidity` creates the pair under a key `get_pair`
   * never reads, fails the second lookup and aborts; so does `add_liquidity`.
   */
  lemma AddLiquidityDescendingNewPairAborts(
    w: World, a: Address, b: Address,
    amountADesired: i128, amountBDesired: i128, amountAMin: i128, amountBMin: i128,
    to: Address, deadline: u64, signers: set<Address>, derive: Derivation)
    requires b < a
    requires FactoryRegistry(w).Ok? && Factory.GetPair(w.registry, a, b).None?
    ensures AddLiquidityAmounts(w, a, b, amountADesired, amountBDesired, amountAMin, amountBMin, derive) == Err(Trap)
    ensures w.now <= deadline ==>
      AddLiquidity(w, a, b, amountADesired, amountBDesired, amountAMin, amountBMin, to, deadline, signers, derive) == Err(Trap)
  {
    if Factory.CreatePair(w.registry, a, b, derive).Ok? {
      FactoryProofs.DescendingCreateIsInvisible(w.registry, a, b, derive);
    }
  }

  /**
   * On a pair the factory already knows, `_add_liquidity` changes nothing and
   * sizes the deposit from `reserve0` and `reserve1` as `(reserveA, reserveB)`,
   * whichever of `a` and `b` is token0.
   */
  lemma AddLiquidityUsesPairOrderReserves(
    w: World, a: Address, b: Address,
    amountADesired: i128, amountBDesired: i128, amountAMin: i128, amountBMin: i128, derive: Derivation)
    requires FactoryRegistry(w).Ok? && a != b
    requires Factory.GetPair(w.registry, a, b).Some? && Factory.GetPair(w.registry, a, b).value in w.pairs
    ensures var s := w.pairs[Factory.GetPair(w.registry, a, b).value];
      AddLiquidityAmounts(w, a, b, amountADesired, amountBDesired, amountAMin, amountBMin, derive) ==
        match Library.OptimalLiquidity(amountADesired, amountBDesired, amountAMin, amountBMin, s.reserve0, s.reserve1)
        case Ok(amounts) => Ok((w, amounts))
        case Err(e) => Err(FromLibrary(e))
  {
    assert Factory.SortTokens(Ascending(a, b).0, Ascending(a, b).1) == Factory.SortTokens(a, b);
  }

  /**
   * What the un-reoriented reserves cost: a pool of 1000 token0 and 4000
   * token1, a caller offering 400 token1 as `a` and 100 token0 as `b` (the
   * pool's ratio) deposits 25 token1 and 100 token0; offered in pair order,
   * the same amounts are taken whole.
   */
  lemma MisorderedDepositExample()
    ensures Library.OptimalLiquidity(400, 100, 0, 0, 1000, 4000) == Ok((25, 100))
    ensures Library.OptimalLiquidity(100, 400, 0, 0, 1000, 4000) == Ok((100, 400))
  {
    FloorDivUnique(1_600_000, 1000, 1600);
    FloorDivUnique(100_000, 4000, 25);
    FloorDivUnique(400_000, 1000, 400);
  }

  /**
   * A successful `add_liquidity` moves exactly the two sized amounts from `to`
   * to the pair, each in its own token; minting LP units moves no token.
   */
  lemma AddLiquidityMovesDeposits(
    w: World, a: Address, b: Address,
    amountADesired: i128, amountBDesired: i128, amountAMin: i128, amountBMin: i128,
    to: Address, deadline: u64, signers: set<Address>, derive: Derivation)
    requires AddLiquidity(w, a, b, amountADesired, amountBDesired, amountAMin, amountBMin, to, deadline, signers, derive).Ok?
    ensures a != b && w.factory.Some? && PairFor(derive, w.factory.value, a, b).Ok?
    ensures var (w2, (amountA, amountB, _)) := AddLiquidity(w, a, b, amountADesired, amountBDesired, amountAMin, amountBMin, to, deadline, signers, derive).value;
      var pair := PairFor(derive, w.factory.value, a, b).value;
      to != pair ==>
        && Wallet(w2, a, to) == Wallet(w, a, to) - amountA && Wallet(w2, a, pair) == Wallet(w, a, pair) + amountA
        && Wallet(w2, b, to) == Wallet(w, b, to) - amountB && Wallet(w2, b, pair) == Wallet(w, b, pair) + amountB
  {
    var amounts := AddLiquidityAmounts(w, a, b, amountADesired, amountBDesired, amountAMin, amountBMin, derive);
    var w1 := amounts.value.0;
    var (amountA, amountB) := amounts.value.1;
    var pair := PairFor(derive, w1.factory.value, a, b).value;
    var w2 := TokenTransfer(w1, a, to, pair, amountA);
    var w3 := TokenTransfer(w2.value, b, to, pair, amountB);
    var minted := PairMint(w3.value, pair, to);
    if to != pair {
      DepositChain(w1, a, b, to, pair, amountA, amountB, w2.value, w3.value, minted.value.0);
    }
  }

  /** Two transfers from `to` to the pair, in two different tokens, then a mint that moves no token. */
  lemma DepositChain(
    w1: World, a: Address, b: Address, to: Address, pair: Address, amountA: i128, amountB: i128,
    w2: World, w3: World, w4: World)
    requires a != b && to != pair
    requires TokenTransfer(w1, a, to, pair, amountA) == Ok(w2)
    requires TokenTransfer(w2, b, to, pair, amountB) == Ok(w3)
    requires forall t: Address, h: Address :: Wallet(w4, t, h) == Wallet(w3, t, h)
    ensures Wallet(w4, a, to) == Wallet(w1, a, to) - amountA && Wallet(w4, a, pair) == Wallet(w1, a, pair) + amountA
    ensures Wallet(w4, b, to) == Wallet(w1, b, to) - amountB && Wallet(w4, b, pair) == Wallet(w1, b, pair) + amountB
  {
  }

  /**
   * A successful `remove_liquidity` keeps, for each of the pair's two tokens,
   * what `to` and the pair hold between them: the burn only moves the payout
   * from the pair to `to`, and the LP transfer moves no token.
   */
  lemma RemoveLiquidityConservesTokens(
    w: World, a: Address, b: Address, liquidity: i128, amountAMin: i128, amountBMin: i128,
    to: Address, deadline: u64, signers: set<Address>, derive: Derivation)
    requires RemoveLiquidity(w, a, b, liquidity, amountAMin, amountBMin, to, deadline, signers, derive).Ok?
    ensures a != b && w.factory.Some? && PairFor(derive, w.factory.value, a, b).Ok?
    ensures var pair := PairFor(derive, w.factory.value, a, b).value;
      PairAt(w, pair).Ok? && PairAt(w, pair).value.config.Some?
    ensures var w2 := RemoveLiquidity(w, a, b, liquidity, amountAMin, amountBMin, to, deadline, signers, derive).value.0;
      var pair := PairFor(derive, w.factory.value, a, b).value;
      var config := PairAt(w, pair).value.config.value;
      to != pair && config.token0 != config.token1 ==>
        && Wallet(w2, config.token0, to) + Wallet(w2, config.token0, pair) == Wallet(w, config.token0, to) + Wallet(w, config.token0, pair)
        && Wallet(w2, config.token1, to) + Wallet(w2, config.token1, pair) == Wallet(w, config.token1, to) + Wallet(w, config.token1, pair)
  {
    var pair := PairFor(derive, w.factory.value, a, b).value;
    var w1 := PairLpTransfer(w, pair, to, pair, liquidity, signers).value;
    assert w1.wallets == w.wallets;
    assert PairAt(w1, pair).value.config == PairAt(w, pair).value.config;
    assert PairBurn(w1, pair, to).Ok?;
  }

  /**
   * A successful `remove_liquidity` pays `to` the two amounts it returns, each
   * in its own token and out of the pair's balances, when the pair at the
   * derived address holds the sorted `a` and `b`, as every pair the factory
   * deploys does.
   */
  lemma RemoveLiquidityPaysTo(
    w: World, a: Address, b: Address, liquidity: i128, amountAMin: i128, amountBMin: i128,
    to: Address, deadline: u64, signers: set<Address>, derive: Derivation)
    requires RemoveLiquidity(w, a, b, liquidity, amountAMin, amountBMin, to, deadline, signers, derive).Ok?
    ensures a != b && w.factory.Some? && PairFor(derive, w.factory.value, a, b).Ok?
    ensures var (w2, (amountA, amountB)) := RemoveLiquidity(w, a, b, liquidity, amountAMin, amountBMin, to, deadline, signers, derive).value;
      var pair := PairFor(derive, w.factory.value, a, b).value;
      to != pair && PairHolds(w, pair, Ascending(a, b).0, Ascending(a, b).1) ==>
        && Wallet(w2, a, to) == Wallet(w, a, to) + amountA
        && Wallet(w2, b, to) == Wallet(w, b, to) + amountB
        && Wallet(w2, a, pair) == Wallet(w, a, pair) - amountA
        && Wallet(w2, b, pair) == Wallet(w, b, pair) - amountB
  {
    var pair := PairFor(derive, w.factory.value, a, b).value;
    var w1 := PairLpTransfer(w, pair, to, pair, liquidity, signers).value;
    assert w1.wallets == w.wallets;
    assert PairAt(w1, pair).value.config == PairAt(w, pair).value.config;
    assert PairBurn(w1, pair, to).Ok?;
  }

  /** The pair contract at `pair` was initialised with token0 `t0` and token1 `t1`. */
  predicate PairHolds(w: World, pair: Address, t0: Address, t1: Address) {
    && pair in w.pairs
    && w.pairs[pair].config.Some?
    && w.pairs[pair].config.value.token0 == t0
    && w.pairs[pair].config.value.token1 == t1
  }

  // ---------------------------------------------------------------------------
  // Swapping

  /**
   * In a consistent registry, every hop of `_swap` between two tokens the
   * factory knows calls the pair `get_pair` returns for them, and its output
   * leaves on the side of the hop's output token.
   */
  lemma HopCallsRecordedPair(
    w: World, amounts: seq<i128>, path: seq<Address>, to: Address, i: nat, derive: Derivation)
    requires |amounts| == |path| && i + 1 < |path|
    requires FactoryRegistry(w).Ok? && FactoryProofs.Consistent(w.registry, derive)
    requires Factory.GetPair(w.registry, path[i], path[i + 1]).Some?
    requires i + 2 < |path| ==> path[i + 1] != path[i + 2]
    ensures HopAt(w.registry.self, amounts, path, to, i, derive).Ok?
    ensures var hop := HopAt(w.registry.self, amounts, path, to, i, derive).value;
      && hop.pair == Factory.GetPair(w.registry, path[i], path[i + 1]).value
      && var config := Pair.PairConfig(w.registry.self, Ascending(path[i], path[i + 1]).0, Ascending(path[i], path[i + 1]).1);
         (if path[i] == config.token0 then hop.amount0Out == 0 else hop.amount1Out == 0)
  {
    FactoryProofs.FoundPairIsDerived(w.registry, path[i], path[i + 1], derive);
  }

  /** The hops of `_swap` from hop `i` on, in path order, or the abort computing one of them. */
  function HopsFrom(factory: Address, amounts: seq<i128>, path: seq<Address>, to: Address, i: nat, derive: Derivation): (r: Result<seq<Hop>, RouterError>)
    requires |amounts| == |path| && i + 1 <= |path|
    ensures r.Ok? ==> |r.value| == |path| - 1 - i
    ensures r.Ok? ==> forall k :: 0 <= k < |r.value| ==> HopAt(factory, amounts, path, to, i + k, derive) == Ok(r.value[k])
    ensures (forall j :: i <= j < |path| - 1 ==> HopAt(factory, amounts, path, to, j, derive).Ok?) ==> r.Ok?
    ensures r.Err? ==> r.error == Trap
    decreases |path| - i
  {
    if i + 1 == |path| then Ok([])
    else
      var hop :- HopAt(factory, amounts, path, to, i, derive);
      var rest :- HopsFrom(factory, amounts, path, to, i + 1, derive);
      assert forall k :: 1 <= k < 1 + |rest| ==> ([hop] + rest)[k] == rest[k - 1];
      Ok([hop] + rest)
  }

  /** The pair swaps of a list of hops, one after the other. */
  function ApplyHops(w: World, hops: seq<Hop>): (r: Result<World, RouterError>)
    ensures hops == [] ==> r == Ok(w)
    ensures r.Err? ==> r.error == Trap
    ensures r.Ok? ==> r.value.now == w.now && r.value.factory == w.factory && r.value.registry == w.registry
    decreases |hops|
  {
    if hops == [] then Ok(w)
    else
      var w1 :- PairSwap(w, hops[0].pair, hops[0].amount0Out, hops[0].amount1Out, hops[0].recipient);
      ApplyHops(w1, hops[1..])
  }

  /**
   * `_swap` performs every hop of the path, left to right and nothing else:
   * it is the succession of the hops' pair swaps, and aborts when computing
   * any hop aborts.
   */
  lemma {:induction false} SwapHopsRunsEveryHop(w: World, factory: Address, amounts: seq<i128>, path: seq<Address>, to: Address, i: nat, derive: Derivation)
    requires |amounts| == |path| && i + 1 <= |path|
    ensures SwapHops(w, factory, amounts, path, to, i, derive) ==
      match HopsFrom(factory, amounts, path, to, i, derive)
      case Ok(hops) => ApplyHops(w, hops)
      case Err(e) => Err(e)
    decreases |path| - i
  {
    if i + 1 < |path| && HopAt(factory, amounts, path, to, i, derive).Ok? {
      var hop := HopAt(factory, amounts, path, to, i, derive).value;
      var swapped := PairSwap(w, hop.pair, hop.amount0Out, hop.amount1Out, hop.recipient);
      var rest := HopsFrom(factory, amounts, path, to, i + 1, derive);
      if swapped.Ok? {
        SwapHopsRunsEveryHop(swapped.value, factory, amounts, path, to, i + 1, derive);
        if rest.Ok? {
          assert ([hop] + rest.value)[1..] == rest.value;
        }
      }
    }
  }

  /**
   * A successful `swap_exact_tokens_for_tokens` made exactly `|path| - 1` pair
   * swaps, hop `k` between `path[k]` and `path[k + 1]`, after moving the input
   * from `to` to the first pair.
   */
  lemma SwapExactRunsAllHops(
    w: World, amountIn: i128, amountOutMin: i128, path: seq<Address>,
    to: Address, deadline: u64, signers: set<Address>, derive: Derivation)
    requires SwapExactTokensForTokens(w, amountIn, amountOutMin, path, to, deadline, signers, derive).Ok?
    ensures var (w2, amounts) := SwapExactTokensForTokens(w, amountIn, amountOutMin, path, to, deadline, signers, derive).value;
      && var factory := w.factory.value;
      && var hops := HopsFrom(factory, amounts, path, to, 0, derive);
      && hops.Ok? && |hops.value| == |path| - 1
      && var w1 := TokenTransfer(w, path[0], to, Library.PairFor(factory, path[0], path[1], derive).value, amountIn);
      && w1.Ok? && ApplyHops(w1.value, hops.value) == Ok(w2)
  {
    var (w2, amounts) := SwapExactTokensForTokens(w, amountIn, amountOutMin, path, to, deadline, signers, derive).value;
    var factory := w.factory.value;
    var w1 := TokenTransfer(w, path[0], to, Library.PairFor(factory, path[0], path[1], derive).value, amountIn);
    assert w1.Ok?;
    SwapHopsRunsEveryHop(w1.value, factory, amounts, path, to, 0, derive);
  }

  /** The same for `swap_tokens_for_exact_tokens`, whose input is the first amount `get_amounts_in` asks for. */
  lemma SwapForExactRunsAllHops(
    w: World, amountOut: i128, amountInMax: i128, path: seq<Address>,
    to: Address, deadline: u64, signers: set<Address>, derive: Derivation)
    requires SwapTokensForExactTokens(w, amountOut, amountInMax, path, to, deadline, signers, derive).Ok?
    ensures var (w2, amounts) := SwapTokensForExactTokens(w, amountOut, amountInMax, path, to, deadline, signers, derive).value;
      && var factory := w.factory.value;
      && var hops := HopsFrom(factory, amounts, path, to, 0, derive);
      && hops.Ok? && |hops.value| == |path| - 1
      && var w1 := TokenTransfer(w, path[0], to, Library.PairFor(factory, path[0], path[1], derive).value, amounts[0]);
      && w1.Ok? && ApplyHops(w1.value, hops.value) == Ok(w2)
  {
    var (w2, amounts) := SwapTokensForExactTokens(w, amountOut, amountInMax, path, to, deadline, signers, derive).value;
    var factory := w.factory.value;
    var w1 := TokenTransfer(w, path[0], to, Library.PairFor(factory, path[0], path[1], derive).value, amounts[0]);
    assert w1.Ok?;
    SwapHopsRunsEveryHop(w1.value, factory, amounts, path, to, 0, derive);
  }

  // ---------------------------------------------------------------------------
  // What a swap pays

  /** `to` is none of the pairs the hops of `path` call. */
  predicate OffPath(factory: Address, path: seq<Address>, to: Address, derive: Derivation) {
    forall k :: 0 <= k < |path| - 1 ==> to != derive(factory, Ascending(path[k], path[k + 1]).0, Ascending(path[k], path[k + 1]).1)
  }

  /**
   * A run of pair swaps whose pairs are not `to`, and whose recipients are not
   * `to` before the last, leaves `to`'s balances alone until the last swap,
   * which pays `to` its requested outputs.
   */
  lemma {:induction false} ApplyHopsPaysLast(w: World, hops: seq<Hop>, to: Address)
    requires |hops| >= 1 && hops[|hops| - 1].recipient == to
    requires forall k :: 0 <= k < |hops| ==> hops[k].pair != to
    requires forall k :: 0 <= k < |hops| - 1 ==> hops[k].recipient != to
    requires ApplyHops(w, hops).Ok?
    ensures var last := hops[|hops| - 1];
      && last.pair in w.pairs && w.pairs[last.pair].config.Some?
      && var config := w.pairs[last.pair].config.value;
         config.token0 != config.token1 ==>
           && Wallet(ApplyHops(w, hops).value, config.token0, to) == Wallet(w, config.token0, to) + (if last.amount0Out > 0 then last.amount0Out else 0)
           && Wallet(ApplyHops(w, hops).value, config.token1, to) == Wallet(w, config.token1, to) + (if last.amount1Out > 0 then last.amount1Out else 0)
    decreases |hops|
  {
    var w1 := FirstHop(w, hops, to);
    if |hops| > 1 {
      assert hops[1..][|hops| - 2] == hops[|hops| - 1];
      ApplyHopsPaysLast(w1, hops[1..], to);
    }
  }

  /**
   * The first swap of a run: it keeps which pairs exist and how each was
   * initialised, touches no balance of a holder other than its pair and its
   * recipient, and, when it pays `to` and `to` is not its pair, credits `to`
   * with its positive outputs.
   */
  lemma FirstHop(w: World, hops: seq<Hop>, to: Address) returns (w1: World)
    requires |hops| >= 1 && ApplyHops(w, hops).Ok?
    ensures ApplyHops(w1, hops[1..]) == ApplyHops(w, hops)
    ensures hops == [hops[0]] ==> ApplyHops(w, hops) == Ok(w1)
    ensures hops[0].pair in w.pairs && w.pairs[hops[0].pair].config.Some?
    ensures w1.pairs.Keys == w.pairs.Keys
    ensures forall p :: p in w.pairs ==> w1.pairs[p].config == w.pairs[p].config
    ensures forall t: Address, x: Address :: x != hops[0].pair && x != hops[0].recipient ==> Wallet(w1, t, x) == Wallet(w, t, x)
    ensures hops[0].recipient == to && hops[0].pair != to ==>
      var h := hops[0];
      var config := w.pairs[h.pair].config.value;
      config.token0 != config.token1 ==>
        && Wallet(w1, config.token0, to) == Wallet(w, config.token0, to) + (if h.amount0Out > 0 then h.amount0Out else 0)
        && Wallet(w1, config.token1, to) == Wallet(w, config.token1, to) + (if h.amount1Out > 0 then h.amount1Out else 0)
  {
    var h := hops[0];
    w1 := OneSwap(w, h);
    if hops == [h] {
      assert hops[1..] == [];
    }
    if h.recipient == to && h.pair != to {
      LastSwapPays(w, h, to);
    }
  }

  /** A pair swap that pays `to`, when `to` is not the pair, credits `to` with the positive outputs. */
  lemma LastSwapPays(w: World, h: Hop, to: Address)
    requires PairSwap(w, h.pair, h.amount0Out, h.amount1Out, h.recipient).Ok?
    requires h.recipient == to && h.pair != to
    ensures h.pair in w.pairs && w.pairs[h.pair].config.Some?
    ensures var w1 := PairSwap(w, h.pair, h.amount0Out, h.amount1Out, h.recipient).value;
      var config := w.pairs[h.pair].config.value;
      config.token0 != config.token1 ==>
        && Wallet(w1, config.token0, to) == Wallet(w, config.token0, to) + (if h.amount0Out > 0 then h.amount0Out else 0)
        && Wallet(w1, config.token1, to) == Wallet(w, config.token1, to) + (if h.amount1Out > 0 then h.amount1Out else 0)
  {
    assert PairAt(w, h.pair).value.config == w.pairs[h.pair].config;
  }

  /** One pair swap keeps which pairs exist and how each was initialised, and touches no balance of a holder other than the pair and the recipient. */
  lemma OneSwap(w: World, h: Hop) returns (w1: World)
    requires PairSwap(w, h.pair, h.amount0Out, h.amount1Out, h.recipient).Ok?
    ensures w1 == PairSwap(w, h.pair, h.amount0Out, h.amount1Out, h.recipient).value
    ensures h.pair in w.pairs && w.pairs[h.pair].config.Some?
    ensures w1.pairs.Keys == w.pairs.Keys
    ensures forall p :: p in w.pairs ==> w1.pairs[p].config == w.pairs[p].config
    ensures forall t: Address, x: Address :: x != h.pair && x != h.recipient ==> Wallet(w1, t, x) == Wallet(w, t, x)
  {
    w1 := PairSwap(w, h.pair, h.amount0Out, h.amount1Out, h.recipient).value;
    var s := PairAt(w, h.pair).value;
    var s2 := Pair.Swap(s, h.amount0Out, h.amount1Out, h.recipient).value;
    assert w1.pairs == w.pairs[h.pair := s2];
    assert s2.config == w.pairs[h.pair].config;
    forall t: Address, x: Address | x != h.pair && x != h.recipient
      ensures Wallet(w1, t, x) == Wallet(w, t, x)
    {
      assert !StoreTouches(s2, h.recipient, t, x);
    }
  }

  /**
   * When `to` is none of the path's pairs and the last pair holds the last two
   * tokens of the path, `_swap` credits `to` with exactly the last amount, in
   * the last token.
   */
  lemma SwapHopsPaysTo(w: World, factory: Address, amounts: seq<i128>, path: seq<Address>, to: Address, derive: Derivation)
    requires |amounts| == |path| && |path| >= 2
    requires SwapHops(w, factory, amounts, path, to, 0, derive).Ok?
    requires OffPath(factory, path, to, derive) && amounts[|path| - 1] >= 0
    requires var tokens := Ascending(path[|path| - 2], path[|path| - 1]);
      PairHolds(w, derive(factory, tokens.0, tokens.1), tokens.0, tokens.1)
    ensures Wallet(SwapHops(w, factory, amounts, path, to, 0, derive).value, path[|path| - 1], to)
            == Wallet(w, path[|path| - 1], to) + amounts[|path| - 1]
  {
    var n := |path|;
    SwapHopsRunsEveryHop(w, factory, amounts, path, to, 0, derive);
    var hops := HopsFrom(factory, amounts, path, to, 0, derive).value;
    forall k | 0 <= k < |hops|
      ensures hops[k].pair != to
    {
      assert HopAt(factory, amounts, path, to, k, derive) == Ok(hops[k]);
    }
    forall k | 0 <= k < |hops| - 1
      ensures hops[k].recipient != to
    {
      assert HopAt(factory, amounts, path, to, k, derive) == Ok(hops[k]);
      assert to != derive(factory, Ascending(path[k + 1], path[k + 2]).0, Ascending(path[k + 1], path[k + 2]).1);
    }
    assert HopAt(factory, amounts, path, to, n - 2, derive) == Ok(hops[n - 2]);
    ApplyHopsPaysLast(w, hops, to);
  }

  /** A hop of `get_amounts_out` never quotes a negative output. */
  lemma HopOutNotNegative(amountIn: i128, a: Address, b: Address, oracle: Library.ReserveOracle)
    requires Library.HopOut(amountIn, a, b, oracle).Ok?
    ensures amountIn > 0 && Library.HopOut(amountIn, a, b, oracle).value >= 0
  {
  }

  /** A hop of `get_amounts_in` succeeds only for a positive output. */
  lemma HopInNeedsOutput(amountOut: i128, a: Address, b: Address, oracle: Library.ReserveOracle)
    requires Library.HopIn(amountOut, a, b, oracle).Ok?
    ensures amountOut > 0
  {
  }

  /**
   * Once priced and accepted, a swap moves the input from `to` to the first
   * pair and then credits `to` with the last amount, in the last token.
   */
  lemma SwapChainPaysTo(w: World, amounts: seq<i128>, path: seq<Address>, to: Address, derive: Derivation, w2: World)
    requires w.factory.Some? && |path| >= 2 && |amounts| == |path|
    requires SwapChain(w, amounts, path, to, derive) == Ok((w2, amounts))
    requires amounts[|path| - 1] >= 0 && path[0] != path[|path| - 1]
    requires OffPath(w.factory.value, path, to, derive)
    requires var tokens := Ascending(path[|path| - 2], path[|path| - 1]);
      PairHolds(w, derive(w.factory.value, tokens.0, tokens.1), tokens.0, tokens.1)
    ensures Wallet(w2, path[|path| - 1], to) == Wallet(w, path[|path| - 1], to) + amounts[|path| - 1]
  {
    var factory := w.factory.value;
    var n := |path|;
    var pair := Library.PairFor(factory, path[0], path[1], derive).value;
    var w1 := TokenTransfer(w, path[0], to, pair, amounts[0]).value;
    assert SwapHops(w1, factory, amounts, path, to, 0, derive) == Ok(w2);
    assert w1.pairs == w.pairs;
    SwapHopsPaysTo(w1, factory, amounts, path, to, derive);
  }

  /**
   * A successful `swap_exact_tokens_for_tokens` pays `to` the last quoted
   * amount in the last token, when that token is not the one paid in, `to` is
   * none of the path's pairs, and the last pair holds the last two tokens.
   */
  lemma SwapExactPaysTo(
    w: World, amountIn: i128, amountOutMin: i128, path: seq<Address>,
    to: Address, deadline: u64, signers: set<Address>, derive: Derivation)
    requires SwapExactTokensForTokens(w, amountIn, amountOutMin, path, to, deadline, signers, derive).Ok?
    ensures |path| >= 2 && w.factory.Some?
    ensures var (w2, amounts) := SwapExactTokensForTokens(w, amountIn, amountOutMin, path, to, deadline, signers, derive).value;
      var n := |path|;
      var tokens := Ascending(path[n - 2], path[n - 1]);
      (&& path[0] != path[n - 1]
       && OffPath(w.factory.value, path, to, derive)
       && PairHolds(w, derive(w.factory.value, tokens.0, tokens.1), tokens.0, tokens.1)) ==>
        Wallet(w2, path[n - 1], to) == Wallet(w, path[n - 1], to) + amounts[n - 1]
  {
    var (w2, amounts) := SwapExactTokensForTokens(w, amountIn, amountOutMin, path, to, deadline, signers, derive).value;
    var n := |path|;
    var factory := w.factory.value;
    assert Library.LinksOut(amounts, path, OracleOf(w, factory, derive), n - 2);
    HopOutNotNegative(amounts[n - 2], path[n - 2], path[n - 1], OracleOf(w, factory, derive));
    var tokens := Ascending(path[n - 2], path[n - 1]);
    if path[0] != path[n - 1] && OffPath(factory, path, to, derive) && PairHolds(w, derive(factory, tokens.0, tokens.1), tokens.0, tokens.1) {
      SwapChainPaysTo(w, amounts, path, to, derive, w2);
    }
  }

  /**
   * A successful `swap_tokens_for_exact_tokens` pays `to` exactly the amount
   * asked for, in the last token, under the same conditions.
   */
  lemma SwapForExactPaysTo(
    w: World, amountOut: i128, amountInMax: i128, path: seq<Address>,
    to: Address, deadline: u64, signers: set<Address>, derive: Derivation)
    requires SwapTokensForExactTokens(w, amountOut, amountInMax, path, to, deadline, signers, derive).Ok?
    ensures |path| >= 2 && w.factory.Some?
    ensures var w2 := SwapTokensForExactTokens(w, amountOut, amountInMax, path, to, deadline, signers, derive).value.0;
      var n := |path|;
      var tokens := Ascending(path[n - 2], path[n - 1]);
      (&& path[0] != path[n - 1]
       && OffPath(w.factory.value, path, to, derive)
       && PairHolds(w, derive(w.factory.value, tokens.0, tokens.1), tokens.0, tokens.1)) ==>
        Wallet(w2, path[n - 1], to) == Wallet(w, path[n - 1], to) + amountOut
  {
    var (w2, amounts) := SwapTokensForExactTokens(w, amountOut, amountInMax, path, to, deadline, signers, derive).value;
    var n := |path|;
    var factory := w.factory.value;
    assert Library.LinksIn(amounts, path, OracleOf(w, factory, derive), n - 2);
    HopInNeedsOutput(amounts[n - 1], path[n - 2], path[n - 1], OracleOf(w, factory, derive));
    var tokens := Ascending(path[n - 2], path[n - 1]);
    if path[0] != path[n - 1] && OffPath(factory, path, to, derive) && PairHolds(w, derive(factory, tokens.0, tokens.1), tokens.0, tokens.1) {
      SwapChainPaysTo(w, amounts, path, to, derive, w2);
    }
  }
}
